=== FILE: README.md ===
# spdlog auto-configuration and daily rotating file sinks, modelled in Dafny

This project models two parts of an early fork of spdlog:

- **The auto-configuration engine** (`configuration` in `configuration.h` / `configuration_impl.h`).
  - `configuration::create` reads `spdlog.`-prefixed lines. Examples: `spdlog.set_async=8192`,
    `spdlog.sink.file=simple_file_sink_mt,[file_path=log.txt]`,
    `spdlog.logger.root=TRACE,[sinks=file:console,pattern="%v,%v"]`.
  - Each line becomes a directive in one of three name-keyed maps: globals, sinks, loggers.
  - A directive's value is parsed by `config_line::parse`. It is a CSV split (`parse_csv`) of a leading
    value and a bracketed attribute list, whose `name=value` pairs are split with `tokenize`.
  - `configuration::configure` works in three phases:
    1. calls every named global function (`set_async`, `set_pattern`, `set_error_handler`, or a custom one);
    2. builds every sink through the sink-factory registry;
    3. builds every logger from its sinks, its threshold (`find_log_level`), an optional pattern and an
       optional error handler.
  - Typed attribute lookups (`get_attribute<bool|int|size_t>`) and the process-wide registries
    (`register_*`) are part of the model.
- **The two daily rotating file sinks.** One is the newer one in `include/spdlog/sinks`, with a rotation
  period. The other is the older one in `sinks/`.
  - Each writes into a dated file.
  - At the rotation time it switches to a new dated file.
  - When the size cap is exceeded it shifts `log`, `log.1`, `log.2`, ... up by one generation and
    truncates `log`.

Each module follows one source unit:

| module | models |
|---|---|
| `Wrappers`, `Errors` | Option/Result/Outcome, and the exceptions the source throws, as values |
| `Strings` | `std::string` ordering, `c_str()`, `tolower`, decimal digits, `stoi`/`stoul` |
| `SortedMap` | `std::map<std::string, T>` as a sorted association list, with `find` and `emplace` |
| `Tokenizer` | `utilities::tokenize`, as a loop proved against a recursive specification |
| `Csv` | `utilities::parse_csv`, as a loop proved against a character-by-character specification |
| `Levels` | `ItemMap` and `find_log_level` |
| `Attributes` | `caseless_less_than`, `TRUE_SET`/`FALSE_SET`, `get_attribute*` |
| `ConfigLine` | `config_line::parse` and the `global_config`/`sink_config`/`logger_config` constructors |
| `Registries` | the global-function, sink-factory, warmup, teardown, error-handler and overflow-policy registries |
| `Configuration` | the `configuration` class: `add_*`, `create`, `configure`, `make_logger` |
| `DailyFiles` | what both sinks share: `calc_filename`, the rotation decision, a file system with failing paths, the generation shift |
| `RotatingSink` | the newer `daily_rotating_file_sink` (rotation period, rename list) |
| `LegacyRotatingSink` | the older `daily_rotating_file_sink` (count-down rotation) |

**Modelling choices**
- **Exceptions** become `Err`/`Fail` values.
- **Loops** become methods, each proved equal to a recursive specification function. The properties are
  lemmas about those functions.
- **Objects updated in place** become classes: the configuration, the registries, the file system and
  both sinks.
- **The file system** is a map from path to contents, plus a set of paths on which `remove` and `rename`
  fail.
- **Time** is whole seconds. The current time, local midnight (`dayStart`) and the dated file name that
  `FileNameCalc::calc_filename` would produce are parameters.

## Model

| member | source | states |
|---|---|---|
| Strings.CString | include/spdlog/details/configuration_impl.h:671 | `c_str()` as seen by `strcmp`: a prefix of the string without NUL that stops exactly at the first NUL, and the whole string when it has none |
| Strings.StrLessTransitive | include/spdlog/configuration.h:131-141 | the key order of the configuration maps is transitive |
| Strings.StrLessTotal | include/spdlog/configuration.h:131-141 | any two different keys are ordered one way or the other |
| Strings.StrLessIrreflexive | include/spdlog/configuration.h:131-141 | no key is below itself |
| Strings.StrLessAsymmetric | include/spdlog/configuration.h:131-141 | two keys are never each below the other |
| Strings.Lower | include/spdlog/details/configuration_impl.h:215 | `tolower` applied to every character, same length |
| Strings.CaselessLessIsLowerLess | include/spdlog/details/configuration_impl.h:208-218 | `caseless_less_than` is the ordinary order of the lower-cased strings |
| Strings.CaselessEquivalent | include/spdlog/details/configuration_impl.h:208-218 | two strings are equivalent under `caseless_less_than` exactly when their lower-case forms are equal |
| Strings.DecimalValue | include/spdlog/sinks/daily_rotating_file_sink.h:65 | the decimal text written for an index reads back as that index |
| Strings.DecimalInjective | include/spdlog/sinks/daily_rotating_file_sink.h:65 | different indexes are written as different decimal texts |
| Strings.ParseUnsignedDecimal | include/spdlog/details/configuration_impl.h:287 | `stoul` on a decimal followed by a non-digit yields that number |
| Strings.ParseSignedNegative | include/spdlog/details/configuration_impl.h:273 | `stoi` on `-` followed by a decimal yields the negative number |
| Strings.ParseUnsigned | include/spdlog/details/configuration_impl.h:287-291 | `stoul` fails exactly when the text does not start with a digit |
| SortedMap.Find | include/spdlog/details/configuration_impl.h:229-235 | `std::map::find` finds a key exactly when it is present, with the value stored for it |
| SortedMap.FindAt | include/spdlog/details/configuration_impl.h:229-235 | in a sorted map, looking up the key of any entry gives that entry's value |
| SortedMap.EmplaceSorted | include/spdlog/details/configuration_impl.h:796-809 | `emplace` keeps the map sorted and adds the key to its key set |
| SortedMap.EmplaceKeepsFirst | include/spdlog/details/configuration_impl.h:796-809 | `emplace` of a present key changes nothing; of a new key adds one entry; every lookup afterwards sees the old value or the new one for the new key |
| Tokenizer.Tokenize | include/spdlog/details/configuration_impl.h:146-186 | the tokenize loop returns the pieces of its specification, including the empty input and the `max` cap with its tail piece |
| Tokenizer.FindFirstOfSpec | include/spdlog/details/configuration_impl.h:157 | `find_first_of` returns the first delimiter at or after the start, or none if there is none |
| Tokenizer.TokenizeCount | include/spdlog/details/configuration_impl.h:146-186 | uncapped, a non-empty input splits into one more piece than it has delimiters |
| Tokenizer.TokenizeClean | include/spdlog/details/configuration_impl.h:146-186 | uncapped, no piece contains a delimiter |
| Tokenizer.TokenizeJoin | include/spdlog/details/configuration_impl.h:146-186 | splitting on one character and joining the pieces back with it gives the input (capped or not) |
| Tokenizer.TokenizeOnce | include/spdlog/details/configuration_impl.h:719 | with `max` 1 the input splits at its first delimiter into key and rest, or stays whole |
| Tokenizer.TokenizeOnceAtMostTwo | include/spdlog/details/configuration_impl.h:719-725 | with `max` 1 there are never more than two pieces |
| Tokenizer.SplitOff | include/spdlog/details/configuration_impl.h:146-186 | a delimiter-free head followed by a delimiter is split off as the first piece, and the cap goes down by one |
| Tokenizer.NoDelimiter | include/spdlog/details/configuration_impl.h:146-186 | a delimiter-free input is a single piece |
| Csv.ParseCsv | include/spdlog/details/configuration_impl.h:53-142 | the parse_csv loop returns its specification's fields, or the malformed-string error |
| Csv.CsvSpec | include/spdlog/details/configuration_impl.h:53-142 | the empty text has no fields |
| Csv.CsvBound | include/spdlog/details/configuration_impl.h:53-142 | with a cap of `m` fields, at most `m + 1` strings come back (the cap plus the unread tail) |
| Csv.CsvError | include/spdlog/details/configuration_impl.h:89-92 | the only error is the malformed-string error, carrying the whole input |
| Csv.CsvUnquoted | include/spdlog/details/configuration_impl.h:108-134 | without quotes, parse_csv is a split on commas minus an empty last field |
| Csv.CsvRoundTrip | include/spdlog/details/configuration_impl.h:53-142 | rendering fields (quoted with doubled quotes where needed) and parsing the text gives the fields' values back |
| Csv.CsvFirstField | include/spdlog/details/configuration_impl.h:816 | with a cap of one field, the first field is parsed and the rest after its comma comes back untouched |
| Csv.CsvLeadingFields | include/spdlog/details/configuration_impl.h:53-142 | with a cap of n fields, n fields each followed by a comma parse to their values, and everything after the n-th comma comes back verbatim as one more field (none when it is empty) |
| Csv.CsvOnlyField | include/spdlog/details/configuration_impl.h:816 | a single non-blank field parses to its value |
| Csv.CsvMalformed | include/spdlog/details/configuration_impl.h:84-92 | in the first field, with any cap other than 0, a closing quote followed by anything other than a quote or a comma is the malformed-string error |
| Levels.Index | include/spdlog/details/configuration_impl.h:189-198 | every level appears in `ItemMap` under its name |
| Levels.NamesDistinct | include/spdlog/details/configuration_impl.h:189-198 | no two levels share a name in `ItemMap` |
| Levels.FindInSpec | include/spdlog/details/configuration_impl.h:202-205 | searching the first `range` entries finds the level named by the key, and `info` when none is |
| Levels.FindLogLevelSpec | include/spdlog/details/configuration_impl.h:202-205 | a threshold maps to the level whose `ItemMap` name equals its `c_str()`, and to `info` exactly when no name does |
| Levels.FindLogLevelNearMisses | include/spdlog/details/configuration_impl.h:189-205 | lower-case `info` and the abbreviation `WARN` both fall back to `info` (matching is exact) |
| Attributes.GetAttribute | include/spdlog/details/configuration_impl.h:227-236 | the attribute's value when present; otherwise the missing-attribute error naming it |
| Attributes.InCaselessSetLower | include/spdlog/details/configuration_impl.h:223-224 | membership in a caseless set means equality after lower-casing with some element |
| Attributes.IsTrueWord | include/spdlog/details/configuration_impl.h:223 | a word is in `TRUE_SET` exactly when its lower-case form is one of `1 true t yes y` |
| Attributes.IsFalseWord | include/spdlog/details/configuration_impl.h:224 | a word is in `FALSE_SET` exactly when its lower-case form is one of `0 false f no n` |
| Attributes.GetBoolSpec | include/spdlog/details/configuration_impl.h:251-265 | true for a true word, false for a false word, the not-a-boolean error otherwise, the missing-attribute error when absent |
| Attributes.GetBoolDefaultSpec | include/spdlog/details/configuration_impl.h:238-249 | the default replaces both the missing attribute and an unrecognised word |
| Attributes.GetStringDefaultSpec | include/spdlog/details/configuration_impl.h:238-249 | the default when absent, the stored value when present |
| Attributes.GetSizeDecimal | include/spdlog/details/configuration_impl.h:281-293 | a decimal value reads back as its number |
| Attributes.GetIntDecimal | include/spdlog/details/configuration_impl.h:267-279 | a decimal value, negative or not, reads back as its integer |
| Attributes.GetSizeNotANumber | include/spdlog/details/configuration_impl.h:285-292 | a value not starting with a digit is the not-a-size error |
| ConfigLine.SizeTIsModulo | include/spdlog/details/configuration_impl.h:837 | the `size_t` arithmetic of the attribute slice wraps modulo 2^64 |
| ConfigLine.RFindChar | include/spdlog/details/configuration_impl.h:836 | `rfind` returns the last occurrence of the character, or none if there is none |
| ConfigLine.Parse | include/spdlog/details/configuration_impl.h:811-854 | config_line::parse returns its specification's value and attributes, or its error |
| ConfigLine.ParseEmpty | include/spdlog/details/configuration_impl.h:817-820 | the empty text is the empty-config-line error |
| ConfigLine.ParseNeverInvalidConfigLine | include/spdlog/details/configuration_impl.h:816-825 | the more-than-two-tokens error cannot happen, because the CSV split is capped at one field |
| ConfigLine.AddAttributesFails | include/spdlog/details/configuration_impl.h:841-850 | collecting attributes fails only with the invalid-attribute-definition error |
| ConfigLine.AddAttributesError | include/spdlog/details/configuration_impl.h:841-847 | the error names the first definition that is not exactly `name=value` |
| ConfigLine.AttributesFirstWins | include/spdlog/details/configuration_impl.h:841-850 | collecting succeeds exactly when every definition has two parts, and the first definition of a name is the one kept |
| ConfigLine.ParseValueOnly | include/spdlog/details/configuration_impl.h:816-828 | a lone value parses to that value with no attributes |
| ConfigLine.ParseWithAttributes | include/spdlog/details/configuration_impl.h:830-851 | after the first comma, the text between `[` and the last `]` is CSV-split and collected |
| ConfigLine.ParseBracketed | include/spdlog/details/configuration_impl.h:833-850 | a bracketed list of fields yields exactly the attributes collected from those fields' values |
| ConfigLine.ParseDefinitions | include/spdlog/details/configuration_impl.h:811-854 | a plain value followed by a bracketed list parses to that value and the collected attributes |
| ConfigLine.DocumentedLine | include/spdlog/configuration.h:113-120 | the documented line `TRACE,[sinks=sink_a:sink_b,pattern="%v,%v"]` gives value `TRACE` and those two attributes |
| ConfigLine.AttributeTextCases | include/spdlog/details/configuration_impl.h:835-838 | the attribute slice in every combination of missing or misplaced brackets |
| ConfigLine.SplitDefinition | include/spdlog/details/configuration_impl.h:843 | `name=value` without further `=` splits into name and value |
| ConfigLine.NewGlobalConfig | include/spdlog/details/configuration_impl.h:856-864 | a global config is the parsed line's value and attributes |
| ConfigLine.NewSinkConfig | include/spdlog/details/configuration_impl.h:866-874 | a sink config's type is the parsed line's value |
| ConfigLine.NewLoggerConfig | include/spdlog/details/configuration_impl.h:876-895 | a logger config requires the `sinks` attribute, whose `:`-separated names become the sink list; the threshold is the value |
| Registries.Registries.constructor | include/spdlog/details/configuration_impl.h:404-444 | the registries start with the built-in global functions, the sink factories as the source registers them (both stderr names build a stdout sink), and no callbacks |
| Registries.Registries.RegisterCustomGlobalFunction | include/spdlog/details/configuration_impl.h:897-900 | inserts or overwrites one global function and nothing else |
| Registries.Registries.RegisterCustomSink | include/spdlog/details/configuration_impl.h:902-905 | inserts or overwrites one sink factory and nothing else |
| Registries.Registries.RegisterWorkerWarmup | include/spdlog/details/configuration_impl.h:907-910 | inserts or overwrites one warmup callback and nothing else |
| Registries.Registries.RegisterWorkerTeardown | include/spdlog/details/configuration_impl.h:912-915 | inserts or overwrites one teardown callback and nothing else |
| Registries.Registries.RegisterErrorHandler | include/spdlog/details/configuration_impl.h:917-920 | inserts or overwrites one error handler and nothing else |
| Registries.RegisterLastWins | include/spdlog/details/configuration_impl.h:897-920 | registering a name twice keeps the last callback and leaves other names alone |
| Registries.GetOverflowPolicy | include/spdlog/details/configuration_impl.h:537-547 | exactly `block_retry` and `discard_log_msg` are known; any other name is the unknown-policy error |
| Registries.FindCallback | include/spdlog/details/configuration_impl.h:513-535 | a warmup or teardown callback is found when registered, and null otherwise |
| Registries.Setting | include/spdlog/details/configuration_impl.h:557-595 | a set_async attribute counts only when present and non-empty |
| Registries.StoUL | include/spdlog/details/configuration_impl.h:552 | `stoul` fails exactly when the text does not start with a digit, with an error naming the text |
| Registries.ResolveErrorHandler | include/spdlog/details/configuration_impl.h:606-616 | the named error handler when registered; otherwise the unknown-handler error |
| Registries.CallGlobalFunc | include/spdlog/details/configuration_impl.h:633-646 | an unregistered global function name does nothing; `set_async` enables async mode with the resolved settings or fails with their error; `set_pattern` sets the value as the pattern; `set_error_handler` installs the named handler or fails naming the value; a custom function is called with the line |
| Registries.MakeSink | include/spdlog/details/configuration_impl.h:452-462 | the registered factory for the sink's type, given the sink's configuration; otherwise the unknown-sink-type error |
| Registries.SetAsyncDefaults | include/spdlog/details/configuration_impl.h:549-599 | with no attributes, set_async uses the queue size, block_retry, no callbacks and a zero flush interval |
| Registries.SetAsyncBadQueueSize | include/spdlog/details/configuration_impl.h:552 | a queue size that is not a number is the number error |
| Registries.SetAsyncPolicyAndCallbacks | include/spdlog/details/configuration_impl.h:555-596 | an unknown overflow policy is an error; an unknown warmup or teardown name becomes a null callback |
| Registries.DefaultSinkFactoriesNamed | include/spdlog/details/configuration_impl.h:404-429 | each built-in sink type name is registered with the factory of that name (corrected registry) |
| Registries.SinkFactoriesAsWrittenStderr | include/spdlog/details/configuration_impl.h:407-410 | as written, `stderr_sink_st`/`_mt` get the stdout factory; every other name matches the corrected registry |
| Configuration.ClassifyLine | include/spdlog/details/configuration_impl.h:710-759 | a line without the `spdlog.` prefix or without `=` is skipped |
| Configuration.ClassifyGlobalLine | include/spdlog/details/configuration_impl.h:719-737 | `spdlog.<name>=<value>` is a global directive for that name, or the error of its value |
| Configuration.ClassifyEntityLine | include/spdlog/details/configuration_impl.h:738-759 | `spdlog.logger.<name>=` and `spdlog.sink.<name>=` are logger and sink directives; any other middle part is the cannot-understand error |
| Configuration.KeyValueSplit | include/spdlog/details/configuration_impl.h:713-725 | a prefixed key without `=` followed by `=value` splits into key and value |
| Configuration.KeySplit | include/spdlog/details/configuration_impl.h:728 | a dotted key splits into its two or three parts |
| Configuration.Configuration.constructor | include/spdlog/configuration.h:42 | a new configuration holds three empty maps |
| Configuration.Configuration.AddGlobal | include/spdlog/details/configuration_impl.h:796-799 | emplaces the global into m_globals and changes nothing else |
| Configuration.Configuration.AddSink | include/spdlog/details/configuration_impl.h:801-804 | emplaces the sink into m_sinks and changes nothing else |
| Configuration.Configuration.AddLogger | include/spdlog/details/configuration_impl.h:806-809 | emplaces the logger into m_loggers and changes nothing else |
| Configuration.Configuration.Create | include/spdlog/details/configuration_impl.h:703-762 | the create loop builds a fresh configuration holding its specification's maps, or returns its error |
| Configuration.AddSlots | include/spdlog/details/configuration_impl.h:796-809 | adding keeps the maps sorted, fills a free name, keeps what was held, and leaves other names alone |
| Configuration.CreateFromSorted | include/spdlog/details/configuration_impl.h:703-762 | the three maps stay sorted by name throughout create |
| Configuration.CreateFromKeeps | include/spdlog/details/configuration_impl.h:703-762 | a directive once held is never replaced by a later line |
| Configuration.CreateFirstWins | include/spdlog/details/configuration_impl.h:703-762 | when create succeeds, the first line declaring a name is the one the configuration holds |
| Configuration.CreateError | include/spdlog/details/configuration_impl.h:703-762 | a failed create fails with the error of the first bad line, and every line before it was good |
| Configuration.CreateIgnoresOtherLines | include/spdlog/details/configuration_impl.h:712-716 | inserting a line without the `spdlog.` prefix anywhere does not change the result |
| Configuration.ResolveSinks | include/spdlog/details/configuration_impl.h:654-668 | the logger's sinks in order when all are built; otherwise the error names the first missing one |
| Configuration.MakeLogger | include/spdlog/details/configuration_impl.h:651-699 | the logger's name, level, sinks, optional pattern and optional handler; a missing sink fails before anything is registered; an unknown handler is an error naming the logger, raised after the logger is registered with its level and pattern and without a handler |
| Configuration.GlobalsFromExtends | include/spdlog/details/configuration_impl.h:766-770 | the global phase only appends global actions to the log |
| Configuration.SinksFromExtends | include/spdlog/details/configuration_impl.h:772-781 | the sink phase only appends sink actions to the log |
| Configuration.LoggersFromUnknownHandler | include/spdlog/details/configuration_impl.h:670-691 | when configure fails on an unknown error handler, the failing logger is already in the log as its last action, with no handler |
| Configuration.LoggersFromExtends | include/spdlog/details/configuration_impl.h:783-793 | the logger phase only appends logger actions to the log |
| Configuration.ConfigurePhases | include/spdlog/details/configuration_impl.h:764-794 | configure acts in phase order: all globals, then all sinks, then all loggers |
| Configuration.Configuration.Configure | include/spdlog/details/configuration_impl.h:764-794 | the configure loops perform exactly the actions of its specification and stop at its failure |
| DailyFiles.CalcFilenameShape | include/spdlog/sinks/daily_rotating_file_sink.h:61-69 | generation 0 is the file name itself; generation `i > 0` appends `.` and the decimal index |
| DailyFiles.CalcFilenameInjective | include/spdlog/sinks/daily_rotating_file_sink.h:61-69 | different generations have different paths |
| DailyFiles.Decide | include/spdlog/sinks/daily_rotating_file_sink.h:38-51 | time rotation when the clock has reached the rotation time; otherwise size rotation exactly when the size exceeds the cap |
| DailyFiles.Opened | include/spdlog/sinks/daily_rotating_file_sink.h:43 | opening for append creates the file if needed and keeps its contents |
| DailyFiles.Truncated | include/spdlog/sinks/daily_rotating_file_sink.h:121 | reopening with truncation empties the file and nothing else |
| DailyFiles.Appended | include/spdlog/sinks/daily_rotating_file_sink.h:52 | a write appends the message to the file and nothing else |
| DailyFiles.Moved | include/spdlog/sinks/daily_rotating_file_sink.h:115 | a rename moves the contents to the target and removes the source |
| DailyFiles.HighestBlockedSpec | include/spdlog/sinks/daily_rotating_file_sink.h:113-119 | the highest existing generation below `k` on which rename fails, and none above it |
| DailyFiles.FileSystem.Remove | include/spdlog/sinks/daily_rotating_file_sink.h:105 | removal succeeds exactly when the path exists and is not failing, and then removes only it |
| DailyFiles.FileSystem.Rename | include/spdlog/sinks/daily_rotating_file_sink.h:115 | rename succeeds exactly when the source exists and is not failing, and then moves it |
| DailyFiles.FileSystem.Open | include/spdlog/sinks/daily_rotating_file_sink.h:43 | the file is opened for append |
| DailyFiles.FileSystem.Truncate | include/spdlog/sinks/daily_rotating_file_sink.h:121 | the file is truncated |
| DailyFiles.FileSystem.Write | include/spdlog/sinks/daily_rotating_file_sink.h:52 | the message is appended |
| RotatingSink.NextRotationAfterNow | include/spdlog/sinks/daily_rotating_file_sink.h:124-141 | with a positive period, the corrected next rotation is in the future: today's rotation time if still ahead, otherwise the first rotation in its series after now |
| RotatingSink.NextRotationAgrees | include/spdlog/sinks/daily_rotating_file_sink.h:133-140 | with a period of a day or more, the code as written and the corrected computation agree and are in the future |
| RotatingSink.NextRotationAsWrittenInPast | include/spdlog/sinks/daily_rotating_file_sink.h:139 | as written, a 22:00 rotation with a 30-minute period at 23:00 gives 22:30, already past |
| RotatingSink.NextRotationAsWrittenAfterMidnight | include/spdlog/sinks/daily_rotating_file_sink.h:133-140 | as written, after local midnight the new day's 22:00 is ahead again, so the past rotation times last only until midnight |
| RotatingSink.ChainFromSpec | include/spdlog/sinks/daily_rotating_file_sink.h:89-96 | the rename-list loop runs over consecutive existing generations and stops at the first missing one or past `max_files` |
| RotatingSink.RotationListShape | include/spdlog/sinks/daily_rotating_file_sink.h:82-99 | the rename list pairs each generation with the next, starts at the base file, and has between 1 and `max_files + 1` entries |
| RotatingSink.RemovalSpec | include/spdlog/sinks/daily_rotating_file_sink.h:101-111 | only generation `max_files` is ever removed, when the list reaches it; a failed removal is the failed-removing error |
| RotatingSink.RenameDownFailure | include/spdlog/sinks/daily_rotating_file_sink.h:113-119 | the reverse rename loop fails on the highest blocked generation, with the failed-renaming error naming source and target |
| RotatingSink.RenameDownShift | include/spdlog/sinks/daily_rotating_file_sink.h:113-119 | a successful rename loop shifts every generation up by one and touches no other path |
| RotatingSink.RotateSucceeds | include/spdlog/sinks/daily_rotating_file_sink.h:77-122 | after a successful rotation the base file is empty, each kept generation holds its predecessor's old contents, and nothing else changed |
| RotatingSink.RotateFailure | include/spdlog/sinks/daily_rotating_file_sink.h:101-119 | rotation fails exactly with the removal error, or else with the highest blocked rename |
| RotatingSink.RotateNoOverwrite | include/spdlog/sinks/daily_rotating_file_sink.h:111-119 | no rename ever lands on an existing file |
| RotatingSink.DailyRotatingFileSink.Init | include/spdlog/sinks/daily_rotating_file_sink.h:13-33 | the sink opens the dated file, takes its size, and schedules the next rotation as the code computes it (one period at most) |
| RotatingSink.DailyRotatingFileSink.Create | include/spdlog/sinks/daily_rotating_file_sink.h:26-29 | an hour outside 0..23 or a minute outside 0..59 is the invalid-rotation-time error, and no file is touched; otherwise every field is set as the constructor sets it |
| RotatingSink.DailyRotatingFileSink.SinkIt | include/spdlog/sinks/daily_rotating_file_sink.h:36-53 | time rotation switches to the new dated file and reschedules as the code computes it; size rotation rotates and then writes, or fails without writing; otherwise the message is appended |
| RotatingSink.DailyRotatingFileSink.ListRotations | include/spdlog/sinks/daily_rotating_file_sink.h:82-99 | the loop builds exactly the rename list |
| RotatingSink.DailyRotatingFileSink.Rotate | include/spdlog/sinks/daily_rotating_file_sink.h:77-122 | the removal, erase, rename and reopen steps leave exactly the files of the rotation specification and report its failure |
| LegacyRotatingSink.NextRotationAfterNow | sinks/daily_rotating_file_sink.h:99-116 | the next rotation is within the coming 24 hours, and equals the newer sink's with a 24-hour period |
| LegacyRotatingSink.CountDownFails | sinks/daily_rotating_file_sink.h:79-95 | the count-down fails on the highest generation that cannot be removed or renamed, with the matching error |
| LegacyRotatingSink.CountDownShifts | sinks/daily_rotating_file_sink.h:79-95 | a successful count-down shifts every generation up by one |
| LegacyRotatingSink.RotateSucceeds | sinks/daily_rotating_file_sink.h:75-97 | after a successful rotation the base file is empty, generations 1..`max_files` hold their predecessors' old contents, and nothing else changed |
| LegacyRotatingSink.RotateFailure | sinks/daily_rotating_file_sink.h:75-97 | the rotation's failure is exactly the count-down's failure |
| LegacyRotatingSink.SameAsNewerWhenFull | sinks/daily_rotating_file_sink.h:75-97 | with every generation present and none failing, both sinks rotate successfully to the same generations |
| LegacyRotatingSink.LegacyDailyRotatingFileSink.Init | sinks/daily_rotating_file_sink.h:13-31 | the sink opens the dated file, takes its size, and schedules the next rotation |
| LegacyRotatingSink.LegacyDailyRotatingFileSink.Create | sinks/daily_rotating_file_sink.h:24-27 | an invalid rotation time is the invalid-rotation-time error, and no file is touched; otherwise every field is set as the constructor sets it |
| LegacyRotatingSink.LegacyDailyRotatingFileSink.SinkIt | sinks/daily_rotating_file_sink.h:34-51 | as for the newer sink, with the count-down rotation and a 24-hour period |
| LegacyRotatingSink.LegacyDailyRotatingFileSink.Rotate | sinks/daily_rotating_file_sink.h:75-97 | the count-down loop leaves exactly the files of the rotation specification and reports its failure |

## Left out

**Values the model does not represent**
- Text: `std::string` is `seq<char>` with one character per byte. So `|msg|` in `SinkIt` is the byte count that `_current_size` adds, and `Strings.Lower` is the "C"-locale `tolower`, which changes only `A`-`Z`. Multi-byte encodings and locale-dependent case folding are not modelled.
- `stoi`/`stoul` range: `Attributes.GetInt` and `Attributes.GetSize` read the leading digits as an unbounded number, so overflow (`out_of_range`) is not modelled. `stoi` accepts a leading `+` or `-` sign; leading whitespace is not modelled.
- `Strings.ParseUnsigned`: `stoul` also skips leading whitespace and accepts a leading `+`, and a leading `-` gives the negated value modulo 2^64. The model refuses these inputs as not numbers, because it reads only a leading run of decimal digits.
- `Registries.StoUL`: the same inputs (leading whitespace, `+`, `-`) are an invalid-number error in the model, where `stoul` accepts them.
- `Attributes.GetSizeNotANumber`: a value starting with whitespace, `+` or `-` followed by digits is the not-a-size error in the model, where `stoul` reads a number.
- The sink objects: the sink factories' bodies (`make_simple_file_sink`, `make_daily_rotating_file_sink`, `make_periodically_rotating_file_sink`, and so on). A built sink is the factory that would be called plus its configuration. The attribute lookups those factories make are modelled in `Attributes`.
- Platform-specific sinks and registrations (syslog, android, msvc, the Windows colour sinks). The ANSI colour sinks stand for both.
- Log records: only the formatted text of a message is kept.
- `std::size_t` width:
  - `_current_size` and `max_files` are unbounded naturals, so the model has no wrap-around of the size counter.
  - The legacy sink's default `max_files` (`size_t` max) is a parameter like any other.
  - Only the `size_t` arithmetic of the attribute slice is modelled modulo 2^64.

**Behaviour outside the model**
- `configuration::create(const std::vector<config_line>&)`: it is declared in `configuration.h` but has no definition, so there is nothing to model.
- The effects of configure's actions on the process: `set_async_mode`, `set_pattern`, `set_error_handler`, the logger registry and duplicate logger names in `registry::create`. Configure returns the actions as a log instead.
- I/O: reading the input stream (the lines are a parameter) and the file helper's own failures to open or write.
- The file helper's open or closed state: after a failed rotation the source leaves the helper closed; the model keeps only file contents.
- Flushing, the mutex and the `_mt`/`_st` distinction; the model is single-threaded.
- Time:
  - The clock, `localtime`/`mktime`, daylight-saving changes and sub-second resolution. The current time and local midnight are parameters in seconds.
  - `FileNameCalc::calc_filename` (the dated name) is a parameter.
- `RotatingSink.NextRotation`: for a non-positive period it keeps the as-written single addition, because no later rotation time exists.
- `RotatingSink.DailyRotatingFileSink.Create`, `RotatingSink.DailyRotatingFileSink.SinkIt`, `LegacyRotatingSink.LegacyDailyRotatingFileSink.Create` and `LegacyRotatingSink.LegacyDailyRotatingFileSink.SinkIt`: these state their effect relative to the state before the call. The properties of that effect are stated by the lemmas on `RotateSpec`, `Decide`, `NextRotationAsWritten` and the legacy `NextRotation`.

**Where the code and the documentation differ (the model follows the code)**
- `add_global`, `add_sink` and `add_logger` use `std::map::emplace`. A later directive for the same name is therefore ignored, not an overwrite.
- Attribute definitions are inserted with `insert`, so the first definition of a name wins.
- The unknown-sink-type error names only the type.
- A logger's unknown-error-handler error names the logger, not the handler.

## Findings

| source | as written | input that shows it | evidently intended | confidence | as-written member | corrected member |
|---|---|---|---|---|---|---|
| include/spdlog/details/configuration_impl.h:409-410 | `stderr_sink_st` and `stderr_sink_mt` are registered with `make_stdout_sink` | a sink of type `stderr_sink_mt` writes to standard output | register `make_stderr_sink` (lines 322-326), which is otherwise unused | high; not executed | Registries.SinkFactoriesAsWrittenStderr | Registries.DefaultSinkFactoriesNamed |
| include/spdlog/sinks/daily_rotating_file_sink.h:133-140 | when today's rotation time has passed, one period is added to it | rotation at 22:00 with a 30-minute period, clock at 23:00: the next rotation is 22:30, already past, so every message from 22:30 until local midnight re-opens the dated file and skips the size cap, and this window recurs daily | advance by as many periods as needed to pass the current time | high; not executed | RotatingSink.NextRotationAsWrittenInPast | RotatingSink.NextRotationAfterNow |

=== FILE: attributes.dfy ===
/**
 * The typed attribute accessors of configuration_impl.h (`attributes::get_attribute` and its bool, int
 * and size_t specialisations, and `get_attribute_default`), over a name-to-text attribute map.
 */
module Attributes {
  import opened Wrappers
  import opened Errors
  import opened Strings
  import opened SortedMap

  /** std::map<std::string, std::string>: the attributes of one configuration line. */
  type AttributeMap = Entries<string>

  /** The elements of TRUE_SET and FALSE_SET, both std::set<std::string, caseless_less_than>. */
  const TrueSet: seq<string> := ["1", "True", "T", "Yes", "Y"]
  const FalseSet: seq<string> := ["0", "False", "F", "No", "N"]

  /** std::set::count(s) == 1: some element is neither less nor greater than s under the caseless order. */
  predicate InCaselessSet(s: string, elems: seq<string>) {
    exists k :: 0 <= k < |elems| && !CaselessLess(s, elems[k]) && !CaselessLess(elems[k], s)
  }

  /** get_attribute<std::string>: the text stored under the name, or an error when there is none. */
  function GetAttribute(name: string, attributes: AttributeMap): (r: Result<string, Error>)
    ensures r.Ok? <==> name in Keys(attributes)
    ensures r.Ok? ==> (name, r.value) in attributes
    ensures r.Err? ==> r.error == MissingAttribute(name)
  {
    match Find(attributes, name)
    case Some(v) =>
      assert exists i :: 0 <= i < |attributes| && attributes[i] == (name, v);
      Ok(v)
    case None => Err(MissingAttribute(name))
  }

  /** get_attribute<bool>: TRUE_SET is consulted before FALSE_SET. */
  function GetBool(name: string, attributes: AttributeMap): Result<bool, Error> {
    match GetAttribute(name, attributes)
    case Err(e) => Err(e)
    case Ok(v) =>
      if InCaselessSet(v, TrueSet) then Ok(true)
      else if InCaselessSet(v, FalseSet) then Ok(false)
      else Err(NotABoolean(name))
  }

  /** get_attribute<int>: std::stoi, whose std::invalid_argument becomes "not a valid integer". */
  function GetInt(name: string, attributes: AttributeMap): Result<int, Error> {
    match GetAttribute(name, attributes)
    case Err(e) => Err(e)
    case Ok(v) =>
      match ParseSigned(v)
      case Some(n) => Ok(n)
      case None => Err(NotAnInteger(name))
  }

  /** get_attribute<size_t>: std::stoul, whose std::invalid_argument becomes "not a valid size_t". */
  function GetSize(name: string, attributes: AttributeMap): Result<nat, Error> {
    match GetAttribute(name, attributes)
    case Err(e) => Err(e)
    case Ok(v) =>
      match ParseUnsigned(v)
      case Some(n) => Ok(n)
      case None => Err(NotASize(name))
  }

  /** get_attribute_default: the typed lookup, with every failure replaced by the default. */
  function GetAttributeDefault<T>(lookup: Result<T, Error>, default: T): T {
    match lookup
    case Ok(v) => v
    case Err(_) => default
  }

  // ---------------------------------------------------------------------------
  // Properties

  /** Membership in a caseless set is equality after ASCII case folding with one of its elements. */
  lemma InCaselessSetLower(s: string, elems: seq<string>)
    ensures InCaselessSet(s, elems) <==> exists k :: 0 <= k < |elems| && Lower(s) == Lower(elems[k])
  {
    forall k | 0 <= k < |elems| {
      CaselessEquivalent(s, elems[k]);
    }
  }

  /** The case-folded spellings of the two sets. */
  const TrueWords: set<string> := {"1", "true", "t", "yes", "y"}
  const FalseWords: set<string> := {"0", "false", "f", "no", "n"}

  lemma LowerTrueSet()
    ensures forall k :: 0 <= k < |TrueSet| ==> Lower(TrueSet[k]) in TrueWords
    ensures forall w :: w in TrueWords ==> exists k :: 0 <= k < |TrueSet| && Lower(TrueSet[k]) == w
  {
    assert Lower(TrueSet[0]) == "1";
    assert Lower(TrueSet[1]) == "true";
    assert Lower(TrueSet[2]) == "t";
    assert Lower(TrueSet[3]) == "yes";
    assert Lower(TrueSet[4]) == "y";
    forall w | w in TrueWords
      ensures exists k :: 0 <= k < |TrueSet| && Lower(TrueSet[k]) == w
    {
      if w == "1" { assert Lower(TrueSet[0]) == w; }
      else if w == "true" { assert Lower(TrueSet[1]) == w; }
      else if w == "t" { assert Lower(TrueSet[2]) == w; }
      else if w == "yes" { assert Lower(TrueSet[3]) == w; }
      else if w == "y" { assert Lower(TrueSet[4]) == w; }
    }
  }

  lemma LowerFalseSet()
    ensures forall k :: 0 <= k < |FalseSet| ==> Lower(FalseSet[k]) in FalseWords
    ensures forall w :: w in FalseWords ==> exists k :: 0 <= k < |FalseSet| && Lower(FalseSet[k]) == w
  {
    assert Lower(FalseSet[0]) == "0";
    assert Lower(FalseSet[1]) == "false";
    assert Lower(FalseSet[2]) == "f";
    assert Lower(FalseSet[3]) == "no";
    assert Lower(FalseSet[4]) == "n";
    forall w | w in FalseWords
      ensures exists k :: 0 <= k < |FalseSet| && Lower(FalseSet[k]) == w
    {
      if w == "0" { assert Lower(FalseSet[0]) == w; }
      else if w == "false" { assert Lower(FalseSet[1]) == w; }
      else if w == "f" { assert Lower(FalseSet[2]) == w; }
      else if w == "no" { assert Lower(FalseSet[3]) == w; }
      else if w == "n" { assert Lower(FalseSet[4]) == w; }
    }
  }

  lemma IsTrueWord(s: string)
    ensures InCaselessSet(s, TrueSet) <==> Lower(s) in TrueWords
  {
    InCaselessSetLower(s, TrueSet);
    LowerTrueSet();
  }

  lemma IsFalseWord(s: string)
    ensures InCaselessSet(s, FalseSet) <==> Lower(s) in FalseWords
  {
    InCaselessSetLower(s, FalseSet);
    LowerFalseSet();
  }

  /**
   * A boolean attribute is true exactly when its text is one of 1, true, t, yes, y in any letter case,
   * false exactly when it is one of 0, false, f, no, n, and otherwise an error: a missing attribute, or
   * text that is neither.
   */
  lemma GetBoolSpec(name: string, attributes: AttributeMap)
    ensures name !in Keys(attributes) ==> GetBool(name, attributes) == Err(MissingAttribute(name))
    ensures name in Keys(attributes) ==>
      var v := Find(attributes, name).value;
      && (GetBool(name, attributes) == Ok(true) <==> Lower(v) in TrueWords)
      && (GetBool(name, attributes) == Ok(false) <==> Lower(v) in FalseWords)
      && (GetBool(name, attributes) == Err(NotABoolean(name)) <==> Lower(v) !in TrueWords + FalseWords)
  {
    if name in Keys(attributes) {
      var v := Find(attributes, name).value;
      IsTrueWord(v);
      IsFalseWord(v);
    }
  }

  /** With a default, a boolean attribute that is missing or not a boolean word reads as the default. */
  lemma GetBoolDefaultSpec(name: string, attributes: AttributeMap, default: bool)
    ensures GetAttributeDefault(GetBool(name, attributes), default) ==
      if name !in Keys(attributes) then default
      else if Lower(Find(attributes, name).value) in TrueWords then true
      else if Lower(Find(attributes, name).value) in FalseWords then false
      else default
  {
    GetBoolSpec(name, attributes);
  }

  /** A text attribute with a default: the stored text, or the default when the name is absent. */
  lemma GetStringDefaultSpec(name: string, attributes: AttributeMap, default: string)
    ensures name !in Keys(attributes) ==> GetAttributeDefault(GetAttribute(name, attributes), default) == default
    ensures name in Keys(attributes) ==> (name, GetAttributeDefault(GetAttribute(name, attributes), default)) in attributes
  {
  }

  /** A size attribute reads back any number written in decimal. */
  lemma GetSizeDecimal(name: string, attributes: AttributeMap, n: nat)
    requires Find(attributes, name) == Some(Decimal(n))
    ensures GetSize(name, attributes) == Ok(n)
  {
    ParseUnsignedDecimal(n, []);
    assert Decimal(n) + [] == Decimal(n);
  }

  /** An integer attribute reads back any number written in decimal, with a minus sign when negative. */
  lemma GetIntDecimal(name: string, attributes: AttributeMap, n: nat, negative: bool)
    requires Find(attributes, name) == Some(if negative then "-" + Decimal(n) else Decimal(n))
    ensures GetInt(name, attributes) == Ok(if negative then -(n as int) else n)
  {
    if negative {
      ParseSignedNegative(n);
    } else {
      ParseUnsignedDecimal(n, []);
      assert Decimal(n) + [] == Decimal(n);
    }
  }

  /** A size attribute whose text does not start with a digit is an error naming the attribute. */
  lemma GetSizeNotANumber(name: string, attributes: AttributeMap)
    requires name in Keys(attributes)
    requires var v := Find(attributes, name).value; v == [] || !IsDigit(v[0])
    ensures GetSize(name, attributes) == Err(NotASize(name))
  {
  }
}

=== FILE: config_line.dfy ===
/**
 * `configuration::config_line::parse` and the three `*_config` constructors (configuration_impl.h): the
 * text to the right of the first '=' of a directive, `value[,[name=text,...]]`, becomes a value and a
 * name-to-text attribute map.
 */
module ConfigLine {
  import opened Wrappers
  import opened Errors
  import opened Strings
  import opened SortedMap
  import opened Attributes
  import Tokenizer
  import Csv

  /** configuration::config_line. */
  datatype ConfigLine = ConfigLine(value: string, attributes: AttributeMap)

  /** std::size_t wraps modulo 2^64, and std::string::npos is its largest value. */
  const SizeModulus: int := 0x1_0000_0000_0000_0000
  const NPos: int := SizeModulus - 1

  /** An integer reduced to size_t; the sum or difference of two size_t values needs at most one correction. */
  function SizeT(x: int): nat {
    if x < -SizeModulus || SizeModulus < x then x % SizeModulus
    else if x < 0 then x + SizeModulus
    else if x == SizeModulus then 0
    else x
  }

  /** SizeT is arithmetic modulo 2^64. */
  lemma SizeTIsModulo(x: int)
    ensures SizeT(x) == x % SizeModulus
  {
  }

  /** std::string::rfind(c): the last index below `upto` holding c. */
  function RFindChar(s: string, c: char, upto: nat): (r: Option<nat>)
    requires upto <= |s|
    ensures r.Some? ==> r.value < upto && s[r.value] == c && forall j :: r.value < j < upto ==> s[j] != c
    ensures r.None? ==> forall j :: 0 <= j < upto ==> s[j] != c
  {
    if upto == 0 then None
    else if s[upto - 1] == c then Some(upto - 1)
    else RFindChar(s, c, upto - 1)
  }

  /** A position as a size_t: a missing one is npos. */
  function Offset(p: Option<nat>): int {
    match p
    case None => NPos
    case Some(i) => i
  }

  /** std::string::substr(pos, len) for pos within the string: at most len characters from pos. */
  function Substr(s: string, pos: nat, len: nat): string
    requires pos <= |s|
  {
    s[pos..if pos + len < |s| then pos + len else |s|]
  }

  /**
   * token.substr(start + 1, end - start - 1) with start = find('[') and end = rfind(']'), computed in
   * size_t arithmetic: a missing bracket is npos, and npos + 1 wraps to 0. The first offset is always 0 or
   * just past a '[' of the token, since no std::string reaches npos characters.
   */
  function AttributeText(token: string): string {
    var start := Offset(Tokenizer.FindFirstOf(token, "[", 0));
    var end := Offset(RFindChar(token, ']', |token|));
    var pos := SizeT(start + 1);
    var len := SizeT(end - start - 1);
    if pos <= |token| then Substr(token, pos, len) else []
  }

  /** tokenize(at, "="): the pieces of one attribute definition. */
  function SplitAttribute(at: string): seq<string> {
    Tokenizer.TokenizeSpec(at, "=", None)
  }

  /**
   * The loop over the attribute tokens: each must split on '=' into exactly two pieces, and the first
   * definition of a name is kept (std::map::insert).
   */
  function AddAttributes(tokens: seq<string>, k: nat, acc: AttributeMap): Result<AttributeMap, Error>
    requires k <= |tokens|
    decreases |tokens| - k
  {
    if k == |tokens| then Ok(acc)
    else
      var kv := SplitAttribute(tokens[k]);
      if |kv| != 2 then Err(InvalidAttributeDefinition(tokens[k]))
      else AddAttributes(tokens, k + 1, Emplace(acc, kv[0], kv[1]))
  }

  /** What config_line::parse returns, or the error it throws. */
  function ParseSpec(config: string): Result<ConfigLine, Error> {
    match Csv.CsvSpec(config, Some(1))
    case Err(e) => Err(e)
    case Ok(tokens) =>
      if tokens == [] then Err(EmptyConfigLine)
      else if |tokens| > 2 then Err(InvalidConfigLine)
      else if |tokens| == 1 then Ok(ConfigLine(tokens[0], []))
      else
        match Csv.CsvSpec(AttributeText(tokens[1]), None)
        case Err(e) => Err(e)
        case Ok(attributeTokens) =>
          match AddAttributes(attributeTokens, 0, [])
          case Err(e) => Err(e)
          case Ok(m) => Ok(ConfigLine(tokens[0], m))
  }

  method Parse(config: string) returns (r: Result<ConfigLine, Error>)
    ensures r == ParseSpec(config)
  {
    var tokens :- Csv.ParseCsv(config, Some(1));
    if tokens == [] {
      return Err(EmptyConfigLine);
    }
    if |tokens| > 2 {
      return Err(InvalidConfigLine);
    }
    var attributes: AttributeMap := [];
    if |tokens| == 2 {
      var attributeTokens :- Csv.ParseCsv(AttributeText(tokens[1]), None);
      var k := 0;
      while k < |attributeTokens|
        invariant k <= |attributeTokens|
        invariant AddAttributes(attributeTokens, k, attributes) == AddAttributes(attributeTokens, 0, [])
      {
        var kv := Tokenizer.Tokenize(attributeTokens[k], "=", None);
        if |kv| != 2 {
          return Err(InvalidAttributeDefinition(attributeTokens[k]));
        }
        attributes := Emplace(attributes, kv[0], kv[1]);
        k := k + 1;
      }
    }
    return Ok(ConfigLine(tokens[0], attributes));
  }

  // ---------------------------------------------------------------------------
  // The three kinds of directive value

  /** configuration::global_config: the line value is the global function's argument. */
  datatype GlobalConfig = GlobalConfig(value: string, attributes: AttributeMap)

  /** configuration::sink_config: the line value is the sink type. */
  datatype SinkConfig = SinkConfig(sinkType: string, attributes: AttributeMap)

  /** configuration::logger_config: the line value is the threshold; the `sinks` attribute lists sink names. */
  datatype LoggerConfig = LoggerConfig(threshold: string, sinks: seq<string>, attributes: AttributeMap)

  function GlobalConfigSpec(config: string): Result<GlobalConfig, Error> {
    match ParseSpec(config)
    case Err(e) => Err(e)
    case Ok(line) => Ok(GlobalConfig(line.value, line.attributes))
  }

  function SinkConfigSpec(config: string): Result<SinkConfig, Error> {
    match ParseSpec(config)
    case Err(e) => Err(e)
    case Ok(line) => Ok(SinkConfig(line.value, line.attributes))
  }

  function LoggerConfigSpec(config: string): Result<LoggerConfig, Error> {
    match ParseSpec(config)
    case Err(e) => Err(e)
    case Ok(line) =>
      match GetAttribute("sinks", line.attributes)
      case Err(e) => Err(e)
      case Ok(sinks) => Ok(LoggerConfig(line.value, Tokenizer.TokenizeSpec(sinks, ":", None), line.attributes))
  }

  method NewGlobalConfig(config: string) returns (r: Result<GlobalConfig, Error>)
    ensures r == GlobalConfigSpec(config)
    ensures r.Ok? ==> ParseSpec(config).Ok? && r.value.value == ParseSpec(config).value.value
  {
    var line :- Parse(config);
    return Ok(GlobalConfig(line.value, line.attributes));
  }

  method NewSinkConfig(config: string) returns (r: Result<SinkConfig, Error>)
    ensures r == SinkConfigSpec(config)
    ensures r.Ok? ==> ParseSpec(config).Ok? && r.value.sinkType == ParseSpec(config).value.value
  {
    var line :- Parse(config);
    return Ok(SinkConfig(line.value, line.attributes));
  }

  /** The sinks attribute is mandatory; its text is split on ':' into the sink names, in order. */
  method NewLoggerConfig(config: string) returns (r: Result<LoggerConfig, Error>)
    ensures r == LoggerConfigSpec(config)
    ensures ParseSpec(config).Ok? && "sinks" !in Keys(ParseSpec(config).value.attributes)
      ==> r == Err(MissingAttribute("sinks"))
    ensures r.Ok? ==> (ParseSpec(config).Ok? && r.value.threshold == ParseSpec(config).value.value
      && ("sinks", Tokenizer.Join(r.value.sinks, ':')) in r.value.attributes)
  {
    var line :- Parse(config);
    var sinks :- GetAttribute("sinks", line.attributes);
    var names := Tokenizer.Tokenize(sinks, ":", None);
    Tokenizer.TokenizeJoin(sinks, ':', None);
    return Ok(LoggerConfig(line.value, names, line.attributes));
  }

  // ---------------------------------------------------------------------------
  // Properties of config_line::parse

  /** An empty line is an error. */
  lemma ParseEmpty()
    ensures ParseSpec("") == Err(EmptyConfigLine)
  {
  }

  /** The "Invalid config line" error cannot happen: parse_csv with max = 1 never returns more than two fields. */
  lemma ParseNeverInvalidConfigLine(config: string)
    ensures ParseSpec(config) != Err(InvalidConfigLine)
  {
    Csv.CsvBound(config, 1);
    Csv.CsvError(config, Some(1));
    var tokens := Csv.CsvSpec(config, Some(1));
    if tokens.Ok? && |tokens.value| == 2 {
      Csv.CsvError(AttributeText(tokens.value[1]), None);
      var attributeTokens := Csv.CsvSpec(AttributeText(tokens.value[1]), None);
      if attributeTokens.Ok? {
        AddAttributesFails(attributeTokens.value, 0, []);
      }
    }
  }

  lemma {:induction false} AddAttributesFails(tokens: seq<string>, k: nat, acc: AttributeMap)
    requires k <= |tokens|
    ensures AddAttributes(tokens, k, acc).Err? ==> AddAttributes(tokens, k, acc).error.InvalidAttributeDefinition?
    decreases |tokens| - k
  {
    if k < |tokens| {
      var kv := SplitAttribute(tokens[k]);
      if |kv| == 2 {
        AddAttributesFails(tokens, k + 1, Emplace(acc, kv[0], kv[1]));
      }
    }
  }

  /** The value is the first CSV field, so quotes let it contain commas; without a comma there are no attributes. */
  lemma ParseValueOnly(value: Csv.CsvField)
    requires Csv.Writable(value) && !Csv.Blank(value)
    ensures ParseSpec(Csv.Render(value)) == Ok(ConfigLine(Csv.Value(value), []))
  {
    Csv.CsvOnlyField(value);
  }

  /** Everything after the first unquoted comma is the attribute part, taken verbatim. */
  lemma ParseWithAttributes(value: Csv.CsvField, rest: string)
    requires Csv.Writable(value) && rest != []
    ensures ParseSpec(Csv.Render(value) + [','] + rest) ==
      match Csv.CsvSpec(AttributeText(rest), None)
      case Err(e) => Err(e)
      case Ok(attributeTokens) =>
        match AddAttributes(attributeTokens, 0, [])
        case Err(e) => Err(e)
        case Ok(m) => Ok(ConfigLine(Csv.Value(value), m))
  {
    Csv.CsvFirstField(value, rest);
  }

  /**
   * A line `value,[a1,...,an]` whose attribute fields are written as CSV: the attribute tokens are the
   * field values, whatever brackets or '=' signs they contain.
   */
  lemma ParseBracketed(value: Csv.CsvField, fields: seq<Csv.CsvField>)
    requires Csv.Writable(value)
    requires forall k :: 0 <= k < |fields| ==> Csv.Writable(fields[k])
    requires fields != [] ==> !Csv.Blank(fields[|fields| - 1])
    requires |Csv.RenderAll(fields)| + 2 < NPos
    ensures ParseSpec(Csv.Render(value) + [','] + (['['] + Csv.RenderAll(fields) + [']'])) ==
      match AddAttributes(Csv.Values(fields), 0, [])
      case Err(e) => Err(e)
      case Ok(m) => Ok(ConfigLine(Csv.Value(value), m))
  {
    var inner := Csv.RenderAll(fields);
    var rest := ['['] + inner + [']'];
    ParseWithAttributes(value, rest);
    assert Tokenizer.FindFirstOf(rest, "[", 0) == Some(0);
    assert RFindChar(rest, ']', |rest|) == Some(|rest| - 1);
    AttributeTextCases(rest);
    assert rest[1..|rest| - 1] == inner;
    Csv.CsvRoundTrip(fields);
  }

  /** The same, for an unquoted value and attribute definitions that all split into a name and a text. */
  lemma ParseDefinitions(value: string, fields: seq<Csv.CsvField>, m: AttributeMap)
    requires Csv.PlainText(value)
    requires forall k :: 0 <= k < |fields| ==> Csv.Writable(fields[k])
    requires fields != [] ==> !Csv.Blank(fields[|fields| - 1])
    requires |Csv.RenderAll(fields)| + 2 < NPos
    requires AddAttributes(Csv.Values(fields), 0, []) == Ok(m)
    ensures ParseSpec(value + [','] + (['['] + Csv.RenderAll(fields) + [']'])) == Ok(ConfigLine(value, m))
  {
    ParseBracketed(Csv.CsvField(value, None), fields);
    assert Csv.Value(Csv.CsvField(value, None)) == value;
    assert Csv.Render(Csv.CsvField(value, None)) == value;
  }

  /**
   * The documented line `TRACE,[sinks=sink_a:sink_b,pattern="%v,%v"]`: the value is TRACE and the two
   * attributes are kept whole, the quoted one with its comma.
   */
  lemma DocumentedLine()
    ensures ParseSpec("TRACE,[sinks=sink_a:sink_b,pattern=\"%v,%v\"]") ==
      Ok(ConfigLine("TRACE", [("pattern", "%v,%v"), ("sinks", "sink_a:sink_b")]))
  {
    DocumentedRendering();
    DocumentedValues();
    DocumentedText();
    DocumentedWritable();
    DocumentedAttributes();
    ParseDefinitions("TRACE", [SinksField, PatternField], [("pattern", "%v,%v"), ("sinks", "sink_a:sink_b")]);
  }

  // The attribute fields of the documented line; the pattern is quoted because of its comma.
  const SinksField := Csv.CsvField("sinks=sink_a:sink_b", None)
  const PatternField := Csv.CsvField("pattern=", Some("%v,%v"))

  lemma DocumentedWritable()
    ensures Csv.Writable(SinksField) && Csv.Writable(PatternField) && !Csv.Blank(PatternField)
    ensures Csv.PlainText("TRACE")
  {
    SinksPlain();
    PatternPlain();
    TracePlain();
  }

  lemma SinksPlain()
    ensures Csv.PlainText("sinks=sink_a:sink_b")
  {
    Csv.PlainTextWithout("sinks=sink_a:sink_b");
  }

  lemma PatternPlain()
    ensures Csv.PlainText("pattern=")
  {
    Csv.PlainTextWithout("pattern=");
  }

  lemma TracePlain()
    ensures Csv.PlainText("TRACE")
  {
    Csv.PlainTextWithout("TRACE");
  }

  lemma DocumentedRendering()
    ensures Csv.RenderAll([SinksField, PatternField]) == "sinks=sink_a:sink_b,pattern=\"%v,%v\""
  {
    DocumentedPattern();
    assert Csv.Render(SinksField) == "sinks=sink_a:sink_b";
    assert [SinksField, PatternField][1..] == [PatternField];
    RenderingJoin();
  }

  lemma RenderingJoin()
    ensures "sinks=sink_a:sink_b" + [','] + "pattern=\"%v,%v\"" == "sinks=sink_a:sink_b,pattern=\"%v,%v\""
  {
    assert "sinks=sink_a:sink_b" + [','] == "sinks=sink_a:sink_b,";
  }

  lemma DocumentedPattern()
    ensures Csv.Render(PatternField) == "pattern=\"%v,%v\""
  {
    NoQuoteInPattern();
    Csv.DoubleNoQuote("%v,%v");
    QuotedPattern();
  }

  lemma NoQuoteInPattern()
    ensures '"' !in "%v,%v"
  {
  }

  lemma QuotedPattern()
    ensures "pattern=" + (['"'] + "%v,%v" + ['"']) == "pattern=\"%v,%v\""
  {
    assert ['"'] + "%v,%v" == "\"%v,%v";
    assert "\"%v,%v" + ['"'] == "\"%v,%v\"";
  }

  lemma DocumentedValues()
    ensures Csv.Values([SinksField, PatternField]) == ["sinks=sink_a:sink_b", "pattern=%v,%v"]
  {
    assert Csv.Value(SinksField) == "sinks=sink_a:sink_b";
    assert Csv.Value(PatternField) == "pattern=%v,%v";
    assert [SinksField, PatternField][1..] == [PatternField];
  }

  lemma DocumentedText()
    ensures "TRACE" + [','] + (['['] + "sinks=sink_a:sink_b,pattern=\"%v,%v\"" + [']'])
      == "TRACE,[sinks=sink_a:sink_b,pattern=\"%v,%v\"]"
  {
    DocumentedBrackets();
    TraceComma();
    DocumentedJoin();
  }

  lemma TraceComma()
    ensures "TRACE" + [','] == "TRACE,"
  {
  }

  lemma DocumentedJoin()
    ensures "TRACE," + "[sinks=sink_a:sink_b,pattern=\"%v,%v\"]" == "TRACE,[sinks=sink_a:sink_b,pattern=\"%v,%v\"]"
  {
  }

  lemma DocumentedBrackets()
    ensures ['['] + "sinks=sink_a:sink_b,pattern=\"%v,%v\"" + [']'] == "[sinks=sink_a:sink_b,pattern=\"%v,%v\"]"
  {
    OpenBracket();
  }

  lemma OpenBracket()
    ensures ['['] + "sinks=sink_a:sink_b,pattern=\"%v,%v\"" == "[sinks=sink_a:sink_b,pattern=\"%v,%v\""
  {
    var a, b := "sinks=sink_a:sink_b,", "pattern=\"%v,%v\"";
    assert a + b == "sinks=sink_a:sink_b,pattern=\"%v,%v\"";
    assert ['['] + a == "[sinks=sink_a:sink_b,";
    assert ['['] + (a + b) == ['['] + a + b;
    assert "[sinks=sink_a:sink_b," + b == "[sinks=sink_a:sink_b,pattern=\"%v,%v\"";
  }

  lemma DocumentedAttributes()
    ensures AddAttributes(["sinks=sink_a:sink_b", "pattern=%v,%v"], 0, [])
      == Ok([("pattern", "%v,%v"), ("sinks", "sink_a:sink_b")])
  {
    DocumentedSplits();
    assert StrLess("pattern", "sinks");
    AddTwoDefinitions("sinks=sink_a:sink_b", "pattern=%v,%v", "sinks", "sink_a:sink_b", "pattern", "%v,%v");
  }

  lemma DocumentedSplits()
    ensures SplitAttribute("sinks=sink_a:sink_b") == ["sinks", "sink_a:sink_b"]
    ensures SplitAttribute("pattern=%v,%v") == ["pattern", "%v,%v"]
  {
    SplitDefinition("sinks", "sink_a:sink_b");
    SplitDefinition("pattern", "%v,%v");
    assert "sinks" + "=" + "sink_a:sink_b" == "sinks=sink_a:sink_b";
    assert "pattern" + "=" + "%v,%v" == "pattern=%v,%v";
  }

  /** Two definitions of distinct names, the second name ordered first. */
  lemma AddTwoDefinitions(t1: string, t2: string, n1: string, v1: string, n2: string, v2: string)
    requires SplitAttribute(t1) == [n1, v1] && SplitAttribute(t2) == [n2, v2]
    requires StrLess(n2, n1)
    ensures AddAttributes([t1, t2], 0, []) == Ok([(n2, v2), (n1, v1)])
  {
    assert Emplace([], n1, v1) == [(n1, v1)];
    assert Emplace([(n1, v1)], n2, v2) == [(n2, v2), (n1, v1)];
    assert AddAttributes([t1, t2], 1, [(n1, v1)]) == AddAttributes([t1, t2], 2, [(n2, v2), (n1, v1)]);
  }

  /**
   * The attribute text in plain terms: between the first '[' and the last ']' when both exist in that
   * order; from the start up to the last ']' when there is no '['; from just past the first '[' to the
   * end when there is no ']' after it; the whole token when there is neither.
   */
  lemma AttributeTextCases(token: string)
    requires |token| < NPos
    ensures var s, e := Tokenizer.FindFirstOf(token, "[", 0), RFindChar(token, ']', |token|);
      && (s.None? && e.None? ==> AttributeText(token) == token)
      && (s.None? && e.Some? ==> AttributeText(token) == token[..e.value])
      && (s.Some? && e.None? ==> AttributeText(token) == token[s.value + 1..])
      && (s.Some? && e.Some? && s.value < e.value ==> AttributeText(token) == token[s.value + 1..e.value])
      && (s.Some? && e.Some? && e.value < s.value ==> AttributeText(token) == token[s.value + 1..])
  {
    if Tokenizer.FindFirstOf(token, "[", 0).None? {
      AttributeTextNoOpen(token);
    } else {
      AttributeTextOpen(token);
    }
  }

  lemma AttributeTextNoOpen(token: string)
    requires |token| < NPos && Tokenizer.FindFirstOf(token, "[", 0).None?
    ensures var e := RFindChar(token, ']', |token|);
      AttributeText(token) == if e.None? then token else token[..e.value]
  {
    SliceWithoutOpen(token, Offset(RFindChar(token, ']', |token|)));
  }

  lemma AttributeTextOpen(token: string)
    requires |token| < NPos && Tokenizer.FindFirstOf(token, "[", 0).Some?
    ensures var s, e := Tokenizer.FindFirstOf(token, "[", 0).value, RFindChar(token, ']', |token|);
      AttributeText(token) == if e.Some? && s < e.value then token[s + 1..e.value] else token[s + 1..]
  {
    var s := Tokenizer.FindFirstOf(token, "[", 0).value;
    var end := Offset(RFindChar(token, ']', |token|));
    assert Offset(Tokenizer.FindFirstOf(token, "[", 0)) == s;
    SliceAfterOpen(token, s, end);
  }

  /** The substr arithmetic when there is no '[': it starts at npos + 1 == 0 and takes end + 1 - 2^64 (mod 2^64). */
  lemma SliceWithoutOpen(token: string, end: int)
    requires |token| < NPos && (end == NPos || 0 <= end < |token|)
    ensures SizeT(NPos + 1) == 0 && Substr(token, 0, SizeT(end - NPos - 1)) == token[..if end == NPos then |token| else end]
  {
  }

  /** The substr arithmetic after a '[' at start: end - start - 1 wraps when the ']' comes first or is missing. */
  lemma SliceAfterOpen(token: string, start: nat, end: int)
    requires start < |token| < NPos && (end == NPos || 0 <= end < |token|)
    ensures SizeT(start + 1) == start + 1
    ensures start < end < |token| ==> Substr(token, start + 1, SizeT(end - start - 1)) == token[start + 1..end]
    ensures !(start < end < |token|) ==> Substr(token, start + 1, SizeT(end - start - 1)) == token[start + 1..]
  {
  }

  /** The first definition in the token list of a name. */
  function FirstDefinition(tokens: seq<string>, name: string): Option<string> {
    if tokens == [] then None
    else
      var kv := SplitAttribute(tokens[0]);
      if |kv| == 2 && kv[0] == name then Some(kv[1]) else FirstDefinition(tokens[1..], name)
  }

  lemma {:induction false} AddAttributesSpec(tokens: seq<string>, k: nat, acc: AttributeMap)
    requires k <= |tokens| && Sorted(acc)
    ensures AddAttributes(tokens, k, acc).Ok? <==> forall j :: k <= j < |tokens| ==> |SplitAttribute(tokens[j])| == 2
    ensures AddAttributes(tokens, k, acc).Ok? ==>
      var m := AddAttributes(tokens, k, acc).value;
      Sorted(m) && forall name :: Find(m, name) == if Find(acc, name).Some? then Find(acc, name) else FirstDefinition(tokens[k..], name)
    decreases |tokens| - k
  {
    if k < |tokens| {
      var kv := SplitAttribute(tokens[k]);
      assert tokens[k..][1..] == tokens[k + 1..];
      if |kv| == 2 {
        EmplaceSorted(acc, kv[0], kv[1]);
        EmplaceKeepsFirst(acc, kv[0], kv[1]);
        AddAttributesSpec(tokens, k + 1, Emplace(acc, kv[0], kv[1]));
      }
    }
  }

  /**
   * The attribute tokens give an attribute map exactly when each splits on '=' into two pieces; the map
   * then holds, for each name, the text of its FIRST definition, and nothing else.
   */
  lemma AttributesFirstWins(tokens: seq<string>)
    ensures AddAttributes(tokens, 0, []).Ok? <==> forall j :: 0 <= j < |tokens| ==> |SplitAttribute(tokens[j])| == 2
    ensures AddAttributes(tokens, 0, []).Ok? ==>
      forall name :: Find(AddAttributes(tokens, 0, []).value, name) == FirstDefinition(tokens, name)
  {
    AddAttributesSpec(tokens, 0, []);
    assert tokens[0..] == tokens;
  }

  /** The first token that does not split into exactly two pieces is the one the error names. */
  lemma {:induction false} AddAttributesError(tokens: seq<string>, k: nat, acc: AttributeMap, bad: nat)
    requires k <= bad < |tokens| && |SplitAttribute(tokens[bad])| != 2
    requires forall j :: k <= j < bad ==> |SplitAttribute(tokens[j])| == 2
    ensures AddAttributes(tokens, k, acc) == Err(InvalidAttributeDefinition(tokens[bad]))
    decreases bad - k
  {
    if k < bad {
      var kv := SplitAttribute(tokens[k]);
      AddAttributesError(tokens, k + 1, Emplace(acc, kv[0], kv[1]), bad);
    }
  }

  /** An attribute written as name=text, with no '=' in the name, splits into that name and text. */
  lemma SplitDefinition(name: string, text: string)
    requires '=' !in name && '=' !in text
    ensures SplitAttribute(name + "=" + text) == [name, text]
  {
    Tokenizer.SplitOff(name, '=', text, "=", None);
    Tokenizer.NoDelimiter(text, "=", None);
  }
}

=== FILE: configuration.dfy ===
/**
 * The `configuration` class (configuration.h, configuration_impl.h): `create` reads `spdlog.` directives
 * line by line into three name-keyed maps, and `configure` acts on them in three phases: every global
 * function, then every sink, then every logger, each phase in ascending name order. What the actions do to
 * the process (async mode, patterns, the logger registry) is outside the model, which returns them as a
 * log; a failure ends the log, and whatever was done before it stays done, including a logger that
 * make_logger registered before it failed.
 */
module Configuration {
  import opened Wrappers
  import opened Errors
  import opened Strings
  import opened SortedMap
  import opened Attributes
  import Levels
  import opened ConfigLine
  import opened Registries
  import Tokenizer

  /** One directive of a configuration text, with the name its key gives it. */
  datatype Directive =
    | GlobalDirective(name: string, global: GlobalConfig)
    | SinkDirective(name: string, sink: SinkConfig)
    | LoggerDirective(name: string, logger: LoggerConfig)

  /** The three maps of a configuration: m_globals, m_sinks and m_loggers. */
  datatype Directives = Directives(globals: Entries<GlobalConfig>, sinks: Entries<SinkConfig>, loggers: Entries<LoggerConfig>)

  /**
   * How `create` reads one line: a line that does not start with `spdlog.`, or that has no '=', is skipped;
   * the key before the first '=' is split on '.': two parts name a global function, three parts whose
   * middle is `logger` or `sink` name a logger or a sink, and anything else is an error. The text after
   * the first '=' is parsed as that entity's configuration.
   */
  function ClassifyLine(line: string): (r: Result<Option<Directive>, Error>)
    ensures !StartsWith(line, "spdlog.") ==> r == Ok(None)
    ensures '=' !in line ==> r == Ok(None)
  {
    if !StartsWith(line, "spdlog.") then Ok(None)
    else
      var keyValue := Tokenizer.TokenizeSpec(line, "=", Some(1));
      Tokenizer.TokenizeOnce(line, "=");
      Tokenizer.FindFirstOfSpec(line, "=", 0);
      if |keyValue| != 2 then Ok(None)
      else
        var key := Tokenizer.TokenizeSpec(keyValue[0], ".", None);
        if |key| == 2 then
          match GlobalConfigSpec(keyValue[1])
          case Err(e) => Err(e)
          case Ok(g) => Ok(Some(GlobalDirective(key[1], g)))
        else if |key| == 3 && key[1] == "logger" then
          match LoggerConfigSpec(keyValue[1])
          case Err(e) => Err(e)
          case Ok(l) => Ok(Some(LoggerDirective(key[2], l)))
        else if |key| == 3 && key[1] == "sink" then
          match SinkConfigSpec(keyValue[1])
          case Err(e) => Err(e)
          case Ok(s) => Ok(Some(SinkDirective(key[2], s)))
        else Err(UnknownDirective(line))
  }

  /** add_global / add_sink / add_logger: std::map::emplace, so the first directive for a name stays. */
  function Add(d: Directives, directive: Directive): Directives {
    match directive
    case GlobalDirective(name, g) => d.(globals := Emplace(d.globals, name, g))
    case SinkDirective(name, s) => d.(sinks := Emplace(d.sinks, name, s))
    case LoggerDirective(name, l) => d.(loggers := Emplace(d.loggers, name, l))
  }

  /** The loop of `create` from line k on. */
  function CreateFrom(lines: seq<string>, k: nat, d: Directives): Result<Directives, Error>
    requires k <= |lines|
    decreases |lines| - k
  {
    if k == |lines| then Ok(d)
    else
      match ClassifyLine(lines[k])
      case Err(e) => Err(e)
      case Ok(None) => CreateFrom(lines, k + 1, d)
      case Ok(Some(directive)) => CreateFrom(lines, k + 1, Add(d, directive))
  }

  /** What configuration::create(std::istream&) builds from the lines of its input, or the error it throws. */
  function CreateSpec(lines: seq<string>): Result<Directives, Error> {
    CreateFrom(lines, 0, Directives([], [], []))
  }

  // ---------------------------------------------------------------------------
  // configure

  /** A logger as make_logger builds it. */
  datatype Logger = Logger(name: string, sinks: seq<Sink>, level: Levels.Level, pattern: Option<string>, errorHandler: Option<Callback>)

  /** One step of configure. */
  datatype Action =
    | CallGlobal(name: string, action: GlobalAction)
    | BuildSink(name: string, sink: Sink)
    | BuildLogger(logger: Logger)

  /** What configure did, in order, and the exception that ended it, if any. */
  datatype Run = Run(actions: seq<Action>, failure: Option<Error>)

  /** The sinks of one logger, looked up by name in the declared order; the first missing one is an error. */
  function ResolveSinks(logger: string, names: seq<string>, built: map<string, Sink>): (r: Result<seq<Sink>, Error>)
    ensures r.Ok? <==> forall k :: 0 <= k < |names| ==> names[k] in built
    ensures r.Ok? ==> |r.value| == |names| && forall k :: 0 <= k < |names| ==> r.value[k] == built[names[k]]
    ensures r.Err? ==> exists k :: (0 <= k < |names| && names[k] !in built && r.error == MissingSink(logger, names[k])
      && forall j :: 0 <= j < k ==> names[j] in built)
  {
    if names == [] then Ok([])
    else if names[0] !in built then Err(MissingSink(logger, names[0]))
    else
      match ResolveSinks(logger, names[1..], built)
      case Err(e) =>
        assert forall k :: 1 <= k < |names| ==> names[k] == names[1..][k - 1];
        Err(e)
      case Ok(rest) =>
        assert forall k :: 1 <= k < |names| ==> names[k] == names[1..][k - 1];
        Ok([built[names[0]]] + rest)
  }

  /**
   * What make_logger leaves behind: the logger it registered, if it got that far, and the exception it
   * threw, if any. The logger is registered with its level and pattern before the error handler is looked
   * up, so an unknown handler leaves a registered logger without one.
   */
  datatype Made = Made(registered: Option<Logger>, failure: Option<Error>)

  /**
   * make_logger: the sinks, the level from the threshold, then the optional pattern and error handler
   * (an empty text means none). A missing sink fails before anything is registered; an unknown handler is
   * an error that names the logger, raised after the logger is registered.
   */
  function MakeLogger(name: string, config: LoggerConfig, built: map<string, Sink>, t: Tables): (r: Made)
    ensures r.failure.None? ==> r.registered.Some?
    ensures r.registered.Some? ==> r.registered.value.name == name && r.registered.value.level == Levels.FindLogLevel(config.threshold)
    ensures r.registered.Some? ==> ResolveSinks(name, config.sinks, built) == Ok(r.registered.value.sinks)
    ensures r.registered.Some? ==> (r.registered.value.pattern.Some? <==> Setting(config.attributes, "pattern").Some?)
    ensures r.registered.Some? && r.registered.value.pattern.Some? ==> ("pattern", r.registered.value.pattern.value) in config.attributes
    ensures r.registered.Some? ==>
      (r.registered.value.errorHandler.Some? <==> (Setting(config.attributes, "set_error_handler").Some? && r.failure.None?))
    ensures r.registered.Some? && r.registered.value.errorHandler.Some? ==>
      var h := Setting(config.attributes, "set_error_handler");
      h.Some? && h.value in t.errorHandlers && r.registered.value.errorHandler.value == t.errorHandlers[h.value]
    ensures r.failure.Some? ==> r.failure.value.MissingSink? || r.failure.value == UnknownErrorHandler(name)
    ensures r.failure.Some? && r.failure.value.MissingSink? ==> r.registered.None? && ResolveSinks(name, config.sinks, built).Err?
    ensures r.failure.Some? && r.failure.value.UnknownErrorHandler? ==>
      (r.registered.Some? && Setting(config.attributes, "set_error_handler").Some?
       && Setting(config.attributes, "set_error_handler").value !in t.errorHandlers)
  {
    match ResolveSinks(name, config.sinks, built)
    case Err(e) => Made(None, Some(e))
    case Ok(sinks) =>
      var pattern := GetAttributeDefault(GetAttribute("pattern", config.attributes), "");
      var handler := GetAttributeDefault(GetAttribute("set_error_handler", config.attributes), "");
      var logger := Logger(name, sinks, Levels.FindLogLevel(config.threshold), if pattern == [] then None else Some(pattern), None);
      if handler == [] then Made(Some(logger), None)
      else if handler !in t.errorHandlers then Made(Some(logger), Some(UnknownErrorHandler(name)))
      else Made(Some(logger.(errorHandler := Some(t.errorHandlers[handler]))), None)
  }

  /** The log after make_logger: the logger it registered, if any, is recorded even when it then failed. */
  function Registered(log: seq<Action>, made: Made): seq<Action> {
    if made.registered.Some? then log + [BuildLogger(made.registered.value)] else log
  }

  /** Phase one from global k on, after `log`. */
  function GlobalsFrom(globals: Entries<GlobalConfig>, k: nat, t: Tables, log: seq<Action>): Run
    requires k <= |globals|
    decreases |globals| - k
  {
    if k == |globals| then Run(log, None)
    else
      match CallGlobalFunc(t, globals[k].0, globals[k].1)
      case Err(e) => Run(log, Some(e))
      case Ok(None) => GlobalsFrom(globals, k + 1, t, log)
      case Ok(Some(a)) => GlobalsFrom(globals, k + 1, t, log + [CallGlobal(globals[k].0, a)])
  }

  /** Phase two from sink k on, after `log`; also returns the sinks built so far by name. */
  function SinksFrom(sinks: Entries<SinkConfig>, k: nat, t: Tables, built: map<string, Sink>, log: seq<Action>): (Run, map<string, Sink>)
    requires k <= |sinks|
    decreases |sinks| - k
  {
    if k == |sinks| then (Run(log, None), built)
    else
      match MakeSink(t.sinkFactories, sinks[k].1)
      case Err(e) => (Run(log, Some(e)), built)
      case Ok(s) =>
        SinksFrom(sinks, k + 1, t, if sinks[k].0 in built then built else built[sinks[k].0 := s], log + [BuildSink(sinks[k].0, s)])
  }

  /** Phase three from logger k on, after `log`. */
  function LoggersFrom(loggers: Entries<LoggerConfig>, k: nat, built: map<string, Sink>, t: Tables, log: seq<Action>): Run
    requires k <= |loggers|
    decreases |loggers| - k
  {
    if k == |loggers| then Run(log, None)
    else
      var made := MakeLogger(loggers[k].0, loggers[k].1, built, t);
      if made.failure.Some? then Run(Registered(log, made), made.failure)
      else LoggersFrom(loggers, k + 1, built, t, Registered(log, made))
  }

  /** configure: the three phases, each starting only when the one before it has finished without failing. */
  function ConfigureSpec(d: Directives, t: Tables): Run {
    var globals := GlobalsFrom(d.globals, 0, t, []);
    if globals.failure.Some? then globals
    else
      var (sinks, built) := SinksFrom(d.sinks, 0, t, map[], globals.actions);
      if sinks.failure.Some? then sinks
      else LoggersFrom(d.loggers, 0, built, t, sinks.actions)
  }

  /** The configuration object. */
  class Configuration {
    var globals: Entries<GlobalConfig>
    var sinks: Entries<SinkConfig>
    var loggers: Entries<LoggerConfig>

    function Contents(): Directives
      reads this
    {
      Directives(globals, sinks, loggers)
    }

    /** The three maps are std::maps: strictly ascending names. */
    predicate Valid()
      reads this
    {
      Sorted(globals) && Sorted(sinks) && Sorted(loggers)
    }

    constructor ()
      ensures Valid() && Contents() == Directives([], [], [])
    {
      globals := [];
      sinks := [];
      loggers := [];
    }

    method AddGlobal(name: string, g: GlobalConfig)
      requires Valid()
      modifies this
      ensures Valid() && Contents() == Add(old(Contents()), GlobalDirective(name, g))
    {
      EmplaceSorted(globals, name, g);
      globals := Emplace(globals, name, g);
    }

    method AddSink(name: string, s: SinkConfig)
      requires Valid()
      modifies this
      ensures Valid() && Contents() == Add(old(Contents()), SinkDirective(name, s))
    {
      EmplaceSorted(sinks, name, s);
      sinks := Emplace(sinks, name, s);
    }

    method AddLogger(name: string, l: LoggerConfig)
      requires Valid()
      modifies this
      ensures Valid() && Contents() == Add(old(Contents()), LoggerDirective(name, l))
    {
      EmplaceSorted(loggers, name, l);
      loggers := Emplace(loggers, name, l);
    }

    /** configuration::create over the lines of its input stream. */
    static method Create(lines: seq<string>) returns (r: Result<Configuration, Error>)
      ensures r.Ok? ==> fresh(r.value) && r.value.Valid() && CreateSpec(lines) == Ok(r.value.Contents())
      ensures r.Err? ==> CreateSpec(lines) == Err(r.error)
    {
      var result := new Configuration();
      var k := 0;
      while k < |lines|
        invariant k <= |lines| && fresh(result) && result.Valid()
        invariant CreateFrom(lines, k, result.Contents()) == CreateSpec(lines)
      {
        var line := lines[k];
        if !StartsWith(line, "spdlog.") {
          k := k + 1;
          continue;
        }
        var keyValue := Tokenizer.Tokenize(line, "=", Some(1));
        if |keyValue| != 2 {
          k := k + 1;
          continue;
        }
        var key := Tokenizer.Tokenize(keyValue[0], ".", None);
        if |key| == 2 {
          var g :- NewGlobalConfig(keyValue[1]);
          result.AddGlobal(key[1], g);
        } else if |key| == 3 && key[1] == "logger" {
          var l :- NewLoggerConfig(keyValue[1]);
          result.AddLogger(key[2], l);
        } else if |key| == 3 && key[1] == "sink" {
          var s :- NewSinkConfig(keyValue[1]);
          result.AddSink(key[2], s);
        } else {
          return Err(UnknownDirective(line));
        }
        k := k + 1;
      }
      return Ok(result);
    }

    /** configuration::configure, against the registries as they are when it runs. */
    method Configure(registries: Registries) returns (run: Run)
      ensures run == ConfigureSpec(Contents(), registries.Snapshot())
    {
      var t := registries.Snapshot();
      var log: seq<Action> := [];
      var k := 0;
      while k < |globals|
        invariant k <= |globals|
        invariant GlobalsFrom(globals, k, t, log) == GlobalsFrom(globals, 0, t, [])
      {
        var called := CallGlobalFunc(t, globals[k].0, globals[k].1);
        if called.Err? {
          return Run(log, Some(called.error));
        }
        if called.value.Some? {
          log := log + [CallGlobal(globals[k].0, called.value.value)];
        }
        k := k + 1;
      }
      var built: map<string, Sink> := map[];
      k := 0;
      while k < |sinks|
        invariant k <= |sinks|
        invariant SinksFrom(sinks, k, t, built, log) == SinksFrom(sinks, 0, t, map[], GlobalsFrom(globals, 0, t, []).actions)
      {
        var made := MakeSink(t.sinkFactories, sinks[k].1);
        if made.Err? {
          return Run(log, Some(made.error));
        }
        var s := made.value;
        // std::map::insert: a name already present keeps its sink
        if sinks[k].0 !in built {
          built := built[sinks[k].0 := s];
        }
        log := log + [BuildSink(sinks[k].0, s)];
        k := k + 1;
      }
      k := 0;
      while k < |loggers|
        invariant k <= |loggers|
        invariant LoggersFrom(loggers, k, built, t, log) == ConfigureSpec(Contents(), t)
      {
        var made := MakeLogger(loggers[k].0, loggers[k].1, built, t);
        if made.registered.Some? {
          log := log + [BuildLogger(made.registered.value)];
        }
        if made.failure.Some? {
          return Run(log, made.failure);
        }
        k := k + 1;
      }
      return Run(log, None);
    }
  }

  // ---------------------------------------------------------------------------
  // Reading lines

  /** `spdlog.<name>=<value>`, with a name free of '.' and '=', is the global function `name`. */
  lemma ClassifyGlobalLine(name: string, value: string)
    requires '.' !in name && '=' !in name
    ensures ClassifyLine("spdlog." + name + "=" + value) ==
      match GlobalConfigSpec(value)
      case Err(e) => Err(e)
      case Ok(g) => Ok(Some(GlobalDirective(name, g)))
  {
    var key := "spdlog." + name;
    KeyValueSplit(key, value);
    KeySplit("spdlog", name, []);
    assert "spdlog" + "." + name == key;
  }

  /**
   * `spdlog.<kind>.<name>=<value>`, with kind and name free of '.' and '=': a logger for `logger`, a sink
   * for `sink`, and an error naming the line for any other kind.
   */
  lemma ClassifyEntityLine(kind: string, name: string, value: string)
    requires '.' !in kind && '=' !in kind && '.' !in name && '=' !in name
    ensures var line := "spdlog." + kind + "." + name + "=" + value;
      ClassifyLine(line) ==
        if kind == "logger" then
          match LoggerConfigSpec(value)
          case Err(e) => Err(e)
          case Ok(l) => Ok(Some(LoggerDirective(name, l)))
        else if kind == "sink" then
          match SinkConfigSpec(value)
          case Err(e) => Err(e)
          case Ok(c) => Ok(Some(SinkDirective(name, c)))
        else Err(UnknownDirective(line))
  {
    var key := "spdlog." + kind + "." + name;
    KeyValueSplit(key, value);
    KeySplit("spdlog", kind, name);
    assert "spdlog" + "." + kind + "." + name == key;
  }

  /** The first '=' splits a `spdlog.` key from its value. */
  lemma KeyValueSplit(key: string, value: string)
    requires StartsWith(key, "spdlog.") && '=' !in key
    ensures StartsWith(key + "=" + value, "spdlog.")
    ensures Tokenizer.TokenizeSpec(key + "=" + value, "=", Some(1)) == [key, value]
  {
    var line := key + "=" + value;
    assert line[..7] == key[..7];
    assert line == key + ['='] + value;
    Tokenizer.SplitOff(key, '=', value, "=", Some(1));
    assert value[0..] == value;
  }

  /** A key `<a>.<b>` or `<a>.<b>.<c>` whose parts hold no '.' splits into exactly those parts. */
  lemma KeySplit(a: string, b: string, c: string)
    requires '.' !in a && '.' !in b && '.' !in c
    ensures Tokenizer.TokenizeSpec(a + "." + b, ".", None) == [a, b]
    ensures Tokenizer.TokenizeSpec(a + "." + b + "." + c, ".", None) == [a, b, c]
  {
    assert a + "." + b == a + ['.'] + b;
    Tokenizer.SplitOff(a, '.', b, ".", None);
    Tokenizer.NoDelimiter(b, ".", None);
    assert a + "." + b + "." + c == a + ['.'] + (b + ['.'] + c);
    Tokenizer.SplitOff(a, '.', b + ['.'] + c, ".", None);
    Tokenizer.SplitOff(b, '.', c, ".", None);
    Tokenizer.NoDelimiter(c, ".", None);
  }

  // ---------------------------------------------------------------------------
  // Properties of create

  /** The slot a directive fills: its kind and its name. */
  predicate SameSlot(a: Directive, b: Directive) {
    a.name == b.name &&
    ((a.GlobalDirective? && b.GlobalDirective?) || (a.SinkDirective? && b.SinkDirective?) || (a.LoggerDirective? && b.LoggerDirective?))
  }

  /** The line is a directive for the same slot as `directive`. */
  predicate Declares(line: string, directive: Directive) {
    ClassifyLine(line).Ok? && ClassifyLine(line).value.Some? && SameSlot(ClassifyLine(line).value.value, directive)
  }

  /** The slot of `directive` is taken in d. */
  predicate Taken(d: Directives, directive: Directive) {
    match directive
    case GlobalDirective(name, _) => name in Keys(d.globals)
    case SinkDirective(name, _) => name in Keys(d.sinks)
    case LoggerDirective(name, _) => name in Keys(d.loggers)
  }

  /** The slot of `directive` holds exactly its configuration. */
  predicate Holds(d: Directives, directive: Directive) {
    match directive
    case GlobalDirective(name, g) => Find(d.globals, name) == Some(g)
    case SinkDirective(name, c) => Find(d.sinks, name) == Some(c)
    case LoggerDirective(name, l) => Find(d.loggers, name) == Some(l)
  }

  predicate SortedDirectives(d: Directives) {
    Sorted(d.globals) && Sorted(d.sinks) && Sorted(d.loggers)
  }

  /** Adding a directive keeps the maps sorted, fills an empty slot and leaves every filled slot alone. */
  lemma AddSlots(d: Directives, added: Directive, other: Directive)
    requires SortedDirectives(d)
    ensures SortedDirectives(Add(d, added))
    ensures !Taken(d, added) ==> Holds(Add(d, added), added)
    ensures Holds(d, other) ==> Holds(Add(d, added), other)
    ensures !SameSlot(added, other) ==> (Taken(Add(d, added), other) <==> Taken(d, other))
  {
    match added
    case GlobalDirective(name, g) =>
      EmplaceSorted(d.globals, name, g);
      EmplaceKeepsFirst(d.globals, name, g);
    case SinkDirective(name, c) =>
      EmplaceSorted(d.sinks, name, c);
      EmplaceKeepsFirst(d.sinks, name, c);
    case LoggerDirective(name, l) =>
      EmplaceSorted(d.loggers, name, l);
      EmplaceKeepsFirst(d.loggers, name, l);
  }

  lemma {:induction false} CreateFromSorted(lines: seq<string>, k: nat, d: Directives)
    requires k <= |lines| && SortedDirectives(d)
    requires CreateFrom(lines, k, d).Ok?
    ensures SortedDirectives(CreateFrom(lines, k, d).value)
    decreases |lines| - k
  {
    if k < |lines| {
      match ClassifyLine(lines[k])
      case Err(_) =>
      case Ok(None) => CreateFromSorted(lines, k + 1, d);
      case Ok(Some(directive)) =>
        AddSlots(d, directive, directive);
        CreateFromSorted(lines, k + 1, Add(d, directive));
    }
  }

  /** Later lines never change a slot that is already filled. */
  lemma {:induction false} CreateFromKeeps(lines: seq<string>, k: nat, d: Directives, directive: Directive)
    requires k <= |lines| && SortedDirectives(d) && Holds(d, directive)
    requires CreateFrom(lines, k, d).Ok?
    ensures Holds(CreateFrom(lines, k, d).value, directive)
    decreases |lines| - k
  {
    if k < |lines| {
      match ClassifyLine(lines[k])
      case Err(_) =>
      case Ok(None) => CreateFromKeeps(lines, k + 1, d, directive);
      case Ok(Some(added)) =>
        AddSlots(d, added, directive);
        CreateFromKeeps(lines, k + 1, Add(d, added), directive);
    }
  }

  lemma {:induction false} CreateFromReaches(lines: seq<string>, i: nat, d: Directives, k: nat, directive: Directive)
    requires i <= k < |lines| && SortedDirectives(d) && !Taken(d, directive)
    requires ClassifyLine(lines[k]) == Ok(Some(directive))
    requires forall j :: i <= j < k ==> !Declares(lines[j], directive)
    requires CreateFrom(lines, i, d).Ok?
    ensures Holds(CreateFrom(lines, i, d).value, directive)
    decreases k - i, 1
  {
    if i == k {
      ReachesHere(lines, k, d, directive);
    } else {
      ReachesPast(lines, i, d, k, directive);
    }
  }

  /** The step of CreateFromReaches over line k itself. */
  lemma ReachesHere(lines: seq<string>, k: nat, d: Directives, directive: Directive)
    requires k < |lines| && SortedDirectives(d) && !Taken(d, directive)
    requires ClassifyLine(lines[k]) == Ok(Some(directive))
    requires CreateFrom(lines, k, d).Ok?
    ensures Holds(CreateFrom(lines, k, d).value, directive)
  {
    AddSlots(d, directive, directive);
    CreateFromStep(lines, k, d);
    CreateFromKeeps(lines, k + 1, Add(d, directive), directive);
  }

  /** The step of CreateFromReaches over a line before line k. */
  lemma {:induction false} ReachesPast(lines: seq<string>, i: nat, d: Directives, k: nat, directive: Directive)
    requires i < k < |lines| && SortedDirectives(d) && !Taken(d, directive)
    requires ClassifyLine(lines[k]) == Ok(Some(directive))
    requires forall j :: i <= j < k ==> !Declares(lines[j], directive)
    requires CreateFrom(lines, i, d).Ok?
    ensures Holds(CreateFrom(lines, i, d).value, directive)
    decreases k - i, 0
  {
    var c := ClassifyLine(lines[i]);
    if c.Ok? {
      assert !Declares(lines[i], directive);
      CreateFromStep(lines, i, d);
      if c.value.Some? {
        AddSlots(d, c.value.value, directive);
      }
      CreateFromReaches(lines, i + 1, Next(d, c.value), k, directive);
    } else {
      CreateFromFails(lines, i, d);
    }
  }

  /** The directives after a line that is understood: the line's directive added, if it has one. */
  function Next(d: Directives, line: Option<Directive>): Directives {
    if line.None? then d else Add(d, line.value)
  }

  /** One step of create over a line it understands. */
  lemma CreateFromStep(lines: seq<string>, k: nat, d: Directives)
    requires k < |lines| && ClassifyLine(lines[k]).Ok?
    ensures CreateFrom(lines, k, d) == CreateFrom(lines, k + 1, Next(d, ClassifyLine(lines[k]).value))
  {
  }

  /** One step of create over a line it cannot understand. */
  lemma CreateFromFails(lines: seq<string>, k: nat, d: Directives)
    requires k < |lines| && ClassifyLine(lines[k]).Err?
    ensures CreateFrom(lines, k, d).Err?
  {
  }

  /**
   * add_global / add_sink / add_logger use emplace, so when a name is given twice the FIRST line wins:
   * the directive of the first line that declares a slot is the one the configuration holds.
   */
  lemma CreateFirstWins(lines: seq<string>, k: nat, directive: Directive)
    requires k < |lines| && ClassifyLine(lines[k]) == Ok(Some(directive))
    requires forall j :: 0 <= j < k ==> !Declares(lines[j], directive)
    requires CreateSpec(lines).Ok?
    ensures Holds(CreateSpec(lines).value, directive)
  {
    CreateFromReaches(lines, 0, Directives([], [], []), k, directive);
  }

  lemma {:induction false} CreateFromError(lines: seq<string>, k: nat, d: Directives) returns (i: nat)
    requires k <= |lines| && CreateFrom(lines, k, d).Err?
    ensures k <= i < |lines| && ClassifyLine(lines[i]) == Err(CreateFrom(lines, k, d).error)
    ensures forall j :: k <= j < i ==> ClassifyLine(lines[j]).Ok?
    decreases |lines| - k
  {
    var c := ClassifyLine(lines[k]);
    if c.Err? {
      i := k;
    } else {
      CreateFromStep(lines, k, d);
      i := CreateFromError(lines, k + 1, Next(d, c.value));
      OkBefore(lines, k, i);
    }
  }

  lemma OkBefore(lines: seq<string>, k: nat, i: nat)
    requires k < i <= |lines| && ClassifyLine(lines[k]).Ok?
    requires forall j :: k + 1 <= j < i ==> ClassifyLine(lines[j]).Ok?
    ensures forall j :: k <= j < i ==> ClassifyLine(lines[j]).Ok?
  {
    forall j | k <= j < i
      ensures ClassifyLine(lines[j]).Ok?
    {
      if j > k {
        assert k + 1 <= j < i;
      }
    }
  }

  /** create throws the error of the first line it cannot understand; the lines before it are all fine. */
  lemma CreateError(lines: seq<string>)
    requires CreateSpec(lines).Err?
    ensures exists i :: (0 <= i < |lines| && ClassifyLine(lines[i]) == Err(CreateSpec(lines).error)
      && forall j :: 0 <= j < i ==> ClassifyLine(lines[j]).Ok?)
  {
    var i := CreateFromError(lines, 0, Directives([], [], []));
  }

  /** Only `spdlog.` lines matter: any other line may be added or removed without changing the result. */
  lemma {:induction false} CreateIgnoresOtherLines(lines: seq<string>, other: string, k: nat, d: Directives)
    requires !StartsWith(other, "spdlog.") && k <= |lines|
    ensures CreateFrom(lines[..k] + [other] + lines[k..], 0, d) == CreateFrom(lines, 0, d)
  {
    var longer := lines[..k] + [other] + lines[k..];
    InsertedLine(lines, other, k, 0, d);
  }

  lemma {:induction false} InsertedLine(lines: seq<string>, other: string, k: nat, i: nat, d: Directives)
    requires !StartsWith(other, "spdlog.") && i <= k <= |lines|
    ensures CreateFrom(lines[..k] + [other] + lines[k..], i, d) == CreateFrom(lines, i, d)
    decreases k - i
  {
    var longer := lines[..k] + [other] + lines[k..];
    if i == k {
      InsertedHere(lines, other, k, d);
    } else {
      assert longer[i] == lines[i];
      var c := ClassifyLine(lines[i]);
      if c.Ok? {
        CreateFromStep(lines, i, d);
        CreateFromStep(longer, i, d);
        InsertedLine(lines, other, k, i + 1, Next(d, c.value));
      }
    }
  }

  /** The inserted line itself: create skips it and goes on with the same lines as before. */
  lemma InsertedHere(lines: seq<string>, other: string, k: nat, d: Directives)
    requires !StartsWith(other, "spdlog.") && k <= |lines|
    ensures CreateFrom(lines[..k] + [other] + lines[k..], k, d) == CreateFrom(lines, k, d)
  {
    var longer := lines[..k] + [other] + lines[k..];
    assert longer[k] == other;
    assert longer[k + 1..] == lines[k..];
    ShiftedTail(longer, lines, k + 1, d);
  }

  /** CreateFrom looks only at the lines from k on. */
  lemma {:induction false} ShiftedTail(longer: seq<string>, lines: seq<string>, k: nat, d: Directives)
    requires 1 <= k <= |longer| && |longer| == |lines| + 1 && longer[k..] == lines[k - 1..]
    ensures CreateFrom(longer, k, d) == CreateFrom(lines, k - 1, d)
    decreases |longer| - k
  {
    if k < |longer| {
      assert longer[k] == longer[k..][0] == lines[k - 1..][0] == lines[k - 1];
      assert longer[k + 1..] == longer[k..][1..];
      assert lines[k..] == lines[k - 1..][1..];
      match ClassifyLine(longer[k])
      case Err(_) =>
      case Ok(None) => ShiftedTail(longer, lines, k + 1, d);
      case Ok(Some(directive)) => ShiftedTail(longer, lines, k + 1, Add(d, directive));
    }
  }

  // ---------------------------------------------------------------------------
  // Properties of configure

  /** Which phase of configure performs an action. */
  function Phase(a: Action): nat {
    match a
    case CallGlobal(_, _) => 0
    case BuildSink(_, _) => 1
    case BuildLogger(_) => 2
  }

  predicate PhaseOrdered(actions: seq<Action>) {
    forall i, j :: 0 <= i < j < |actions| ==> Phase(actions[i]) <= Phase(actions[j])
  }

  /** `actions` is `log` followed only by actions of phase p. */
  predicate ExtendsIn(actions: seq<Action>, log: seq<Action>, p: nat) {
    |log| <= |actions| && actions[..|log|] == log && forall i :: |log| <= i < |actions| ==> Phase(actions[i]) == p
  }

  /** Extending a log by one action of phase p, and then by actions of phase p, extends it by actions of phase p. */
  lemma ExtendsStep(actions: seq<Action>, log: seq<Action>, a: Action, p: nat)
    requires Phase(a) == p && ExtendsIn(actions, log + [a], p)
    ensures ExtendsIn(actions, log, p)
  {
    assert actions[..|log|] == (log + [a])[..|log|];
    assert actions[|log|] == a;
  }

  lemma {:induction false} GlobalsFromExtends(globals: Entries<GlobalConfig>, k: nat, t: Tables, log: seq<Action>)
    requires k <= |globals|
    ensures ExtendsIn(GlobalsFrom(globals, k, t, log).actions, log, 0)
    decreases |globals| - k
  {
    if k < |globals| {
      match CallGlobalFunc(t, globals[k].0, globals[k].1)
      case Err(_) =>
      case Ok(None) => GlobalsFromExtends(globals, k + 1, t, log);
      case Ok(Some(a)) =>
        var log' := log + [CallGlobal(globals[k].0, a)];
        GlobalsFromExtends(globals, k + 1, t, log');
        ExtendsStep(GlobalsFrom(globals, k + 1, t, log').actions, log, CallGlobal(globals[k].0, a), 0);
    }
  }

  lemma {:induction false} SinksFromExtends(sinks: Entries<SinkConfig>, k: nat, t: Tables, built: map<string, Sink>, log: seq<Action>)
    requires k <= |sinks|
    ensures ExtendsIn(SinksFrom(sinks, k, t, built, log).0.actions, log, 1)
    decreases |sinks| - k
  {
    if k < |sinks| {
      match MakeSink(t.sinkFactories, sinks[k].1)
      case Err(_) =>
      case Ok(s) =>
        var log' := log + [BuildSink(sinks[k].0, s)];
        var built' := if sinks[k].0 in built then built else built[sinks[k].0 := s];
        SinksFromExtends(sinks, k + 1, t, built', log');
        ExtendsStep(SinksFrom(sinks, k + 1, t, built', log').0.actions, log, BuildSink(sinks[k].0, s), 1);
    }
  }

  lemma {:induction false} LoggersFromExtends(loggers: Entries<LoggerConfig>, k: nat, built: map<string, Sink>, t: Tables, log: seq<Action>)
    requires k <= |loggers|
    ensures ExtendsIn(LoggersFrom(loggers, k, built, t, log).actions, log, 2)
    decreases |loggers| - k
  {
    if k < |loggers| {
      var made := MakeLogger(loggers[k].0, loggers[k].1, built, t);
      var log' := Registered(log, made);
      if made.failure.Some? {
        if made.registered.Some? {
          ExtendsStep(log', log, BuildLogger(made.registered.value), 2);
        }
      } else {
        assert LoggersFrom(loggers, k, built, t, log) == LoggersFrom(loggers, k + 1, built, t, log');
        LoggersFromExtends(loggers, k + 1, built, t, log');
        ExtendsStep(LoggersFrom(loggers, k + 1, built, t, log').actions, log, BuildLogger(made.registered.value), 2);
      }
    }
  }

  /**
   * When configure fails on an unknown error handler, the logger that failed is already in the log, as
   * the last action, with that logger's name and with no error handler.
   */
  lemma {:induction false} LoggersFromUnknownHandler(loggers: Entries<LoggerConfig>, k: nat, built: map<string, Sink>, t: Tables, log: seq<Action>)
    requires k <= |loggers|
    requires LoggersFrom(loggers, k, built, t, log).failure.Some?
    requires LoggersFrom(loggers, k, built, t, log).failure.value.UnknownErrorHandler?
    ensures var run := LoggersFrom(loggers, k, built, t, log);
      |run.actions| > 0 && run.actions[|run.actions| - 1].BuildLogger?
      && run.actions[|run.actions| - 1].logger.name == run.failure.value.name
      && run.actions[|run.actions| - 1].logger.errorHandler.None?
    decreases |loggers| - k
  {
    var made := MakeLogger(loggers[k].0, loggers[k].1, built, t);
    if made.failure.None? {
      LoggersFromUnknownHandler(loggers, k + 1, built, t, Registered(log, made));
    }
  }

  lemma ExtendsOrdered(actions: seq<Action>, log: seq<Action>, p: nat)
    requires PhaseOrdered(log) && ExtendsIn(actions, log, p)
    requires forall i :: 0 <= i < |log| ==> Phase(log[i]) <= p
    ensures PhaseOrdered(actions)
    ensures forall i :: 0 <= i < |actions| ==> Phase(actions[i]) <= p
  {
    forall i | 0 <= i < |log| ensures actions[i] == log[i] {
      assert actions[..|log|][i] == log[i];
    }
  }

  /**
   * configure runs in three phases: every global function is called before any sink is built, and every
   * sink is built before any logger, whether it finishes or fails part-way.
   */
  lemma ConfigurePhases(d: Directives, t: Tables)
    ensures PhaseOrdered(ConfigureSpec(d, t).actions)
  {
    var globals := GlobalsFrom(d.globals, 0, t, []);
    GlobalsFromExtends(d.globals, 0, t, []);
    ExtendsOrdered(globals.actions, [], 0);
    if globals.failure.None? {
      var (sinks, built) := SinksFrom(d.sinks, 0, t, map[], globals.actions);
      SinksFromExtends(d.sinks, 0, t, map[], globals.actions);
      ExtendsOrdered(sinks.actions, globals.actions, 1);
      if sinks.failure.None? {
        LoggersFromExtends(d.loggers, 0, built, t, sinks.actions);
        ExtendsOrdered(LoggersFrom(d.loggers, 0, built, t, sinks.actions).actions, sinks.actions, 2);
      }
    }
  }
}

=== FILE: csv.dfy ===
/**
 * `parse_csv` (configuration_impl.h): a quote-aware comma splitter. A double quote outside quotes opens a
 * quoted run and is dropped; inside, a doubled quote stands for one quote character, a comma is kept, and
 * a quote followed by a comma closes the run. A quote followed by anything else is malformed input. An
 * optional `max` caps the number of fields split off; whatever is left unread becomes the last field verbatim.
 */
module Csv {
  import opened Wrappers
  import opened Errors
  import Tokenizer

  /** The loop state of the source: the fields pushed so far, the field being built, quote mode, the split count. */
  datatype Scan = Scan(fields: seq<string>, token: string, inQuote: bool, count: nat)

  /** One pass of the loop body at position i: the new state and the position of the next unread character. */
  function Step(csv: string, i: nat, st: Scan): (r: Result<(Scan, nat), Error>)
    requires i < |csv|
    ensures r.Ok? ==> i < r.value.1 <= |csv|
  {
    if csv[i] == '"' then
      if st.inQuote then
        if i + 1 < |csv| then
          if csv[i + 1] == '"' then Ok((st.(token := st.token + ['"']), i + 2))
          else if csv[i + 1] == ',' then Ok((st.(inQuote := false), i + 1))
          else Err(MalformedCsv(csv))
        else
          // a quote that ends the input closes the field
          Ok((Scan(st.fields + [st.token], [], st.inQuote, st.count + 1), i + 1))
      else Ok((st.(inQuote := true), i + 1))
    else if csv[i] == ',' && !st.inQuote then
      Ok((Scan(st.fields + [st.token], [], st.inQuote, st.count + 1), i + 1))
    else
      Ok((st.(token := st.token + [csv[i]]), i + 1))
  }

  /** After the loop: a non-empty pending field is kept, and an unread remainder becomes one more field. */
  function Finish(csv: string, i: nat, st: Scan): seq<string>
    requires i <= |csv|
  {
    st.fields + (if st.token != [] then [st.token] else []) + (if i < |csv| then [csv[i..]] else [])
  }

  function ScanFrom(csv: string, max: Option<nat>, i: nat, st: Scan): Result<seq<string>, Error>
    requires i <= |csv|
    decreases |csv| - i
  {
    if i == |csv| || !Tokenizer.Below(st.count, max) then Ok(Finish(csv, i, st))
    else
      match Step(csv, i, st)
      case Err(e) => Err(e)
      case Ok((next, j)) => ScanFrom(csv, max, j, next)
  }

  /** What parse_csv(csv, max) returns, or the error it throws. */
  function CsvSpec(csv: string, max: Option<nat>): (r: Result<seq<string>, Error>)
    ensures csv == [] ==> r == Ok([])
  {
    var start := Scan([], [], false, 0);
    assert csv == [] ==> Finish(csv, 0, start) == [];
    ScanFrom(csv, max, 0, start)
  }

  method ParseCsv(csv: string, max: Option<nat>) returns (r: Result<seq<string>, Error>)
    ensures r == CsvSpec(csv, max)
  {
    var result: seq<string> := [];
    var inQuote := false;
    var token: string := [];
    var current: nat := 0;
    var count: nat := 0;
    while current < |csv| && Tokenizer.Below(count, max)
      invariant current <= |csv|
      invariant ScanFrom(csv, max, current, Scan(result, token, inQuote, count)) == CsvSpec(csv, max)
      decreases |csv| - current
    {
      if csv[current] == '"' {
        if inQuote {
          if current + 1 < |csv| {
            if csv[current + 1] == '"' {
              token := token + ['"'];
              current := current + 1;
            } else if csv[current + 1] == ',' {
              inQuote := false;
            } else {
              return Err(MalformedCsv(csv));
            }
          } else {
            result := result + [token];
            token := [];
            count := count + 1;
          }
        } else {
          inQuote := true;
        }
      } else if csv[current] == ',' {
        if inQuote {
          token := token + [csv[current]];
        } else {
          result := result + [token];
          token := [];
          count := count + 1;
        }
      } else {
        token := token + [csv[current]];
      }
      current := current + 1;
    }
    ghost var expected := Finish(csv, current, Scan(result, token, inQuote, count));
    assert CsvSpec(csv, max) == Ok(expected);
    if token != [] {
      result := result + [token];
    }
    // the source also tests count < SIZE_MAX here, which always holds
    if current < |csv| {
      result := result + [csv[current..]];
    }
    assert result == expected;
    return Ok(result);
  }

  // ---------------------------------------------------------------------------
  // Single steps of the scan

  /** A quote outside a quoted run opens one. */
  lemma StepOpen(csv: string, max: Option<nat>, i: nat, st: Scan)
    requires i < |csv| && csv[i] == '"' && !st.inQuote && Tokenizer.Below(st.count, max)
    ensures ScanFrom(csv, max, i, st) == ScanFrom(csv, max, i + 1, st.(inQuote := true))
  {
  }

  /** A doubled quote inside a quoted run stands for one quote character. */
  lemma StepDoubled(csv: string, max: Option<nat>, i: nat, st: Scan)
    requires i + 1 < |csv| && csv[i] == '"' && csv[i + 1] == '"' && st.inQuote && Tokenizer.Below(st.count, max)
    ensures ScanFrom(csv, max, i, st) == ScanFrom(csv, max, i + 2, st.(token := st.token + ['"']))
  {
  }

  /** A quote followed by a comma closes a quoted run; the comma is read next. */
  lemma StepClose(csv: string, max: Option<nat>, i: nat, st: Scan)
    requires i + 1 < |csv| && csv[i] == '"' && csv[i + 1] == ',' && st.inQuote && Tokenizer.Below(st.count, max)
    ensures ScanFrom(csv, max, i, st) == ScanFrom(csv, max, i + 1, st.(inQuote := false))
  {
  }

  /** A quote followed by anything else inside a quoted run is malformed. */
  lemma StepMalformed(csv: string, max: Option<nat>, i: nat, st: Scan)
    requires i + 1 < |csv| && csv[i] == '"' && csv[i + 1] != '"' && csv[i + 1] != ',' && st.inQuote
    requires Tokenizer.Below(st.count, max)
    ensures ScanFrom(csv, max, i, st) == Err(MalformedCsv(csv))
  {
  }

  /** A quote that ends the input inside a quoted run pushes the field. */
  lemma StepFinalQuote(csv: string, max: Option<nat>, i: nat, st: Scan)
    requires i + 1 == |csv| && csv[i] == '"' && st.inQuote && Tokenizer.Below(st.count, max)
    ensures ScanFrom(csv, max, i, st) == Ok(st.fields + [st.token])
  {
    assert Finish(csv, i + 1, Scan(st.fields + [st.token], [], st.inQuote, st.count + 1)) == st.fields + [st.token];
  }

  /** A comma outside a quoted run pushes the field. */
  lemma StepComma(csv: string, max: Option<nat>, i: nat, st: Scan)
    requires i < |csv| && csv[i] == ',' && !st.inQuote && Tokenizer.Below(st.count, max)
    ensures ScanFrom(csv, max, i, st) == ScanFrom(csv, max, i + 1, Scan(st.fields + [st.token], [], false, st.count + 1))
  {
  }

  /** Any other character is added to the field. */
  lemma StepChar(csv: string, max: Option<nat>, i: nat, st: Scan)
    requires i < |csv| && csv[i] != '"' && (csv[i] != ',' || st.inQuote) && Tokenizer.Below(st.count, max)
    ensures ScanFrom(csv, max, i, st) == ScanFrom(csv, max, i + 1, st.(token := st.token + [csv[i]]))
  {
  }

  // ---------------------------------------------------------------------------
  // The cap on the number of fields

  lemma {:induction false} ScanBound(csv: string, m: nat, i: nat, st: Scan)
    requires i <= |csv|
    requires |st.fields| == st.count <= m
    requires st.count == m ==> st.token == []
    ensures ScanFrom(csv, Some(m), i, st).Ok? ==> |ScanFrom(csv, Some(m), i, st).value| <= m + 1
    decreases |csv| - i
  {
    if i < |csv| && st.count < m {
      match Step(csv, i, st)
      case Err(_) =>
      case Ok((next, j)) =>
        ScanBound(csv, m, j, next);
    }
  }

  /** With a cap of m splits there are at most m + 1 fields; with max = 1, at most two. */
  lemma CsvBound(csv: string, m: nat)
    ensures CsvSpec(csv, Some(m)).Ok? ==> |CsvSpec(csv, Some(m)).value| <= m + 1
  {
    ScanBound(csv, m, 0, Scan([], [], false, 0));
  }

  lemma {:induction false} ScanError(csv: string, max: Option<nat>, i: nat, st: Scan)
    requires i <= |csv|
    ensures ScanFrom(csv, max, i, st).Err? ==> ScanFrom(csv, max, i, st).error == MalformedCsv(csv)
    decreases |csv| - i
  {
    if i < |csv| && Tokenizer.Below(st.count, max) {
      match Step(csv, i, st)
      case Err(_) =>
      case Ok((next, j)) =>
        ScanError(csv, max, j, next);
    }
  }

  /** The only error parse_csv raises is the malformed-input one, naming the whole input. */
  lemma CsvError(csv: string, max: Option<nat>)
    ensures CsvSpec(csv, max).Err? ==> CsvSpec(csv, max).error == MalformedCsv(csv)
  {
    ScanError(csv, max, 0, Scan([], [], false, 0));
  }

  // ---------------------------------------------------------------------------
  // Text without quotes: tokenize on ',' with an empty last field dropped

  function DropEmptyLast(fields: seq<string>): (r: seq<string>)
    ensures r <= fields
  {
    if fields != [] && fields[|fields| - 1] == [] then fields[..|fields| - 1] else fields
  }

  /** The pending text t is glued in front of the first piece. */
  function Glue(t: string, pieces: seq<string>): seq<string>
    requires pieces != []
  {
    [t + pieces[0]] + pieces[1..]
  }

  lemma PiecesAtEnd(csv: string)
    ensures Tokenizer.PiecesFrom(csv, ",", |csv|, None) == [[]]
  {
    assert csv[|csv|..] == [];
  }

  lemma PiecesAtComma(csv: string, i: nat)
    requires i < |csv| && csv[i] == ','
    ensures Tokenizer.PiecesFrom(csv, ",", i, None) == [[]] + Tokenizer.PiecesFrom(csv, ",", i + 1, None)
  {
    assert Tokenizer.FindFirstOf(csv, ",", i) == Some(i);
    assert csv[i..i] == [];
  }

  lemma PiecesAtOther(csv: string, i: nat)
    requires i < |csv| && csv[i] != ','
    ensures Tokenizer.PiecesFrom(csv, ",", i + 1, None) != []
    ensures Tokenizer.PiecesFrom(csv, ",", i, None) == Glue([csv[i]], Tokenizer.PiecesFrom(csv, ",", i + 1, None))
  {
    assert csv[i] !in ",";
    assert Tokenizer.FindFirstOf(csv, ",", i) == Tokenizer.FindFirstOf(csv, ",", i + 1);
    match Tokenizer.FindFirstOf(csv, ",", i)
    case None =>
      assert csv[i..] == [csv[i]] + csv[i + 1..];
    case Some(k) =>
      assert csv[i..k] == [csv[i]] + csv[i + 1..k];
  }

  lemma UnquotedAtEnd(csv: string, f: seq<string>, t: string, c: nat)
    ensures ScanFrom(csv, None, |csv|, Scan(f, t, false, c))
      == Ok(DropEmptyLast(f + Glue(t, Tokenizer.PiecesFrom(csv, ",", |csv|, None))))
  {
    PiecesAtEnd(csv);
    GlueLast(f, t);
    FinishPending(csv, f, t, c);
  }

  lemma GlueLast(f: seq<string>, t: string)
    ensures f + Glue(t, [[]]) == f + [t]
  {
    assert t + [] == t;
  }

  lemma FinishPending(csv: string, f: seq<string>, t: string, c: nat)
    ensures Finish(csv, |csv|, Scan(f, t, false, c)) == DropEmptyLast(f + [t])
  {
    if t == [] {
      assert (f + [t])[..|f|] == f;
      assert f + [] + [] == f;
    } else {
      assert f + [t] + [] == f + [t];
    }
  }

  lemma GlueAtComma(csv: string, i: nat, f: seq<string>, t: string)
    requires i < |csv| && csv[i] == ','
    ensures Tokenizer.PiecesFrom(csv, ",", i + 1, None) != []
    ensures f + Glue(t, Tokenizer.PiecesFrom(csv, ",", i, None))
      == f + [t] + Glue([], Tokenizer.PiecesFrom(csv, ",", i + 1, None))
  {
    PiecesAtComma(csv, i);
    var rest := Tokenizer.PiecesFrom(csv, ",", i + 1, None);
    assert rest == [rest[0]] + rest[1..];
    assert [] + rest[0] == rest[0];
    assert t + [] == t;
  }

  lemma GlueAtOther(csv: string, i: nat, f: seq<string>, t: string)
    requires i < |csv| && csv[i] != ','
    ensures Tokenizer.PiecesFrom(csv, ",", i + 1, None) != []
    ensures f + Glue(t, Tokenizer.PiecesFrom(csv, ",", i, None))
      == f + Glue(t + [csv[i]], Tokenizer.PiecesFrom(csv, ",", i + 1, None))
  {
    PiecesAtOther(csv, i);
    var rest := Tokenizer.PiecesFrom(csv, ",", i + 1, None);
    assert t + [csv[i]] + rest[0] == t + ([csv[i]] + rest[0]);
  }

  lemma {:induction false} ScanUnquoted(csv: string, i: nat, f: seq<string>, t: string, c: nat)
    requires i <= |csv|
    requires forall k :: i <= k < |csv| ==> csv[k] != '"'
    ensures Tokenizer.PiecesFrom(csv, ",", i, None) != []
    ensures ScanFrom(csv, None, i, Scan(f, t, false, c))
      == Ok(DropEmptyLast(f + Glue(t, Tokenizer.PiecesFrom(csv, ",", i, None))))
    decreases |csv| - i
  {
    if i == |csv| {
      PiecesAtEnd(csv);
      UnquotedAtEnd(csv, f, t, c);
    } else if csv[i] == ',' {
      PiecesAtComma(csv, i);
      assert ScanFrom(csv, None, i, Scan(f, t, false, c)) == ScanFrom(csv, None, i + 1, Scan(f + [t], [], false, c + 1));
      ScanUnquoted(csv, i + 1, f + [t], [], c + 1);
      GlueAtComma(csv, i, f, t);
    } else {
      PiecesAtOther(csv, i);
      assert ScanFrom(csv, None, i, Scan(f, t, false, c)) == ScanFrom(csv, None, i + 1, Scan(f, t + [csv[i]], false, c));
      ScanUnquoted(csv, i + 1, f, t + [csv[i]], c);
      GlueAtOther(csv, i, f, t);
    }
  }

  /**
   * Without quotes, parse_csv is tokenize on ',' except that an empty last field is dropped: empty fields
   * in the middle are kept, and a trailing comma adds nothing.
   */
  lemma CsvUnquoted(csv: string)
    requires forall k :: 0 <= k < |csv| ==> csv[k] != '"'
    ensures CsvSpec(csv, None) == Ok(DropEmptyLast(Tokenizer.TokenizeSpec(csv, ",", None)))
  {
    ScanUnquoted(csv, 0, [], [], 0);
    var pieces := Tokenizer.PiecesFrom(csv, ",", 0, None);
    GlueNothing(pieces);
    if csv == [] {
      PiecesAtEnd(csv);
    }
  }

  lemma GlueNothing(pieces: seq<string>)
    requires pieces != []
    ensures [] + Glue([], pieces) == pieces
  {
    assert pieces == [pieces[0]] + pieces[1..];
    assert [] + pieces[0] == pieces[0];
  }

  // ---------------------------------------------------------------------------
  // Quoting, and the round trip from fields to text and back

  /** A quote character written twice, as inside a quoted run. */
  function Double(q: string): (r: string)
    ensures |r| >= |q|
  {
    if q == [] then []
    else (if q[0] == '"' then ['"', '"'] else [q[0]]) + Double(q[1..])
  }

  /** Text without quote characters is written inside quotes unchanged. */
  lemma {:induction false} DoubleNoQuote(q: string)
    requires '"' !in q
    ensures Double(q) == q
  {
    if q != [] {
      DoubleNoQuote(q[1..]);
      assert q == [q[0]] + q[1..];
    }
  }

  /** A field as it can be written: unquoted text, then optionally a quoted run. */
  datatype CsvField = CsvField(plain: string, quoted: Option<string>)

  predicate PlainText(s: string) {
    forall k :: 0 <= k < |s| ==> s[k] != '"' && s[k] != ','
  }

  /** PlainText by membership, which is how a literal is checked most easily. */
  lemma PlainTextWithout(s: string)
    requires '"' !in s && ',' !in s
    ensures PlainText(s)
  {
  }

  predicate Writable(f: CsvField) {
    PlainText(f.plain)
  }

  /** The text a field stands for. */
  function Value(f: CsvField): string {
    f.plain + f.quoted.GetOr([])
  }

  function Render(f: CsvField): string {
    f.plain + match f.quoted
      case None => []
      case Some(q) => ['"'] + Double(q) + ['"']
  }

  /** An empty unquoted field: the one field that disappears when it comes last. */
  predicate Blank(f: CsvField) {
    f.plain == [] && f.quoted.None?
  }

  function RenderAll(fields: seq<CsvField>): string {
    if fields == [] then []
    else if |fields| == 1 then Render(fields[0])
    else Render(fields[0]) + [','] + RenderAll(fields[1..])
  }

  function Values(fields: seq<CsvField>): (r: seq<string>)
    ensures |r| == |fields|
  {
    if fields == [] then [] else [Value(fields[0])] + Values(fields[1..])
  }

  lemma {:induction false} ScanPlain(csv: string, max: Option<nat>, i: nat, j: nat, f: seq<string>, t: string, c: nat)
    requires i <= j <= |csv|
    requires forall k :: i <= k < j ==> csv[k] != '"' && csv[k] != ','
    requires Tokenizer.Below(c, max)
    ensures ScanFrom(csv, max, i, Scan(f, t, false, c)) == ScanFrom(csv, max, j, Scan(f, t + csv[i..j], false, c))
    decreases j - i
  {
    if i < j {
      StepChar(csv, max, i, Scan(f, t, false, c));
      ScanPlain(csv, max, i + 1, j, f, t + [csv[i]], c);
      assert t + [csv[i]] + csv[i + 1..j] == t + csv[i..j];
    } else {
      assert t + csv[i..j] == t;
    }
  }

  lemma {:induction false} ScanQuoted(csv: string, max: Option<nat>, i: nat, q: string, f: seq<string>, t: string, c: nat)
    requires i + |Double(q)| <= |csv| && csv[i..i + |Double(q)|] == Double(q)
    requires Tokenizer.Below(c, max)
    ensures ScanFrom(csv, max, i, Scan(f, t, true, c)) == ScanFrom(csv, max, i + |Double(q)|, Scan(f, t + q, true, c))
    decreases q
  {
    if q == [] {
      assert t + q == t;
    } else {
      var n := QuotedHead(csv, i, q);
      if q[0] == '"' {
        StepDoubled(csv, max, i, Scan(f, t, true, c));
      } else {
        StepChar(csv, max, i, Scan(f, t, true, c));
      }
      ScanQuoted(csv, max, i + n, q[1..], f, t + [q[0]], c);
      assert t + [q[0]] + q[1..] == t + q;
    }
  }

  /** The first character of a doubled text, as it sits in the input. */
  lemma QuotedHead(csv: string, i: nat, q: string) returns (n: nat)
    requires q != [] && i + |Double(q)| <= |csv| && csv[i..i + |Double(q)|] == Double(q)
    ensures n == (if q[0] == '"' then 2 else 1) && i + n + |Double(q[1..])| == i + |Double(q)|
    ensures csv[i] == q[0] && (q[0] == '"' ==> i + 1 < |csv| && csv[i + 1] == '"')
    ensures csv[i + n..i + n + |Double(q[1..])|] == Double(q[1..])
  {
    var d := Double(q);
    n := if q[0] == '"' then 2 else 1;
    assert d == (if q[0] == '"' then ['"', '"'] else [q[0]]) + Double(q[1..]);
    assert csv[i..i + |d|][0] == csv[i];
    if q[0] == '"' {
      assert csv[i..i + |d|][1] == csv[i + 1];
    }
    assert csv[i + n..i + |d|] == d[n..] == Double(q[1..]);
  }

  lemma SliceOf(csv: string, i: nat, r: string, a: nat, b: nat)
    requires i + |r| <= |csv| && csv[i..i + |r|] == r
    requires a <= b <= |r|
    ensures csv[i + a..i + b] == r[a..b]
  {
    forall k | 0 <= k < b - a
      ensures csv[i + a..i + b][k] == r[a..b][k]
    {
      assert csv[i..i + |r|][a + k] == csv[i + a + k];
    }
  }

  lemma SliceAt(csv: string, i: nat, r: string, k: nat)
    requires i + |r| <= |csv| && csv[i..i + |r|] == r && k < |r|
    ensures csv[i + k] == r[k]
  {
    assert csv[i..i + |r|][k] == csv[i + k];
  }

  /** The quoted run of a field, opened at p and closed just before a comma. */
  lemma QuotedThenComma(csv: string, max: Option<nat>, p: nat, q: string, f: seq<string>, t: string, c: nat)
    requires p + |Double(q)| + 2 < |csv|
    requires csv[p] == '"' && csv[p + 1..p + 1 + |Double(q)|] == Double(q)
    requires csv[p + 1 + |Double(q)|] == '"' && csv[p + 2 + |Double(q)|] == ','
    requires Tokenizer.Below(c, max)
    ensures ScanFrom(csv, max, p, Scan(f, t, false, c))
      == ScanFrom(csv, max, p + |Double(q)| + 3, Scan(f + [t + q], [], false, c + 1))
  {
    var e := p + 1 + |Double(q)|;
    StepOpen(csv, max, p, Scan(f, t, false, c));
    ScanQuoted(csv, max, p + 1, q, f, t, c);
    StepClose(csv, max, e, Scan(f, t + q, true, c));
    StepComma(csv, max, e + 1, Scan(f, t + q, false, c));
  }

  /** The quoted run of a field, opened at p and closed by the last character of the input. */
  lemma QuotedAtEnd(csv: string, max: Option<nat>, p: nat, q: string, f: seq<string>, t: string, c: nat)
    requires p + |Double(q)| + 2 == |csv|
    requires csv[p] == '"' && csv[p + 1..p + 1 + |Double(q)|] == Double(q) && csv[p + 1 + |Double(q)|] == '"'
    requires Tokenizer.Below(c, max)
    ensures ScanFrom(csv, max, p, Scan(f, t, false, c)) == Ok(f + [t + q])
  {
    var e := p + 1 + |Double(q)|;
    StepOpen(csv, max, p, Scan(f, t, false, c));
    ScanQuoted(csv, max, p + 1, q, f, t, c);
    StepFinalQuote(csv, max, e, Scan(f, t + q, true, c));
  }

  /** The unquoted start of a written field comes first. */
  lemma RenderPlain(fld: CsvField)
    ensures |fld.plain| <= |Render(fld)| && Render(fld)[..|fld.plain|] == fld.plain
    ensures fld.quoted.None? ==> Render(fld) == fld.plain && Value(fld) == fld.plain
  {
  }

  /** Where the quoted run of a written field sits in the input. */
  lemma QuotedLayout(csv: string, i: nat, fld: CsvField)
    requires fld.quoted.Some?
    requires i + |Render(fld)| <= |csv| && csv[i..i + |Render(fld)|] == Render(fld)
    ensures var n, d := |fld.plain|, Double(fld.quoted.value);
      |Render(fld)| == n + |d| + 2 && csv[i + n] == '"' && csv[i + n + 1..i + n + 1 + |d|] == d
      && csv[i + n + 1 + |d|] == '"' && Value(fld) == fld.plain + fld.quoted.value
  {
    var n, d := |fld.plain|, Double(fld.quoted.value);
    var r := Render(fld);
    assert r == fld.plain + ['"'] + d + ['"'];
    SliceAt(csv, i, r, n);
    SliceAt(csv, i, r, n + 1 + |d|);
    SliceOf(csv, i, r, n + 1, n + 1 + |d|);
    assert r[n + 1..n + 1 + |d|] == d;
  }

  /** Characters of a slice without quotes or commas. */
  lemma PlainSlice(csv: string, i: nat, j: nat)
    requires i <= j <= |csv| && PlainText(csv[i..j])
    ensures forall k :: i <= k < j ==> csv[k] != '"' && csv[k] != ','
  {
    forall k | i <= k < j
      ensures csv[k] != '"' && csv[k] != ','
    {
      assert csv[i..j][k - i] == csv[k];
    }
  }

  /** The unquoted start of a field becomes the pending text. */
  lemma FieldPlain(csv: string, max: Option<nat>, i: nat, fld: CsvField, f: seq<string>, c: nat)
    requires Writable(fld)
    requires i + |Render(fld)| <= |csv| && csv[i..i + |Render(fld)|] == Render(fld)
    requires Tokenizer.Below(c, max)
    ensures ScanFrom(csv, max, i, Scan(f, [], false, c))
      == ScanFrom(csv, max, i + |fld.plain|, Scan(f, fld.plain, false, c))
  {
    RenderPlain(fld);
    SliceOf(csv, i, Render(fld), 0, |fld.plain|);
    PlainRun(csv, max, i, fld.plain, f, c);
  }

  /** Unquoted text without commas is read into the pending field. */
  lemma PlainRun(csv: string, max: Option<nat>, i: nat, p: string, f: seq<string>, c: nat)
    requires i + |p| <= |csv| && csv[i..i + |p|] == p && PlainText(p)
    requires Tokenizer.Below(c, max)
    ensures ScanFrom(csv, max, i, Scan(f, [], false, c)) == ScanFrom(csv, max, i + |p|, Scan(f, p, false, c))
  {
    PlainSlice(csv, i, i + |p|);
    ScanPlain(csv, max, i, i + |p|, f, [], c);
    assert [] + csv[i..i + |p|] == p;
  }

  /** A field's quoted run, read after its unquoted start. */
  lemma QuotedFieldThenComma(csv: string, max: Option<nat>, i: nat, fld: CsvField, f: seq<string>, c: nat)
    requires Writable(fld) && fld.quoted.Some?
    requires i + |Render(fld)| < |csv| && csv[i..i + |Render(fld)|] == Render(fld) && csv[i + |Render(fld)|] == ','
    requires Tokenizer.Below(c, max)
    ensures ScanFrom(csv, max, i + |fld.plain|, Scan(f, fld.plain, false, c))
      == ScanFrom(csv, max, i + |Render(fld)| + 1, Scan(f + [Value(fld)], [], false, c + 1))
  {
    QuotedLayout(csv, i, fld);
    QuotedThenComma(csv, max, i + |fld.plain|, fld.quoted.value, f, fld.plain, c);
  }

  /** Reading a field that is followed by a comma pushes its value and stops just after the comma. */
  lemma FieldThenComma(csv: string, max: Option<nat>, i: nat, fld: CsvField, f: seq<string>, c: nat)
    requires Writable(fld)
    requires i + |Render(fld)| < |csv| && csv[i..i + |Render(fld)|] == Render(fld) && csv[i + |Render(fld)|] == ','
    requires Tokenizer.Below(c, max)
    ensures ScanFrom(csv, max, i, Scan(f, [], false, c))
      == ScanFrom(csv, max, i + |Render(fld)| + 1, Scan(f + [Value(fld)], [], false, c + 1))
  {
    FieldPlain(csv, max, i, fld, f, c);
    if fld.quoted.None? {
      RenderPlain(fld);
    } else {
      QuotedFieldThenComma(csv, max, i, fld, f, c);
    }
  }

  lemma QuotedFieldAtEnd(csv: string, max: Option<nat>, i: nat, fld: CsvField, f: seq<string>, c: nat)
    requires Writable(fld) && fld.quoted.Some?
    requires i + |Render(fld)| == |csv| && csv[i..i + |Render(fld)|] == Render(fld)
    requires Tokenizer.Below(c, max)
    ensures ScanFrom(csv, max, i + |fld.plain|, Scan(f, fld.plain, false, c)) == Ok(f + [Value(fld)])
  {
    QuotedLayout(csv, i, fld);
    QuotedAtEnd(csv, max, i + |fld.plain|, fld.quoted.value, f, fld.plain, c);
  }

  /** Reading a field that ends the input pushes its value, unless it is a blank field. */
  lemma FieldAtEnd(csv: string, max: Option<nat>, i: nat, fld: CsvField, f: seq<string>, c: nat)
    requires Writable(fld) && !Blank(fld)
    requires i + |Render(fld)| == |csv| && csv[i..] == Render(fld)
    requires Tokenizer.Below(c, max)
    ensures ScanFrom(csv, max, i, Scan(f, [], false, c)) == Ok(f + [Value(fld)])
  {
    assert csv[i..i + |Render(fld)|] == Render(fld);
    FieldPlain(csv, max, i, fld, f, c);
    if fld.quoted.None? {
      RenderPlain(fld);
      assert Finish(csv, i + |fld.plain|, Scan(f, fld.plain, false, c)) == f + [fld.plain];
    } else {
      QuotedFieldAtEnd(csv, max, i, fld, f, c);
    }
  }

  lemma {:induction false} ScanFields(csv: string, i: nat, fields: seq<CsvField>, f: seq<string>, c: nat)
    requires fields != [] && !Blank(fields[|fields| - 1])
    requires forall k :: 0 <= k < |fields| ==> Writable(fields[k])
    requires i + |RenderAll(fields)| == |csv| && csv[i..] == RenderAll(fields)
    ensures ScanFrom(csv, None, i, Scan(f, [], false, c)) == Ok(f + Values(fields))
    decreases fields
  {
    if |fields| == 1 {
      LastField(csv, i, fields, f, c);
    } else {
      var r := Render(fields[0]);
      FieldsSplit(csv, i, fields);
      FieldThenComma(csv, None, i, fields[0], f, c);
      ScanFields(csv, i + |r| + 1, fields[1..], f + [Value(fields[0])], c + 1);
      ValuesCons(f, fields);
    }
  }

  lemma LastField(csv: string, i: nat, fields: seq<CsvField>, f: seq<string>, c: nat)
    requires |fields| == 1 && !Blank(fields[0]) && Writable(fields[0])
    requires i + |RenderAll(fields)| == |csv| && csv[i..] == RenderAll(fields)
    ensures ScanFrom(csv, None, i, Scan(f, [], false, c)) == Ok(f + Values(fields))
  {
    assert Values(fields) == [Value(fields[0])];
    FieldAtEnd(csv, None, i, fields[0], f, c);
  }

  lemma FieldsSplit(csv: string, i: nat, fields: seq<CsvField>)
    requires |fields| > 1
    requires forall k :: 0 <= k < |fields| ==> Writable(fields[k])
    requires i + |RenderAll(fields)| == |csv| && csv[i..] == RenderAll(fields)
    ensures var r := Render(fields[0]);
      i + |r| < |csv| && csv[i..i + |r|] == r && csv[i + |r|] == ','
      && i + |r| + 1 + |RenderAll(fields[1..])| == |csv| && csv[i + |r| + 1..] == RenderAll(fields[1..])
    ensures forall k :: 0 <= k < |fields[1..]| ==> Writable(fields[1..][k])
  {
    var r := Render(fields[0]);
    var all := RenderAll(fields);
    assert all == r + [','] + RenderAll(fields[1..]);
    assert csv[i..][..|r|] == r;
    assert csv[i..][|r|] == ',';
    assert csv[i..][|r| + 1..] == RenderAll(fields[1..]);
  }

  lemma ValuesCons(f: seq<string>, fields: seq<CsvField>)
    requires fields != []
    ensures f + [Value(fields[0])] + Values(fields[1..]) == f + Values(fields)
  {
  }

  /**
   * Round trip: writing fields (unquoted text free of quotes and commas, then optionally a quoted run with
   * its quotes doubled), joined by commas, and parsing the text gives back the fields' values. Only a
   * blank last field is lost, since the source drops an empty pending field at the end of input.
   */
  lemma CsvRoundTrip(fields: seq<CsvField>)
    requires forall k :: 0 <= k < |fields| ==> Writable(fields[k])
    requires fields != [] ==> !Blank(fields[|fields| - 1])
    ensures CsvSpec(RenderAll(fields), None) == Ok(Values(fields))
  {
    if fields != [] {
      var csv := RenderAll(fields);
      assert csv[0..] == csv;
      ScanFields(csv, 0, fields, [], 0);
      assert [] + Values(fields) == Values(fields);
    }
  }

  /**
   * With max = 1 (as config_line::parse calls it): the first field, then everything after its comma
   * verbatim, quotes and commas included.
   */
  lemma CsvFirstField(fld: CsvField, rest: string)
    requires Writable(fld)
    ensures CsvSpec(Render(fld) + [','] + rest, Some(1)) == Ok([Value(fld)] + (if rest == [] then [] else [rest]))
  {
    var csv := Render(fld) + [','] + rest;
    assert csv[0..|Render(fld)|] == Render(fld);
    FieldThenComma(csv, Some(1), 0, fld, [], 0);
    var st := Scan([] + [Value(fld)], [], false, 1);
    assert ScanFrom(csv, Some(1), |Render(fld)| + 1, st) == Ok(Finish(csv, |Render(fld)| + 1, st));
    assert csv[|Render(fld)| + 1..] == rest;
    assert Finish(csv, |Render(fld)| + 1, st) == [Value(fld)] + (if rest == [] then [] else [rest]);
  }

  predicate AllWritable(fields: seq<CsvField>) {
    forall k :: 0 <= k < |fields| ==> Writable(fields[k])
  }

  /** Fields written one after another, each followed by its comma. */
  function RenderLeading(fields: seq<CsvField>): string {
    if fields == [] then [] else Render(fields[0]) + [','] + RenderLeading(fields[1..])
  }

  /** What is left unread at position e becomes one more field, unless nothing is left. */
  function Remainder(csv: string, e: nat): seq<string>
    requires e <= |csv|
  {
    if e < |csv| then [csv[e..]] else []
  }

  /**
   * Reading fields that are each followed by a comma, up to a cap that they exactly reach, gives their
   * values and then the unread remainder.
   */
  lemma {:induction false} ScanLeading(csv: string, m: nat, i: nat, e: nat, fields: seq<CsvField>, f: seq<string>, c: nat)
    requires AllWritable(fields)
    requires e == i + |RenderLeading(fields)| <= |csv| && csv[i..e] == RenderLeading(fields)
    requires c + |fields| == m
    ensures ScanFrom(csv, Some(m), i, Scan(f, [], false, c)) == Ok(f + Values(fields) + Remainder(csv, e))
    decreases fields
  {
    if fields == [] {
      CapReached(csv, i, f, m);
      assert f + Values(fields) == f;
    } else {
      var j, g := i + |Render(fields[0])| + 1, f + [Value(fields[0])];
      LeadingSplit(csv, i, fields);
      ScanLeading(csv, m, j, e, fields[1..], g, c + 1);
      LeadingStep(csv, Some(m), i, fields[0], f, c, g + Values(fields[1..]) + Remainder(csv, e));
      ValuesCons(f, fields);
      AppendSame(g + Values(fields[1..]), f + Values(fields), Remainder(csv, e));
    }
  }

  lemma AppendSame(a: seq<string>, b: seq<string>, r: seq<string>)
    requires a == b
    ensures a + r == b + r
  {
  }

  /** A field and its comma in front of text that scans to x: the whole scans to x. */
  lemma LeadingStep(csv: string, max: Option<nat>, i: nat, fld: CsvField, f: seq<string>, c: nat, x: seq<string>)
    requires Writable(fld) && Tokenizer.Below(c, max)
    requires i + |Render(fld)| < |csv| && csv[i..i + |Render(fld)|] == Render(fld) && csv[i + |Render(fld)|] == ','
    requires ScanFrom(csv, max, i + |Render(fld)| + 1, Scan(f + [Value(fld)], [], false, c + 1)) == Ok(x)
    ensures ScanFrom(csv, max, i, Scan(f, [], false, c)) == Ok(x)
  {
    FieldThenComma(csv, max, i, fld, f, c);
  }

  /** Once the cap is reached with nothing pending, the unread remainder is the last field. */
  lemma CapReached(csv: string, i: nat, f: seq<string>, m: nat)
    requires i <= |csv|
    ensures ScanFrom(csv, Some(m), i, Scan(f, [], false, m)) == Ok(f + Remainder(csv, i))
  {
    assert Finish(csv, i, Scan(f, [], false, m)) == f + [] + Remainder(csv, i);
    assert f + [] == f;
  }

  lemma LeadingSplit(csv: string, i: nat, fields: seq<CsvField>)
    requires fields != [] && AllWritable(fields)
    requires i + |RenderLeading(fields)| <= |csv| && csv[i..i + |RenderLeading(fields)|] == RenderLeading(fields)
    ensures var r, tail := Render(fields[0]), RenderLeading(fields[1..]);
      && |RenderLeading(fields)| == |r| + 1 + |tail|
      && i + |r| < |csv| && csv[i..i + |r|] == r && csv[i + |r|] == ','
      && csv[i + |r| + 1..i + |r| + 1 + |tail|] == tail
    ensures Writable(fields[0]) && AllWritable(fields[1..])
  {
    var r, tail := Render(fields[0]), RenderLeading(fields[1..]);
    var all := RenderLeading(fields);
    assert all == r + [','] + tail;
    SliceOf(csv, i, all, 0, |r|);
    assert all[0..|r|] == r;
    SliceAt(csv, i, all, |r|);
    SliceOf(csv, i, all, |r| + 1, |all|);
    assert all[|r| + 1..|all|] == tail;
  }

  /**
   * With max = n: the first n fields, each followed by its comma, are parsed, and everything after the
   * n-th comma comes back verbatim as one more field, quotes and commas included.
   */
  lemma CsvLeadingFields(fields: seq<CsvField>, rest: string)
    requires forall k :: 0 <= k < |fields| ==> Writable(fields[k])
    ensures CsvSpec(RenderLeading(fields) + rest, Some(|fields|))
      == Ok(Values(fields) + (if rest == [] then [] else [rest]))
  {
    ScanLeadingThenRest(RenderLeading(fields) + rest, fields, rest);
  }

  lemma ScanLeadingThenRest(csv: string, fields: seq<CsvField>, rest: string)
    requires forall k :: 0 <= k < |fields| ==> Writable(fields[k])
    requires csv == RenderLeading(fields) + rest
    ensures ScanFrom(csv, Some(|fields|), 0, Scan([], [], false, 0)) == Ok(Values(fields) + (if rest == [] then [] else [rest]))
  {
    var lead, vs := RenderLeading(fields), Values(fields);
    assert csv[0..|lead|] == lead;
    ScanLeading(csv, |fields|, 0, |lead|, fields, [], 0);
    assert [] + vs == vs;
    assert csv[|lead|..] == rest;
  }

  /** With max = 1, a lone field without a comma after it is the only field. */
  lemma CsvOnlyField(fld: CsvField)
    requires Writable(fld) && !Blank(fld)
    ensures CsvSpec(Render(fld), Some(1)) == Ok([Value(fld)])
  {
    var csv := Render(fld);
    assert csv[0..] == csv;
    FieldAtEnd(csv, Some(1), 0, fld, [], 0);
    assert [] + [Value(fld)] == [Value(fld)];
  }

  /**
   * In the first field, a quoted run whose closing quote is followed by anything but a quote or a comma
   * is malformed, whatever the cap other than 0.
   */
  lemma CsvMalformed(plain: string, q: string, x: char, rest: string, max: Option<nat>)
    requires PlainText(plain)
    requires x != '"' && x != ','
    requires max != Some(0)
    ensures var csv := plain + ['"'] + Double(q) + ['"', x] + rest;
      CsvSpec(csv, max) == Err(MalformedCsv(csv))
  {
    var csv := plain + ['"'] + Double(q) + ['"', x] + rest;
    var p := |plain|;
    var d := Double(q);
    assert csv[0..p] == plain;
    ScanPlain(csv, max, 0, p, [], [], 0);
    StepOpen(csv, max, p, Scan([], [] + plain, false, 0));
    assert csv[p + 1..p + 1 + |d|] == d;
    ScanQuoted(csv, max, p + 1, q, [], [] + plain, 0);
    assert csv[p + 1 + |d|] == '"' && csv[p + 2 + |d|] == x;
    StepMalformed(csv, max, p + 1 + |d|, Scan([], [] + plain + q, true, 0));
  }
}

=== FILE: errors.dfy ===
/**
 * The exceptions the configuration code and the daily rotating file sinks throw, one constructor per
 * kind of message they build; the arguments are the names the message quotes.
 */
module Errors {

  datatype Error =
    | MalformedCsv(csv: string)                        // "Malformed string passed to csv parser: "
    | EmptyConfigLine                                  // "Empty config line found"
    | InvalidConfigLine                                // "Invalid config line found"
    | InvalidAttributeDefinition(attribute: string)    // "Invalid attribute definition found: "
    | MissingAttribute(name: string)                   // "Attribute ... is required but cannot be found"
    | NotABoolean(name: string)                        // "Attribute ... is not a valid boolean"
    | NotAnInteger(name: string)                       // "Attribute ... is not a valid integer"
    | NotASize(name: string)                           // "Attribute ... is not a valid size_t"
    | InvalidNumber(text: string)                      // std::invalid_argument from a bare std::stoul
    | UnknownOverflowPolicy(name: string)              // "Cannot find overflow_policy matching '...'"
    | UnknownErrorHandler(name: string)                // "Cannot find error handler '...'"
    | UnknownSinkType(sinkType: string)                // "Cannot create sink of type '...'"
    | MissingSink(logger: string, sink: string)        // "Trying to construct logger '...', but cannot find sink '...'"
    | UnknownDirective(line: string)                   // "Cannot understand this configuration string: "
    | InvalidRotationTime                              // "daily_rotating_file_sink: Invalid rotation time in ctor"
    | FailedRemoving(path: string)                     // "...: failed removing "
    | FailedRenaming(source: string, target: string)   // "...: failed renaming ... to ..."
}

=== FILE: files.dfy ===
/**
 * What the two daily rotating file sinks share: their file naming (`calc_filename`), the rotation decision
 * of `_sink_it`, and the file system they act on. The file system is a map from path to content; the
 * calls the sinks make on it (`file_helper::open`, `reopen(true)`, `write`, `os::remove`, `os::rename`,
 * `file_exists`) are the methods of FileSystem, and the paths on which remove and rename fail are a fixed set.
 */
module DailyFiles {
  import opened Wrappers
  import opened Errors
  import opened Strings

  // ---------------------------------------------------------------------------
  // calc_filename

  /** The name of generation `index` of a log file: the name itself for 0, "name.index" otherwise. */
  function CalcFilename(filename: string, index: nat): string {
    if index == 0 then filename else filename + "." + Decimal(index)
  }

  /** Every generation's name starts with the file name, and only generation 0 is the file name itself. */
  lemma CalcFilenameShape(filename: string, index: nat)
    ensures filename <= CalcFilename(filename, index)
    ensures (CalcFilename(filename, index) == filename) <==> index == 0
    ensures index > 0 ==> CalcFilename(filename, index)[|filename|..] == "." + Decimal(index)
  {
    if index > 0 {
      var name := CalcFilename(filename, index);
      assert name == filename + ("." + Decimal(index));
      assert name[..|filename|] == filename;
      assert |name| > |filename|;
    }
  }

  /** Distinct generations of one file have distinct names. */
  lemma CalcFilenameInjective(filename: string, i: nat, j: nat)
    requires CalcFilename(filename, i) == CalcFilename(filename, j)
    ensures i == j
  {
    CalcFilenameShape(filename, i);
    CalcFilenameShape(filename, j);
    if i > 0 && j > 0 {
      assert ("." + Decimal(i))[1..] == Decimal(i);
      assert ("." + Decimal(j))[1..] == Decimal(j);
      DecimalInjective(i, j);
    }
  }

  // ---------------------------------------------------------------------------
  // The rotation decision of _sink_it

  datatype Rotation = ByTime | BySize | NoRotation

  /**
   * `_sink_it` first adds the message length to the size counter; it then switches files when the clock
   * has reached the rotation time, and otherwise shifts generations when the counter is strictly over the
   * maximum size.
   */
  function Decide(now: int, rotationTp: int, size: nat, maxSize: nat): (r: Rotation)
    ensures r == ByTime <==> now >= rotationTp
    ensures r == BySize <==> now < rotationTp && size > maxSize
    ensures r == NoRotation <==> now < rotationTp && size <= maxSize
  {
    if now >= rotationTp then ByTime
    else if size > maxSize then BySize
    else NoRotation
  }

  // ---------------------------------------------------------------------------
  // File contents

  type Files = map<string, string>

  /** The content of a generation, when that file exists. */
  function Gen(files: Files, filename: string, index: nat): Option<string> {
    var path := CalcFilename(filename, index);
    if path in files then Some(files[path]) else None
  }

  /** `file_helper::open` in append mode: an existing file keeps its content, a missing one is created empty. */
  function Opened(files: Files, path: string): (r: Files)
    ensures path in r && r[path] == (if path in files then files[path] else [])
    ensures forall p :: p != path ==> (p in r <==> p in files) && (p in files ==> r[p] == files[p])
  {
    files[path := if path in files then files[path] else []]
  }

  /** `file_helper::reopen(true)`: the file is emptied, or created empty. */
  function Truncated(files: Files, path: string): (r: Files)
    ensures path in r && r[path] == []
    ensures forall p :: p != path ==> (p in r <==> p in files) && (p in files ==> r[p] == files[p])
  {
    files[path := []]
  }

  /** `file_helper::write`: the text is appended to the open file. */
  function Appended(files: Files, path: string, text: string): (r: Files)
    ensures path in r && r[path] == (if path in files then files[path] else []) + text
    ensures forall p :: p != path ==> (p in r <==> p in files) && (p in files ==> r[p] == files[p])
  {
    files[path := (if path in files then files[path] else []) + text]
  }

  /** A successful `os::rename`: the target takes the source's content, replacing any file there. */
  function Moved(files: Files, source: string, target: string): (r: Files)
    requires source in files
    ensures source != target ==> source !in r
    ensures target in r && r[target] == files[source]
    ensures forall p :: p != source && p != target ==> (p in r <==> p in files) && (p in files ==> r[p] == files[p])
  {
    files[target := files[source]] - (if source == target then {} else {source})
  }

  /** `os::remove` succeeds exactly on an existing file that is not one of the failing paths. */
  predicate CanRemove(files: Files, failing: set<string>, path: string) {
    path in files && path !in failing
  }

  /** `os::rename` succeeds exactly on an existing source that is not one of the failing paths. */
  predicate CanRename(files: Files, failing: set<string>, source: string) {
    source in files && source !in failing
  }

  /** The files after a sequence of file operations, and the exception that stopped it, if any. */
  datatype FsRun = FsRun(files: Files, failure: Option<Error>)

  /** The names of generations 0 to n of a file. */
  function ChainPaths(filename: string, n: nat): set<string> {
    set j | 0 <= j <= n :: CalcFilename(filename, j)
  }

  /** A generation above n is not among the names of generations 0 to n. */
  lemma AboveChain(filename: string, n: nat, m: nat)
    requires m > n
    ensures CalcFilename(filename, m) !in ChainPaths(filename, n)
  {
    if CalcFilename(filename, m) in ChainPaths(filename, n) {
      var j :| 0 <= j <= n && CalcFilename(filename, j) == CalcFilename(filename, m);
      CalcFilenameInjective(filename, j, m);
    }
  }

  /** The generations 0 to n are those of 0 to n - 1 and generation n. */
  lemma ChainPathsStep(filename: string, n: nat)
    requires n > 0
    ensures ChainPaths(filename, n) == ChainPaths(filename, n - 1) + {CalcFilename(filename, n)}
  {
    forall p | p in ChainPaths(filename, n)
      ensures p in ChainPaths(filename, n - 1) + {CalcFilename(filename, n)}
    {
      var j :| 0 <= j <= n && p == CalcFilename(filename, j);
      if j < n {
        assert p in ChainPaths(filename, n - 1);
      }
    }
  }

  /** Every path outside `except` is present in both maps or in neither, with the same content. */
  ghost predicate UnchangedOutside(after: Files, before: Files, except: set<string>) {
    forall p :: p !in except ==> (p in after <==> p in before) && (p in before ==> after[p] == before[p])
  }

  // ---------------------------------------------------------------------------
  // Shifting generations up by one, as both sinks' _rotate do

  /** Generation j exists and cannot be renamed. */
  predicate BlockedAt(files: Files, failing: set<string>, filename: string, j: nat) {
    CalcFilename(filename, j) in files && CalcFilename(filename, j) in failing
  }

  /** The highest generation below k that is blocked, or -1 when there is none. */
  function HighestBlocked(files: Files, failing: set<string>, filename: string, k: nat): (h: int)
    ensures -1 <= h < k
  {
    if k == 0 then -1
    else if BlockedAt(files, failing, filename, k - 1) then k - 1
    else HighestBlocked(files, failing, filename, k - 1)
  }

  /** HighestBlocked finds a blocked generation with none above it below k, and -1 only when none is blocked. */
  lemma {:induction false} HighestBlockedSpec(files: Files, failing: set<string>, filename: string, k: nat)
    ensures var h := HighestBlocked(files, failing, filename, k);
      && (h >= 0 ==> BlockedAt(files, failing, filename, h))
      && (forall j :: h < j < k ==> !BlockedAt(files, failing, filename, j))
  {
    if k > 0 && !BlockedAt(files, failing, filename, k - 1) {
      HighestBlockedSpec(files, failing, filename, k - 1);
    }
  }

  /** Two file maps that agree on which generations below k exist have the same highest blocked generation. */
  lemma {:induction false} HighestBlockedSame(files: Files, other: Files, failing: set<string>, filename: string, k: nat)
    requires forall j :: 0 <= j < k ==> (CalcFilename(filename, j) in files <==> CalcFilename(filename, j) in other)
    ensures HighestBlocked(files, failing, filename, k) == HighestBlocked(other, failing, filename, k)
  {
    if k > 0 {
      assert CalcFilename(filename, k - 1) in files <==> CalcFilename(filename, k - 1) in other;
      HighestBlockedSame(files, other, failing, filename, k - 1);
    }
  }

  /** The failure of a rename loop over generations below k: the rename of the highest blocked one. */
  function RenameFailure(files: Files, failing: set<string>, filename: string, k: nat): Option<Error> {
    var h := HighestBlocked(files, failing, filename, k);
    if h < 0 then None else Some(FailedRenaming(CalcFilename(filename, h), CalcFilename(filename, h + 1)))
  }

  /** Generations 1 to k hold what 0 to k - 1 held, generation 0 is gone, and nothing else changed. */
  ghost predicate Shifted(after: Files, before: Files, filename: string, k: nat) {
    && (forall j :: 1 <= j <= k ==> Gen(after, filename, j) == Gen(before, filename, j - 1))
    && Gen(after, filename, 0).None?
    && UnchangedOutside(after, before, ChainPaths(filename, k))
  }

  /** Maps with the same generations below k agree on which of them exist. */
  lemma SameGenerations(files: Files, other: Files, filename: string, k: nat)
    requires forall j :: 0 <= j < k ==> Gen(files, filename, j) == Gen(other, filename, j)
    ensures forall j :: 0 <= j < k ==> (CalcFilename(filename, j) in files <==> CalcFilename(filename, j) in other)
  {
    forall j | 0 <= j < k
      ensures CalcFilename(filename, j) in files <==> CalcFilename(filename, j) in other
    {
      assert Gen(files, filename, j) == Gen(other, filename, j);
    }
  }

  /** After moving generation k - 1 onto k, the rest of the loop fails exactly as the whole loop would have. */
  lemma MoveFailureSame(files: Files, moved: Files, failing: set<string>, filename: string, k: nat)
    requires k > 0 && CalcFilename(filename, k - 1) in files && CalcFilename(filename, k - 1) !in failing
    requires CalcFilename(filename, k) !in files
    requires moved == Moved(files, CalcFilename(filename, k - 1), CalcFilename(filename, k))
    ensures RenameFailure(moved, failing, filename, k - 1) == RenameFailure(files, failing, filename, k)
  {
    MoveKeeps(files, filename, k);
    SameGenerations(moved, files, filename, k - 1);
    HighestBlockedSame(moved, files, failing, filename, k - 1);
    assert !BlockedAt(files, failing, filename, k - 1);
  }

  /** Moving generation k - 1 onto the missing generation k leaves generations below k - 1 as they were. */
  lemma MoveKeeps(files: Files, filename: string, k: nat)
    requires k > 0 && CalcFilename(filename, k - 1) in files && CalcFilename(filename, k) !in files
    ensures var moved := Moved(files, CalcFilename(filename, k - 1), CalcFilename(filename, k));
      && CalcFilename(filename, k - 1) !in moved
      && Gen(moved, filename, k) == Gen(files, filename, k - 1)
      && (forall j :: 0 <= j < k - 1 ==> Gen(moved, filename, j) == Gen(files, filename, j))
      && UnchangedOutside(moved, files, ChainPaths(filename, k))
  {
    var source, target := CalcFilename(filename, k - 1), CalcFilename(filename, k);
    forall j | 0 <= j < k - 1
      ensures Gen(Moved(files, source, target), filename, j) == Gen(files, filename, j)
    {
      if CalcFilename(filename, j) == source { CalcFilenameInjective(filename, j, k - 1); }
      if CalcFilename(filename, j) == target { CalcFilenameInjective(filename, j, k); }
    }
    assert source in ChainPaths(filename, k) && target in ChainPaths(filename, k);
  }

  /** Skipping a missing generation k - 1 extends a shift over k - 1 generations to k. */
  lemma SkipShift(after: Files, files: Files, filename: string, k: nat)
    requires k > 0 && CalcFilename(filename, k - 1) !in files && CalcFilename(filename, k) !in files
    requires Shifted(after, files, filename, k - 1)
    ensures Shifted(after, files, filename, k)
  {
    ChainPathsStep(filename, k);
    AboveChain(filename, k - 1, k);
    assert Gen(after, filename, k) == None;
  }

  /** Moving the existing generation k - 1 onto the missing generation k, then shifting the rest, shifts k generations. */
  lemma MoveShift(after: Files, moved: Files, files: Files, filename: string, k: nat)
    requires k > 0 && CalcFilename(filename, k - 1) in files && CalcFilename(filename, k) !in files
    requires moved == Moved(files, CalcFilename(filename, k - 1), CalcFilename(filename, k))
    requires Shifted(after, moved, filename, k - 1)
    ensures Shifted(after, files, filename, k)
  {
    MoveKeeps(files, filename, k);
    AboveChain(filename, k - 1, k);
    ChainPathsStep(filename, k);
    assert Gen(after, filename, k) == Gen(moved, filename, k);
    forall j | 1 <= j < k
      ensures Gen(after, filename, j) == Gen(files, filename, j - 1)
    {
      assert Gen(after, filename, j) == Gen(moved, filename, j - 1);
    }
  }

  /** The file system a sink writes to. */
  class FileSystem {
    var files: Files
    const failing: set<string>

    constructor (files: Files, failing: set<string>)
      ensures this.files == files && this.failing == failing
    {
      this.files := files;
      this.failing := failing;
    }

    /** `file_helper::file_exists`. */
    predicate Exists(path: string)
      reads this
    {
      path in files
    }

    method Open(path: string)
      modifies this
      ensures files == Opened(old(files), path)
    {
      files := Opened(files, path);
    }

    method Truncate(path: string)
      modifies this
      ensures files == Truncated(old(files), path)
    {
      files := Truncated(files, path);
    }

    method Write(path: string, text: string)
      modifies this
      ensures files == Appended(old(files), path, text)
    {
      files := Appended(files, path, text);
    }

    /** `os::remove(path) == 0`. */
    method Remove(path: string) returns (ok: bool)
      modifies this
      ensures ok == CanRemove(old(files), failing, path)
      ensures files == if ok then old(files) - {path} else old(files)
    {
      ok := CanRemove(files, failing, path);
      if ok {
        files := files - {path};
      }
    }

    /** `os::rename(source, target) == 0`. */
    method Rename(source: string, target: string) returns (ok: bool)
      modifies this
      ensures ok == CanRename(old(files), failing, source)
      ensures files == if ok then Moved(old(files), source, target) else old(files)
    {
      ok := CanRename(files, failing, source);
      if ok {
        files := Moved(files, source, target);
      }
    }
  }
}

=== FILE: legacy_rotating_sink.dfy ===
/**
 * The older `daily_rotating_file_sink` (sinks/daily_rotating_file_sink.h): the same sink with a fixed
 * rotation period of 24 hours and a _rotate that counts down from generation max_files, removing each
 * target before renaming its predecessor onto it.
 */
module LegacyRotatingSink {
  import opened Wrappers
  import opened Errors
  import opened DailyFiles
  import RotatingSink

  // ---------------------------------------------------------------------------
  // _next_rotation_tp

  /** Today's rotation time if it is still ahead, else that time 24 hours later. */
  function NextRotation(now: int, dayStart: int, hour: int, minute: int): int {
    var candidate := RotatingSink.RotationTime(dayStart, hour, minute);
    if candidate > now then candidate else candidate + 86400
  }

  /**
   * With a valid rotation time and the clock within the current day, the next rotation time is after now and
   * at most a day ahead, and it is the time the newer sink computes with a period of 24 hours.
   */
  lemma NextRotationAfterNow(now: int, dayStart: int, hour: int, minute: int)
    requires 0 <= hour <= 23 && 0 <= minute <= 59
    requires dayStart <= now < dayStart + 86400
    ensures now < NextRotation(now, dayStart, hour, minute) <= now + 86400
    ensures NextRotation(now, dayStart, hour, minute) == RotatingSink.NextRotation(now, dayStart, hour, minute, 24, 0)
  {
    RotatingSink.NextRotationAgrees(now, dayStart, hour, minute, 24, 0);
  }

  // ---------------------------------------------------------------------------
  // _rotate

  /**
   * The loop of _rotate from generation i down to 1: an existing target is removed, then an existing source
   * is renamed onto it; a failed removal or rename throws.
   */
  function CountDown(files: Files, failing: set<string>, filename: string, i: nat): FsRun
    decreases i
  {
    if i == 0 then FsRun(files, None)
    else
      var source, target := CalcFilename(filename, i - 1), CalcFilename(filename, i);
      if target in files && !CanRemove(files, failing, target) then FsRun(files, Some(FailedRemoving(target)))
      else
        var cleared := if target in files then files - {target} else files;
        if source in cleared && !CanRename(cleared, failing, source) then FsRun(cleared, Some(FailedRenaming(source, target)))
        else CountDown(if source in cleared then Moved(cleared, source, target) else cleared, failing, filename, i - 1)
  }

  /** What _rotate does to the files, and the exception it throws, if any. */
  function RotateSpec(files: Files, failing: set<string>, filename: string, maxFiles: nat): FsRun {
    var run := CountDown(files, failing, filename, maxFiles);
    if run.failure.Some? then run else FsRun(Truncated(run.files, CalcFilename(filename, 0)), None)
  }

  /**
   * The exception of the loop from generation i: a failed removal of generation i when it exists and cannot
   * be removed, else the rename of the highest blocked generation below i.
   */
  function CountDownFailure(files: Files, failing: set<string>, filename: string, i: nat): Option<Error> {
    if i > 0 && BlockedAt(files, failing, filename, i) then Some(FailedRemoving(CalcFilename(filename, i)))
    else RenameFailure(files, failing, filename, i)
  }

  /** The files after the removal step of iteration i. */
  function Cleared(files: Files, filename: string, i: nat): (r: Files)
    ensures CalcFilename(filename, i) !in r
  {
    var target := CalcFilename(filename, i);
    if target in files then files - {target} else files
  }

  /** Removing generation i changes no generation below it. */
  lemma ClearedKeeps(files: Files, filename: string, i: nat)
    ensures forall j :: 0 <= j < i ==> Gen(Cleared(files, filename, i), filename, j) == Gen(files, filename, j)
    ensures UnchangedOutside(Cleared(files, filename, i), files, ChainPaths(filename, i))
  {
    forall j | 0 <= j < i
      ensures Gen(Cleared(files, filename, i), filename, j) == Gen(files, filename, j)
    {
      if CalcFilename(filename, j) == CalcFilename(filename, i) { CalcFilenameInjective(filename, j, i); }
    }
    assert CalcFilename(filename, i) in ChainPaths(filename, i);
  }

  /** Iteration i when generation i is not blocked and generation i - 1 is missing. */
  lemma CountDownSkip(files: Files, failing: set<string>, filename: string, i: nat)
    requires i > 0 && !BlockedAt(files, failing, filename, i)
    requires CalcFilename(filename, i - 1) !in Cleared(files, filename, i)
    ensures CountDown(files, failing, filename, i) == CountDown(Cleared(files, filename, i), failing, filename, i - 1)
  {
  }

  /** Iteration i when generation i is not blocked and generation i - 1 can be renamed. */
  lemma CountDownMove(files: Files, failing: set<string>, filename: string, i: nat)
    requires i > 0 && !BlockedAt(files, failing, filename, i)
    requires CalcFilename(filename, i - 1) in Cleared(files, filename, i) && CalcFilename(filename, i - 1) !in failing
    ensures var cleared := Cleared(files, filename, i);
      CountDown(files, failing, filename, i)
        == CountDown(Moved(cleared, CalcFilename(filename, i - 1), CalcFilename(filename, i)), failing, filename, i - 1)
  {
  }

  /**
   * The countdown from generation i throws exactly when generation i exists and cannot be removed, or some
   * generation below i exists and cannot be renamed; it names the first of these it meets from the top.
   */
  lemma {:induction false} CountDownFails(files: Files, failing: set<string>, filename: string, i: nat)
    ensures CountDown(files, failing, filename, i).failure == CountDownFailure(files, failing, filename, i)
    decreases i
  {
    if i > 0 && !BlockedAt(files, failing, filename, i) {
      var cleared := Cleared(files, filename, i);
      var source := CalcFilename(filename, i - 1);
      ClearedKeeps(files, filename, i);
      SameGenerations(cleared, files, filename, i);
      HighestBlockedSame(cleared, files, failing, filename, i);
      if source !in cleared {
        CountDownSkip(files, failing, filename, i);
        CountDownFails(cleared, failing, filename, i - 1);
        HighestBlockedSame(cleared, files, failing, filename, i - 1);
      } else if source !in failing {
        CountDownMove(files, failing, filename, i);
        var moved := Moved(cleared, source, CalcFilename(filename, i));
        CountDownFails(moved, failing, filename, i - 1);
        MoveFailureSame(cleared, moved, failing, filename, i);
      }
    }
  }

  /**
   * When the countdown from generation i succeeds, generation j holds what generation j - 1 held for j from
   * 1 to i, so the old generation i is gone; generation 0 is gone and every other path is untouched.
   */
  lemma {:induction false} CountDownShifts(files: Files, failing: set<string>, filename: string, i: nat)
    ensures var r := CountDown(files, failing, filename, i);
      r.failure.None? && (i > 0 || CalcFilename(filename, 0) !in files) ==> Shifted(r.files, files, filename, i)
    decreases i, 1
  {
    if i == 0 {
      if CalcFilename(filename, 0) !in files {
        assert Shifted(files, files, filename, 0);
      }
    } else if !BlockedAt(files, failing, filename, i) {
      var cleared := Cleared(files, filename, i);
      var source := CalcFilename(filename, i - 1);
      if source !in cleared {
        CountDownSkipShifts(files, failing, filename, i);
      } else if source !in failing {
        CountDownMoveShifts(files, failing, filename, i);
      }
    }
  }

  lemma {:induction false} CountDownSkipShifts(files: Files, failing: set<string>, filename: string, i: nat)
    requires i > 0 && !BlockedAt(files, failing, filename, i)
    requires CalcFilename(filename, i - 1) !in Cleared(files, filename, i)
    ensures var r := CountDown(files, failing, filename, i);
      r.failure.None? ==> Shifted(r.files, files, filename, i)
    decreases i, 0
  {
    var cleared := Cleared(files, filename, i);
    CountDownSkip(files, failing, filename, i);
    CountDownShifts(cleared, failing, filename, i - 1);
    var r := CountDown(cleared, failing, filename, i - 1);
    if r.failure.None? {
      SkipShift(r.files, cleared, filename, i);
      ClearedShift(r.files, cleared, files, filename, i);
    }
  }

  lemma {:induction false} CountDownMoveShifts(files: Files, failing: set<string>, filename: string, i: nat)
    requires i > 0 && !BlockedAt(files, failing, filename, i)
    requires CalcFilename(filename, i - 1) in Cleared(files, filename, i) && CalcFilename(filename, i - 1) !in failing
    ensures var r := CountDown(files, failing, filename, i);
      r.failure.None? ==> Shifted(r.files, files, filename, i)
    decreases i, 0
  {
    var cleared := Cleared(files, filename, i);
    CountDownMove(files, failing, filename, i);
    var moved := Moved(cleared, CalcFilename(filename, i - 1), CalcFilename(filename, i));
    CountDownShifts(moved, failing, filename, i - 1);
    var r := CountDown(moved, failing, filename, i - 1);
    if r.failure.None? {
      MoveShift(r.files, moved, cleared, filename, i);
      ClearedShift(r.files, cleared, files, filename, i);
    }
  }

  /** A shift of the files after removing generation i is a shift of the files before. */
  lemma ClearedShift(after: Files, cleared: Files, files: Files, filename: string, i: nat)
    requires cleared == Cleared(files, filename, i)
    requires Shifted(after, cleared, filename, i)
    ensures Shifted(after, files, filename, i)
  {
    ClearedKeeps(files, filename, i);
    forall j | 1 <= j <= i
      ensures Gen(after, filename, j) == Gen(files, filename, j - 1)
    {
      assert Gen(after, filename, j) == Gen(cleared, filename, j - 1);
    }
  }

  /**
   * A successful _rotate leaves generation 0 empty, generation j with what generation j - 1 held for j from
   * 1 to max_files (the old generation max_files is lost), and every other file untouched.
   */
  lemma RotateSucceeds(files: Files, failing: set<string>, filename: string, maxFiles: nat)
    requires RotateSpec(files, failing, filename, maxFiles).failure.None?
    ensures var r := RotateSpec(files, failing, filename, maxFiles).files;
      && Gen(r, filename, 0) == Some([])
      && (forall j :: 1 <= j <= maxFiles ==> Gen(r, filename, j) == Gen(files, filename, j - 1))
      && UnchangedOutside(r, files, ChainPaths(filename, maxFiles))
  {
    var shifted := CountDown(files, failing, filename, maxFiles).files;
    var r := Truncated(shifted, CalcFilename(filename, 0));
    if maxFiles == 0 {
      assert shifted == files;
      return;
    }
    CountDownShifts(files, failing, filename, maxFiles);
    forall j | 1 <= j <= maxFiles
      ensures Gen(r, filename, j) == Gen(files, filename, j - 1)
    {
      if CalcFilename(filename, j) == CalcFilename(filename, 0) { CalcFilenameInjective(filename, j, 0); }
      assert Gen(r, filename, j) == Gen(shifted, filename, j);
    }
    assert CalcFilename(filename, 0) in ChainPaths(filename, maxFiles);
  }

  /** _rotate throws exactly what the countdown from max_files throws. */
  lemma RotateFailure(files: Files, failing: set<string>, filename: string, maxFiles: nat)
    ensures RotateSpec(files, failing, filename, maxFiles).failure == CountDownFailure(files, failing, filename, maxFiles)
  {
    CountDownFails(files, failing, filename, maxFiles);
  }

  /** When every generation up to max_files exists, the older and the newer _rotate do the same. */
  lemma SameAsNewerWhenFull(files: Files, failing: set<string>, filename: string, maxFiles: nat)
    requires forall j :: 0 <= j <= maxFiles ==> CalcFilename(filename, j) in files
    requires forall j :: 0 <= j <= maxFiles ==> CalcFilename(filename, j) !in failing
    ensures RotateSpec(files, failing, filename, maxFiles).failure.None?
    ensures RotatingSink.RotateSpec(files, failing, filename, maxFiles).failure.None?
    ensures var r, newer := RotateSpec(files, failing, filename, maxFiles).files,
                            RotatingSink.RotateSpec(files, failing, filename, maxFiles).files;
      forall j :: 0 <= j <= maxFiles ==> Gen(r, filename, j) == Gen(newer, filename, j)
  {
    NoneBlocked(files, failing, filename, maxFiles);
    RotateFailure(files, failing, filename, maxFiles);
    RotateSucceeds(files, failing, filename, maxFiles);
    FullChain(files, filename, maxFiles);
    RotatingSink.RotateFailure(files, failing, filename, maxFiles);
    RotatingSink.RotateSucceeds(files, failing, filename, maxFiles);
  }

  /** With no generation up to i blocked, the countdown from i cannot fail. */
  lemma {:induction false} NoneBlocked(files: Files, failing: set<string>, filename: string, i: nat)
    requires forall j :: 0 <= j <= i ==> CalcFilename(filename, j) !in failing
    ensures CountDownFailure(files, failing, filename, i).None?
  {
    assert !BlockedAt(files, failing, filename, i);
    NoneBlockedBelow(files, failing, filename, i);
  }

  lemma {:induction false} NoneBlockedBelow(files: Files, failing: set<string>, filename: string, k: nat)
    requires forall j :: 0 <= j < k ==> CalcFilename(filename, j) !in failing
    ensures HighestBlocked(files, failing, filename, k) == -1
  {
    if k > 0 {
      assert CalcFilename(filename, k - 1) !in failing;
      NoneBlockedBelow(files, failing, filename, k - 1);
    }
  }

  /** When every generation up to max_files exists, the newer _rotate lists and keeps all of them. */
  lemma FullChain(files: Files, filename: string, maxFiles: nat)
    requires forall j :: 0 <= j <= maxFiles ==> CalcFilename(filename, j) in files
    ensures |RotatingSink.RotationList(files, filename, maxFiles)| == maxFiles + 1
  {
    RotatingSink.RotationListShape(files, filename, maxFiles);
    var n := |RotatingSink.RotationList(files, filename, maxFiles)|;
    var next := CalcFilename(filename, n);
    assert n <= maxFiles ==> next in files;
  }

  // ---------------------------------------------------------------------------
  // The sink

  class LegacyDailyRotatingFileSink {
    const baseFilename: string
    var currentBaseFilename: string
    const maxSize: nat
    const maxFiles: nat
    var currentSize: nat
    const rotationH: int
    const rotationM: int
    var rotationTp: int

    /** The rotation time the constructor accepted. */
    predicate Valid()
      reads this
    {
      0 <= rotationH <= 23 && 0 <= rotationM <= 59
    }

    /**
     * The constructor after its check of the rotation time: `dated` is the name the file name calculator
     * gives the base name today. The current file is opened and the size counter starts at its length.
     */
    constructor Init(fs: FileSystem, baseFilename: string, maxSize: nat, maxFiles: nat, rotationHour: int, rotationMinute: int,
                     now: int, dayStart: int, dated: string)
      requires 0 <= rotationHour <= 23 && 0 <= rotationMinute <= 59
      modifies fs
      ensures Valid()
      ensures this.baseFilename == baseFilename && currentBaseFilename == dated
      ensures this.maxSize == maxSize && this.maxFiles == maxFiles
      ensures rotationH == rotationHour && rotationM == rotationMinute
      ensures rotationTp == NextRotation(now, dayStart, rotationHour, rotationMinute)
      ensures fs.files == Opened(old(fs.files), dated)
      ensures currentSize == |fs.files[dated]|
    {
      this.baseFilename := baseFilename;
      currentBaseFilename := dated;
      this.maxSize := maxSize;
      this.maxFiles := maxFiles;
      rotationH := rotationHour;
      rotationM := rotationMinute;
      new;
      rotationTp := NextRotation(now, dayStart, rotationH, rotationM);
      fs.Open(CalcFilename(currentBaseFilename, 0));
      currentSize := |fs.files[currentBaseFilename]|;
    }

    /** The constructor, which throws on a rotation hour outside 0..23 or a minute outside 0..59. */
    static method Create(fs: FileSystem, baseFilename: string, maxSize: nat, maxFiles: nat, rotationHour: int, rotationMinute: int,
                         now: int, dayStart: int, dated: string)
      returns (r: Result<LegacyDailyRotatingFileSink, Error>)
      modifies fs
      ensures r.Err? <==> !(0 <= rotationHour <= 23 && 0 <= rotationMinute <= 59)
      ensures r.Err? ==> r.error == InvalidRotationTime && fs.files == old(fs.files)
      ensures r.Ok? ==> (fresh(r.value) && r.value.Valid()
        && r.value.baseFilename == baseFilename && r.value.currentBaseFilename == dated
        && r.value.maxSize == maxSize && r.value.maxFiles == maxFiles
        && r.value.rotationH == rotationHour && r.value.rotationM == rotationMinute
        && r.value.rotationTp == NextRotation(now, dayStart, rotationHour, rotationMinute)
        && fs.files == Opened(old(fs.files), dated) && r.value.currentSize == |fs.files[dated]|)
    {
      if rotationHour < 0 || rotationHour > 23 || rotationMinute < 0 || rotationMinute > 59 {
        return Err(InvalidRotationTime);
      }
      var sink := new LegacyDailyRotatingFileSink.Init(fs, baseFilename, maxSize, maxFiles, rotationHour, rotationMinute,
                                                       now, dayStart, dated);
      return Ok(sink);
    }

    /**
     * `_sink_it`: writes one formatted message, after switching to today's file when the rotation time has
     * come, or else after shifting generations when the size counter is over the maximum. A failed shift
     * throws before the message is written, with the size counter already increased.
     */
    method SinkIt(fs: FileSystem, msg: string, now: int, dayStart: int, dated: string) returns (r: Outcome<Error>)
      requires Valid()
      modifies this, fs
      ensures Valid()
      ensures var decision := Decide(now, old(rotationTp), old(currentSize) + |msg|, maxSize);
        match decision
        case ByTime =>
          && r == Pass && currentBaseFilename == dated && currentSize == |msg|
          && rotationTp == NextRotation(now, dayStart, rotationH, rotationM)
          && fs.files == Appended(Opened(old(fs.files), dated), dated, msg)
        case BySize =>
          var run := RotateSpec(old(fs.files), fs.failing, old(currentBaseFilename), maxFiles);
          && currentBaseFilename == old(currentBaseFilename) && rotationTp == old(rotationTp)
          && (run.failure.None? ==> r == Pass && currentSize == |msg| && fs.files == Appended(run.files, currentBaseFilename, msg))
          && (run.failure.Some? ==> r == Fail(run.failure.value) && currentSize == old(currentSize) + |msg| && fs.files == run.files)
        case NoRotation =>
          && r == Pass && currentBaseFilename == old(currentBaseFilename) && rotationTp == old(rotationTp)
          && currentSize == old(currentSize) + |msg| && fs.files == Appended(old(fs.files), currentBaseFilename, msg)
    {
      currentSize := currentSize + |msg|;
      if now >= rotationTp {
        currentBaseFilename := CalcFilename(dated, 0);
        fs.Open(currentBaseFilename);
        rotationTp := NextRotation(now, dayStart, rotationH, rotationM);
        currentSize := |msg|;
      } else if currentSize > maxSize {
        var rotated := Rotate(fs);
        if rotated.Fail? {
          return rotated;
        }
        currentSize := |msg|;
      }
      fs.Write(currentBaseFilename, msg);
      return Pass;
    }

    /** `_rotate`: counts down from generation max_files, removing each target and renaming its predecessor onto it. */
    method Rotate(fs: FileSystem) returns (r: Outcome<Error>)
      modifies fs
      ensures var run := RotateSpec(old(fs.files), fs.failing, currentBaseFilename, maxFiles);
        && fs.files == run.files
        && (run.failure.None? ==> r == Pass)
        && (run.failure.Some? ==> r == Fail(run.failure.value))
    {
      var i: nat := maxFiles;
      while i > 0
        invariant CountDown(fs.files, fs.failing, currentBaseFilename, i)
          == CountDown(old(fs.files), fs.failing, currentBaseFilename, maxFiles)
      {
        var source := CalcFilename(currentBaseFilename, i - 1);
        var target := CalcFilename(currentBaseFilename, i);
        if fs.Exists(target) {
          var removed := fs.Remove(target);
          if !removed {
            return Fail(FailedRemoving(target));
          }
        }
        if fs.Exists(source) {
          var renamed := fs.Rename(source, target);
          if !renamed {
            return Fail(FailedRenaming(source, target));
          }
        }
        i := i - 1;
      }
      fs.Truncate(CalcFilename(currentBaseFilename, 0));
      return Pass;
    }
  }
}

=== FILE: levels.dfy ===
/**
 * `find_log_level` (configuration_impl.h): the logger threshold text is looked up, case-sensitively, in a
 * fixed table of seven names; anything else means `info`.
 */
module Levels {
  import opened Strings

  /** spdlog::level::level_enum. */
  datatype Level = Trace | Debug | Info | Warn | Err | Critical | Off

  /** The table the source searches, in its order. */
  const ItemMap: seq<(string, Level)> :=
    [("TRACE", Trace), ("DEBUG", Debug), ("INFO", Info), ("WARNINGS", Warn), ("ERROR", Err), ("FATAL", Critical), ("OFF", Off)]

  /** The table name of each level. */
  function Name(l: Level): string {
    match l
    case Trace => "TRACE"
    case Debug => "DEBUG"
    case Info => "INFO"
    case Warn => "WARNINGS"
    case Err => "ERROR"
    case Critical => "FATAL"
    case Off => "OFF"
  }

  /** The recursion of the source: entries range-1 down to 0 are compared with strcmp, and `info` is the fallback. */
  function FindIn(key: string, range: nat): (r: Level)
    requires range <= |ItemMap|
  {
    if range == 0 then Info
    else if ItemMap[range - 1].0 == key then ItemMap[range - 1].1
    else FindIn(key, range - 1)
  }

  /** find_log_level(threshold.c_str()): the comparison sees the text only up to its first NUL character. */
  function FindLogLevel(threshold: string): Level {
    FindIn(CString(threshold), |ItemMap|)
  }

  /** Where each level sits in the table. */
  function Index(l: Level): (k: nat)
    ensures k < |ItemMap| && ItemMap[k] == (Name(l), l)
  {
    match l
    case Trace => 0
    case Debug => 1
    case Info => 2
    case Warn => 3
    case Err => 4
    case Critical => 5
    case Off => 6
  }

  lemma ItemMapNames()
    ensures forall k :: 0 <= k < |ItemMap| ==> ItemMap[k].0 == Name(ItemMap[k].1)
  {
  }

  lemma NamesDistinct(l1: Level, l2: Level)
    requires Name(l1) == Name(l2)
    ensures l1 == l2
  {
  }

  lemma {:induction false} FindInSpec(key: string, range: nat)
    requires range <= |ItemMap|
    ensures forall k :: 0 <= k < range && ItemMap[k].0 == key ==> FindIn(key, range) == ItemMap[k].1
    ensures (forall k :: 0 <= k < range ==> ItemMap[k].0 != key) ==> FindIn(key, range) == Info
  {
    ItemMapNames();
    if range > 0 {
      FindInSpec(key, range - 1);
      forall k | 0 <= k < range && ItemMap[k].0 == key
        ensures FindIn(key, range) == ItemMap[k].1
      {
        if ItemMap[range - 1].0 == key {
          NamesDistinct(ItemMap[k].1, ItemMap[range - 1].1);
        }
      }
    }
  }

  /**
   * The threshold selects level l exactly when its text (up to the first NUL) is l's table name, or l is
   * `info` and the text is none of the names: the match is exact and case-sensitive.
   */
  lemma FindLogLevelSpec(threshold: string, l: Level)
    ensures FindLogLevel(threshold) == l <==>
      CString(threshold) == Name(l) || (l == Info && forall m: Level :: CString(threshold) != Name(m))
  {
    var key := CString(threshold);
    ItemMapNames();
    FindInSpec(key, |ItemMap|);
    if forall m: Level :: key != Name(m) {
      assert forall k :: 0 <= k < |ItemMap| ==> ItemMap[k].0 != key;
    } else {
      var m: Level :| key == Name(m);
      assert ItemMap[Index(m)].0 == key;
      assert FindLogLevel(threshold) == m;
    }
  }

  /** Near misses fall back to `info`: the lower-case name, and the short form of WARNINGS. */
  lemma FindLogLevelNearMisses()
    ensures FindLogLevel("info") == Info
    ensures FindLogLevel("WARN") == Info
  {
    assert CString("info") == "info";
    assert CString("WARN") == "WARN";
    FindLogLevelSpec("info", Info);
    FindLogLevelSpec("WARN", Info);
  }
}

=== FILE: registries.dfy ===
/**
 * The name-keyed registries behind `configure` (configuration_impl.h): global functions, sink factories,
 * worker warmup and teardown callbacks, error handlers and overflow policies, with the lookups that
 * resolve a directive against them. User-supplied callbacks are abstract identifiers; what a factory or a
 * callback does when called is outside the model, which records which one would be called and with what.
 */
module Registries {
  import opened Wrappers
  import opened Errors
  import opened Strings
  import opened SortedMap
  import opened Attributes
  import opened ConfigLine

  /** A user-supplied std::function, identified by the registration that supplied it. */
  type Callback = nat

  /** The entries of the global function registry. */
  datatype GlobalFunction = SetAsync | SetPattern | SetErrorHandler | CustomGlobal(f: Callback)

  /**
   * The sink factories; `mt` selects std::mutex over null_mutex. The colour sinks are the ANSI ones (the
   * Windows build registers console sinks under the same names).
   */
  datatype SinkFactory =
    | StdoutSink(mt: bool)
    | StderrSink(mt: bool)
    | NullSink(mt: bool)
    | SimpleFileSink(mt: bool)
    | DailyRotatingFileSink(mt: bool)
    | PeriodicallyRotatingFileSink(mt: bool)
    | ColorStdoutSink(mt: bool)
    | ColorStderrSink(mt: bool)
    | CustomSink(f: Callback)

  /** async_overflow_policy. */
  datatype OverflowPolicy = BlockRetry | DiscardLogMsg

  /** A sink as configure builds it: the factory that was called and the configuration it was given. */
  datatype Sink = Sink(factory: SinkFactory, config: SinkConfig)

  /** The arguments global_func_set_async passes to set_async_mode; None stands for a null callback. */
  datatype AsyncSettings = AsyncSettings(
    queueSize: nat, overflowPolicy: OverflowPolicy, warmup: Option<Callback>, flushIntervalMs: nat,
    teardown: Option<Callback>)

  /** The effect of calling one global function. */
  datatype GlobalAction =
    | SetAsyncMode(settings: AsyncSettings)
    | SetGlobalPattern(pattern: string)
    | SetGlobalErrorHandler(handler: Callback)
    | CallCustomGlobal(f: Callback, config: GlobalConfig)

  /** The contents of all the registries at one moment. */
  datatype Tables = Tables(
    globalFunctions: map<string, GlobalFunction>, sinkFactories: map<string, SinkFactory>,
    warmups: map<string, Callback>, teardowns: map<string, Callback>, errorHandlers: map<string, Callback>)

  /** The name each built-in sink factory is meant to be registered under. */
  function FactoryName(f: SinkFactory): Option<string> {
    match f
    case StdoutSink(mt) => Some(if mt then "stdout_sink_mt" else "stdout_sink_st")
    case StderrSink(mt) => Some(if mt then "stderr_sink_mt" else "stderr_sink_st")
    case NullSink(mt) => Some(if mt then "null_sink_mt" else "null_sink_st")
    case SimpleFileSink(mt) => Some(if mt then "simple_file_sink_mt" else "simple_file_sink_st")
    case DailyRotatingFileSink(mt) => Some(if mt then "daily_rotating_file_sink_mt" else "daily_rotating_file_sink_st")
    case PeriodicallyRotatingFileSink(mt) =>
      Some(if mt then "periodically_rotating_file_sink_mt" else "periodically_rotating_file_sink_st")
    case ColorStdoutSink(mt) => Some(if mt then "stdout_color_sink_mt" else "stdout_color_sink_st")
    case ColorStderrSink(mt) => Some(if mt then "stderr_color_sink_mt" else "stderr_color_sink_st")
    case CustomSink(_) => None
  }

  /** make_sink_registry as written: the two stderr names are wired to the stdout factory. */
  const SinkFactoriesAsWritten: map<string, SinkFactory> := map[
    "stdout_sink_st" := StdoutSink(false), "stdout_sink_mt" := StdoutSink(true),
    "stderr_sink_st" := StdoutSink(false), "stderr_sink_mt" := StdoutSink(true),
    "null_sink_st" := NullSink(false), "null_sink_mt" := NullSink(true),
    "simple_file_sink_st" := SimpleFileSink(false), "simple_file_sink_mt" := SimpleFileSink(true),
    "daily_rotating_file_sink_st" := DailyRotatingFileSink(false),
    "daily_rotating_file_sink_mt" := DailyRotatingFileSink(true),
    "periodically_rotating_file_sink_st" := PeriodicallyRotatingFileSink(false),
    "periodically_rotating_file_sink_mt" := PeriodicallyRotatingFileSink(true),
    "stdout_color_sink_st" := ColorStdoutSink(false), "stdout_color_sink_mt" := ColorStdoutSink(true),
    "stderr_color_sink_st" := ColorStderrSink(false), "stderr_color_sink_mt" := ColorStderrSink(true)]

  /** make_sink_registry as intended, with the stderr names wired to the stderr factory. */
  const DefaultSinkFactories: map<string, SinkFactory> :=
    SinkFactoriesAsWritten["stderr_sink_st" := StderrSink(false)]["stderr_sink_mt" := StderrSink(true)]

  /** make_global_func_registry. */
  const DefaultGlobalFunctions: map<string, GlobalFunction> :=
    map["set_async" := SetAsync, "set_pattern" := SetPattern, "set_error_handler" := SetErrorHandler]

  /** make_overflow_policy_registry; nothing can be registered into it. */
  const OverflowPolicies: map<string, OverflowPolicy> :=
    map["block_retry" := BlockRetry, "discard_log_msg" := DiscardLogMsg]

  /**
   * The process-wide registries (function-local statics in the source). The warmup, teardown and error
   * handler registries start empty; register_* inserts or overwrites, so the last registration wins.
   */
  class Registries {
    var globalFunctions: map<string, GlobalFunction>
    var sinkFactories: map<string, SinkFactory>
    var warmups: map<string, Callback>
    var teardowns: map<string, Callback>
    var errorHandlers: map<string, Callback>

    constructor ()
      ensures globalFunctions == DefaultGlobalFunctions && sinkFactories == SinkFactoriesAsWritten
      ensures warmups == map[] && teardowns == map[] && errorHandlers == map[]
    {
      globalFunctions := DefaultGlobalFunctions;
      sinkFactories := SinkFactoriesAsWritten;
      warmups := map[];
      teardowns := map[];
      errorHandlers := map[];
    }

    function Snapshot(): Tables
      reads this
    {
      Tables(globalFunctions, sinkFactories, warmups, teardowns, errorHandlers)
    }

    method RegisterCustomGlobalFunction(name: string, f: Callback)
      modifies this
      ensures Snapshot() == old(Snapshot()).(globalFunctions := old(globalFunctions)[name := CustomGlobal(f)])
    {
      globalFunctions := globalFunctions[name := CustomGlobal(f)];
    }

    method RegisterCustomSink(name: string, f: Callback)
      modifies this
      ensures Snapshot() == old(Snapshot()).(sinkFactories := old(sinkFactories)[name := CustomSink(f)])
    {
      sinkFactories := sinkFactories[name := CustomSink(f)];
    }

    method RegisterWorkerWarmup(name: string, f: Callback)
      modifies this
      ensures Snapshot() == old(Snapshot()).(warmups := old(warmups)[name := f])
    {
      warmups := warmups[name := f];
    }

    method RegisterWorkerTeardown(name: string, f: Callback)
      modifies this
      ensures Snapshot() == old(Snapshot()).(teardowns := old(teardowns)[name := f])
    {
      teardowns := teardowns[name := f];
    }

    method RegisterErrorHandler(name: string, f: Callback)
      modifies this
      ensures Snapshot() == old(Snapshot()).(errorHandlers := old(errorHandlers)[name := f])
    {
      errorHandlers := errorHandlers[name := f];
    }
  }

  // ---------------------------------------------------------------------------
  // Lookups

  /** get_overflow_policy: an unknown name is an error. */
  function GetOverflowPolicy(name: string): (r: Result<OverflowPolicy, Error>)
    ensures r.Ok? <==> name == "block_retry" || name == "discard_log_msg"
    ensures name == "block_retry" ==> r == Ok(BlockRetry)
    ensures name == "discard_log_msg" ==> r == Ok(DiscardLogMsg)
    ensures r.Err? ==> r.error == UnknownOverflowPolicy(name)
  {
    if name in OverflowPolicies then Ok(OverflowPolicies[name]) else Err(UnknownOverflowPolicy(name))
  }

  /** get_worker_warmup_cb / get_worker_teardown_cb: an unknown name gives a null callback, never an error. */
  function FindCallback(registry: map<string, Callback>, name: string): (r: Option<Callback>)
    ensures r.Some? <==> name in registry
    ensures r.Some? ==> r.value == registry[name]
  {
    if name in registry then Some(registry[name]) else None
  }

  /** An attribute that set_async reads: a missing one and an empty one both mean "use the default". */
  function Setting(attributes: AttributeMap, name: string): (r: Option<string>)
    ensures r.Some? <==> name in Keys(attributes) && Find(attributes, name).value != []
    ensures r.Some? ==> (name, r.value) in attributes
  {
    match Find(attributes, name)
    case None => None
    case Some(v) => if v == [] then None else Some(v)
  }

  /** A bare std::stoul: no leading digit is std::invalid_argument. */
  function StoUL(text: string): (r: Result<nat, Error>)
    ensures r.Err? <==> ParseUnsigned(text).None?
    ensures r.Ok? ==> r.value == ParseUnsigned(text).value
    ensures r.Err? ==> r.error == InvalidNumber(text)
  {
    match ParseUnsigned(text)
    case None => Err(InvalidNumber(text))
    case Some(n) => Ok(n)
  }

  /**
   * global_func_set_async's arguments, in the order the source computes them: the queue size (the line
   * value), the overflow policy (block_retry by default), the warmup callback, the flush interval in
   * milliseconds (0 by default) and the teardown callback; the first failure is the error.
   */
  function ResolveSetAsync(config: GlobalConfig, t: Tables): Result<AsyncSettings, Error> {
    var queueSize :- StoUL(config.value);
    var policy :- match Setting(config.attributes, "overflow_policy")
      case None => Ok(BlockRetry)
      case Some(p) => GetOverflowPolicy(p);
    var warmup := match Setting(config.attributes, "worker_warmup_cb")
      case None => None
      case Some(w) => FindCallback(t.warmups, w);
    var flush :- match Setting(config.attributes, "flush_interval_ms")
      case None => Ok(0)
      case Some(ms) => StoUL(ms);
    var teardown := match Setting(config.attributes, "worker_teardown_cb")
      case None => None
      case Some(w) => FindCallback(t.teardowns, w);
    Ok(AsyncSettings(queueSize, policy, warmup, flush, teardown))
  }

  /** global_func_set_error_handler: the line value names a registered error handler. */
  function ResolveErrorHandler(config: GlobalConfig, t: Tables): (r: Result<Callback, Error>)
    ensures r.Ok? <==> config.value in t.errorHandlers
    ensures r.Ok? ==> r.value == t.errorHandlers[config.value]
    ensures r.Err? ==> r.error == UnknownErrorHandler(config.value)
  {
    if config.value in t.errorHandlers then Ok(t.errorHandlers[config.value])
    else Err(UnknownErrorHandler(config.value))
  }

  /** call_global_func: None when the name is not registered, which the source silently skips. */
  function CallGlobalFunc(t: Tables, name: string, config: GlobalConfig): (r: Result<Option<GlobalAction>, Error>)
    ensures name !in t.globalFunctions ==> r == Ok(None)
    ensures name in t.globalFunctions ==> r != Ok(None)
    ensures r.Ok? && r.value.Some? && r.value.value.SetGlobalPattern? ==> r.value.value.pattern == config.value
    ensures name in t.globalFunctions && t.globalFunctions[name].SetAsync? ==>
      var s := ResolveSetAsync(config, t);
      && (r.Ok? <==> s.Ok?)
      && (s.Ok? ==> r.value == Some(SetAsyncMode(s.value)))
      && (s.Err? ==> r.error == s.error)
    ensures name in t.globalFunctions && t.globalFunctions[name].SetPattern? ==>
      r == Ok(Some(SetGlobalPattern(config.value)))
    ensures name in t.globalFunctions && t.globalFunctions[name].SetErrorHandler? ==>
      && (r.Ok? <==> config.value in t.errorHandlers)
      && (r.Ok? ==> r.value == Some(SetGlobalErrorHandler(t.errorHandlers[config.value])))
      && (r.Err? ==> r.error == UnknownErrorHandler(config.value))
    ensures name in t.globalFunctions && t.globalFunctions[name].CustomGlobal? ==>
      r == Ok(Some(CallCustomGlobal(t.globalFunctions[name].f, config)))
  {
    if name !in t.globalFunctions then Ok(None)
    else
      match t.globalFunctions[name]
      case SetAsync =>
        (match ResolveSetAsync(config, t)
         case Err(e) => Err(e)
         case Ok(s) => Ok(Some(SetAsyncMode(s))))
      case SetPattern => Ok(Some(SetGlobalPattern(config.value)))
      case SetErrorHandler =>
        (match ResolveErrorHandler(config, t)
         case Err(e) => Err(e)
         case Ok(h) => Ok(Some(SetGlobalErrorHandler(h))))
      case CustomGlobal(f) => Ok(Some(CallCustomGlobal(f, config)))
  }

  /** make_sink: the factory registered under the sink type, called with the sink's configuration. */
  function MakeSink(factories: map<string, SinkFactory>, config: SinkConfig): (r: Result<Sink, Error>)
    ensures r.Ok? <==> config.sinkType in factories
    ensures r.Ok? ==> r.value.factory == factories[config.sinkType] && r.value.config == config
    ensures r.Err? ==> r.error == UnknownSinkType(config.sinkType)
  {
    if config.sinkType in factories then Ok(Sink(factories[config.sinkType], config))
    else Err(UnknownSinkType(config.sinkType))
  }

  // ---------------------------------------------------------------------------
  // Properties

  /** Registering under a name that is already taken replaces the earlier registration. */
  lemma RegisterLastWins(r: map<string, Callback>, name: string, f: Callback, g: Callback, other: string)
    requires other != name
    ensures FindCallback(r[name := f][name := g], name) == Some(g)
    ensures FindCallback(r[name := f], other) == FindCallback(r, other)
  {
  }

  /** Every built-in sink name of the corrected registry builds the sink it names. */
  lemma DefaultSinkFactoriesNamed()
    ensures forall name :: name in DefaultSinkFactories ==> FactoryName(DefaultSinkFactories[name]) == Some(name)
  {
  }

  /** The registry as written builds a stdout sink for both stderr names, and agrees on every other name. */
  lemma SinkFactoriesAsWrittenStderr()
    ensures SinkFactoriesAsWritten["stderr_sink_st"] == StdoutSink(false)
    ensures FactoryName(SinkFactoriesAsWritten["stderr_sink_mt"]) == Some("stdout_sink_mt")
    ensures SinkFactoriesAsWritten.Keys == DefaultSinkFactories.Keys
    ensures forall name :: (name in SinkFactoriesAsWritten && name != "stderr_sink_st" && name != "stderr_sink_mt"
      ==> SinkFactoriesAsWritten[name] == DefaultSinkFactories[name])
  {
  }

  /** set_async with nothing but a queue size: block_retry, null callbacks and a zero flush interval. */
  lemma SetAsyncDefaults(n: nat, attributes: AttributeMap, t: Tables)
    requires Setting(attributes, "overflow_policy").None? && Setting(attributes, "worker_warmup_cb").None?
    requires Setting(attributes, "flush_interval_ms").None? && Setting(attributes, "worker_teardown_cb").None?
    ensures ResolveSetAsync(GlobalConfig(Decimal(n), attributes), t) == Ok(AsyncSettings(n, BlockRetry, None, 0, None))
  {
    ParseUnsignedDecimal(n, []);
    assert Decimal(n) + [] == Decimal(n);
  }

  /** A queue size that is not a number fails before any attribute is looked at. */
  lemma SetAsyncBadQueueSize(config: GlobalConfig, t: Tables)
    requires config.value == [] || !IsDigit(config.value[0])
    ensures ResolveSetAsync(config, t) == Err(InvalidNumber(config.value))
  {
  }

  /** An overflow policy that is set but unknown is an error; callbacks with unknown names are merely null. */
  lemma SetAsyncPolicyAndCallbacks(config: GlobalConfig, t: Tables)
    requires ParseUnsigned(config.value).Some?
    ensures var p := Setting(config.attributes, "overflow_policy");
      p.Some? && p.value != "block_retry" && p.value != "discard_log_msg" ==>
        ResolveSetAsync(config, t) == Err(UnknownOverflowPolicy(p.value))
    ensures ResolveSetAsync(config, t).Ok? ==>
      var w := Setting(config.attributes, "worker_warmup_cb");
      ResolveSetAsync(config, t).value.warmup == (if w.Some? && w.value in t.warmups then Some(t.warmups[w.value]) else None)
    ensures ResolveSetAsync(config, t).Ok? ==>
      var w := Setting(config.attributes, "worker_teardown_cb");
      ResolveSetAsync(config, t).value.teardown == (if w.Some? && w.value in t.teardowns then Some(t.teardowns[w.value]) else None)
  {
  }
}

=== FILE: rotating_sink.dfy ===
/**
 * `daily_rotating_file_sink` (include/spdlog/sinks/daily_rotating_file_sink.h): a file sink that switches to
 * a newly named file at a configurable time of day and period, and in between shifts numbered generations
 * of the current file when it grows over a maximum size. Times are whole seconds since the epoch; `dayStart`
 * is the local midnight of the current day, as `localtime` and `mktime` give it.
 */
module RotatingSink {
  import opened Wrappers
  import opened Errors
  import opened DailyFiles

  // ---------------------------------------------------------------------------
  // _next_rotation_tp

  /** Today at the rotation hour and minute, zero seconds. */
  function RotationTime(dayStart: int, hour: int, minute: int): int {
    dayStart + hour * 3600 + minute * 60
  }

  function Period(periodHours: int, periodMinutes: int): int {
    periodHours * 3600 + periodMinutes * 60
  }

  /** `_next_rotation_tp` as written: today's rotation time if it is still ahead, else that time plus one period. */
  function NextRotationAsWritten(now: int, dayStart: int, hour: int, minute: int, periodHours: int, periodMinutes: int): int {
    var candidate := RotationTime(dayStart, hour, minute);
    if candidate > now then candidate else candidate + Period(periodHours, periodMinutes)
  }

  /**
   * `_next_rotation_tp` as intended: the first instant after now of the series that starts at today's
   * rotation time and advances by whole periods. A period that is not positive cannot advance the series,
   * and the time is then computed as written.
   */
  function NextRotation(now: int, dayStart: int, hour: int, minute: int, periodHours: int, periodMinutes: int): int {
    var candidate := RotationTime(dayStart, hour, minute);
    var period := Period(periodHours, periodMinutes);
    if candidate > now || period <= 0 then NextRotationAsWritten(now, dayStart, hour, minute, periodHours, periodMinutes)
    else candidate + ((now - candidate) / period + 1) * period
  }

  /** The m-th instant of the rotation series that starts at `candidate`. */
  function SeriesAt(candidate: int, period: int, m: nat): int {
    candidate + m * period
  }

  /**
   * With a positive period the next rotation time is after now, lies on the series that starts at today's
   * rotation time, and is the first instant of that series after now.
   */
  lemma NextRotationAfterNow(now: int, dayStart: int, hour: int, minute: int, periodHours: int, periodMinutes: int)
    requires Period(periodHours, periodMinutes) > 0
    ensures var r, candidate, period := NextRotation(now, dayStart, hour, minute, periodHours, periodMinutes),
                                        RotationTime(dayStart, hour, minute), Period(periodHours, periodMinutes);
      && r > now
      && (candidate > now ==> r == candidate)
      && (candidate <= now ==> r - period <= now && exists m: nat :: r == SeriesAt(candidate, period, m))
  {
    var candidate, period := RotationTime(dayStart, hour, minute), Period(periodHours, periodMinutes);
    if candidate <= now {
      var q := (now - candidate) / period;
      assert q >= 0;
      assert now - candidate == q * period + (now - candidate) % period;
      assert NextRotation(now, dayStart, hour, minute, periodHours, periodMinutes) == SeriesAt(candidate, period, q + 1);
      assert (q + 1) * period == q * period + period;
    }
  }

  /**
   * For a period of at least a day, and a valid rotation time, both versions agree; in particular with the
   * default period of 24 hours the time computed as written is after now.
   */
  lemma NextRotationAgrees(now: int, dayStart: int, hour: int, minute: int, periodHours: int, periodMinutes: int)
    requires 0 <= hour <= 23 && 0 <= minute <= 59
    requires dayStart <= now < dayStart + 86400
    requires Period(periodHours, periodMinutes) >= 86400
    ensures NextRotation(now, dayStart, hour, minute, periodHours, periodMinutes)
      == NextRotationAsWritten(now, dayStart, hour, minute, periodHours, periodMinutes)
    ensures NextRotationAsWritten(now, dayStart, hour, minute, periodHours, periodMinutes) > now
  {
    var candidate, period := RotationTime(dayStart, hour, minute), Period(periodHours, periodMinutes);
    if candidate <= now {
      assert 0 <= now - candidate < period;
      assert (now - candidate) / period == 0;
    }
  }

  /**
   * As written, a period shorter than a day can give a rotation time that has already passed: with the
   * rotation at 22:00, a 30-minute period and the clock at 23:00, the next rotation time is 22:30 of the
   * same day, so the next message switches files again. The intended time is 23:30.
   */
  lemma NextRotationAsWrittenInPast()
    ensures NextRotationAsWritten(82800, 0, 22, 0, 0, 30) == 81000 < 82800
    ensures NextRotation(82800, 0, 22, 0, 0, 30) == 84600
  {
  }

  /**
   * The window of past rotation times closes at local midnight: at 00:10 of the next day, that day's
   * 22:00 is ahead again, so the time computed as written is in the future until 22:30 comes round.
   */
  lemma NextRotationAsWrittenAfterMidnight()
    ensures NextRotationAsWritten(87000, 86400, 22, 0, 0, 30) == 165600 > 87000
  {
  }

  // ---------------------------------------------------------------------------
  // _rotate: the list of renames

  /** The generation at which the enumeration loop of _rotate stops when it is at generation i. */
  function ChainFrom(files: Files, filename: string, maxFiles: nat, i: nat): (n: nat)
    requires 1 <= i <= maxFiles + 1
    ensures i <= n <= maxFiles + 1
    decreases maxFiles + 1 - i
  {
    if CalcFilename(filename, i) in files && i <= maxFiles then ChainFrom(files, filename, maxFiles, i + 1) else i
  }

  /** The renames (generation k to generation k + 1) for k below n. */
  function Chain(filename: string, n: nat): (r: seq<(string, string)>)
    ensures |r| == n
  {
    seq(n, k requires 0 <= k < n => (CalcFilename(filename, k), CalcFilename(filename, k + 1)))
  }

  /** The rename list _rotate builds: one entry per existing generation from 1 up, the first entry always. */
  function RotationList(files: Files, filename: string, maxFiles: nat): seq<(string, string)> {
    Chain(filename, ChainFrom(files, filename, maxFiles, 1))
  }

  /**
   * The enumeration stops at the first generation n from i that is missing or above max_files: every
   * generation from i below n exists and is within max_files.
   */
  lemma {:induction false} ChainFromSpec(files: Files, filename: string, maxFiles: nat, i: nat)
    requires 1 <= i <= maxFiles + 1
    ensures var n := ChainFrom(files, filename, maxFiles, i);
      && (forall j :: i <= j < n ==> CalcFilename(filename, j) in files)
      && (n <= maxFiles ==> CalcFilename(filename, n) !in files)
    decreases maxFiles + 1 - i
  {
    if CalcFilename(filename, i) in files && i <= maxFiles {
      ChainFromSpec(files, filename, maxFiles, i + 1);
    }
  }

  /** The list starts with the move of generation 0, is consecutive, and has at most max_files + 1 entries. */
  lemma RotationListShape(files: Files, filename: string, maxFiles: nat)
    ensures var list := RotationList(files, filename, maxFiles);
      && 1 <= |list| <= maxFiles + 1
      && list[0] == (filename, CalcFilename(filename, 1))
      && (forall k :: 0 <= k < |list| ==> list[k] == (CalcFilename(filename, k), CalcFilename(filename, k + 1)))
      && (forall k :: 1 <= k < |list| ==> CalcFilename(filename, k) in files)
      && (|list| <= maxFiles ==> CalcFilename(filename, |list|) !in files)
  {
    ChainFromSpec(files, filename, maxFiles, 1);
  }

  // ---------------------------------------------------------------------------
  // _rotate: removing, renaming, reopening

  /** The removal loop: the source of every entry from position p on is removed; a failed removal throws. */
  function RemoveFrom(files: Files, failing: set<string>, list: seq<(string, string)>, p: nat): FsRun
    decreases |list| - p
  {
    if p >= |list| then FsRun(files, None)
    else if CanRemove(files, failing, list[p].0) then RemoveFrom(files - {list[p].0}, failing, list, p + 1)
    else FsRun(files, Some(FailedRemoving(list[p].0)))
  }

  /** The rename loop, over entries k - 1 down to 0: an existing source is renamed; a failed rename throws. */
  function RenameDown(files: Files, failing: set<string>, list: seq<(string, string)>, k: nat): FsRun
    requires k <= |list|
    decreases k
  {
    if k == 0 then FsRun(files, None)
    else
      var source, target := list[k - 1].0, list[k - 1].1;
      if source !in files then RenameDown(files, failing, list, k - 1)
      else if source in failing then FsRun(files, Some(FailedRenaming(source, target)))
      else RenameDown(Moved(files, source, target), failing, list, k - 1)
  }

  function Min(a: nat, b: nat): nat {
    if a < b then a else b
  }

  /** What _rotate does to the files, and the exception it throws, if any. */
  function RotateSpec(files: Files, failing: set<string>, filename: string, maxFiles: nat): FsRun {
    var list := RotationList(files, filename, maxFiles);
    var kept := Min(|list|, maxFiles);
    var removed := RemoveFrom(files, failing, list, kept);
    if removed.failure.Some? then removed
    else
      var renamed := RenameDown(removed.files, failing, list[..kept], kept);
      if renamed.failure.Some? then renamed
      else FsRun(Truncated(renamed.files, CalcFilename(filename, 0)), None)
  }

  /**
   * The removal loop removes at most one file: generation max_files, and only when the list reached it.
   * Generation max_files then exists unless it is generation 0.
   */
  lemma RemovalSpec(files: Files, failing: set<string>, filename: string, maxFiles: nat)
    ensures var list := RotationList(files, filename, maxFiles);
      var removed := RemoveFrom(files, failing, list, Min(|list|, maxFiles));
      var last := CalcFilename(filename, maxFiles);
      && (|list| <= maxFiles ==> removed == FsRun(files, None))
      && (|list| > maxFiles && CanRemove(files, failing, last) ==> removed == FsRun(files - {last}, None))
      && (|list| > maxFiles && !CanRemove(files, failing, last) ==> removed == FsRun(files, Some(FailedRemoving(last))))
      && (|list| > maxFiles && maxFiles > 0 ==> last in files)
  {
    var list := RotationList(files, filename, maxFiles);
    RotationListShape(files, filename, maxFiles);
    if |list| > maxFiles {
      var last := CalcFilename(filename, maxFiles);
      assert list[maxFiles].0 == last;
      if CanRemove(files, failing, last) {
        assert RemoveFrom(files - {last}, failing, list, maxFiles + 1) == FsRun(files - {last}, None);
      }
    }
  }

  /**
   * The rename loop over generations k - 1 down to 0, started with generation k missing, fails on the
   * highest existing generation below k that cannot be renamed, and on nothing else.
   */
  lemma {:induction false} RenameDownFailure(files: Files, failing: set<string>, filename: string, n: nat, k: nat)
    requires k <= n && CalcFilename(filename, k) !in files
    ensures RenameDown(files, failing, Chain(filename, n), k).failure == RenameFailure(files, failing, filename, k)
    decreases k
  {
    if k > 0 {
      var list := Chain(filename, n);
      var source, target := CalcFilename(filename, k - 1), CalcFilename(filename, k);
      assert list[k - 1] == (source, target);
      if source !in files {
        RenameDownSkip(files, failing, list, k);
        RenameDownFailure(files, failing, filename, n, k - 1);
        assert !BlockedAt(files, failing, filename, k - 1);
      } else if source !in failing {
        RenameDownMove(files, failing, list, k);
        var moved := Moved(files, source, target);
        RenameDownFailure(moved, failing, filename, n, k - 1);
        MoveFailureSame(files, moved, failing, filename, k);
      }
    }
  }

  /**
   * When that loop succeeds, generation j holds what generation j - 1 held for j from 1 to k, generation 0
   * is gone, and every other path is untouched.
   */
  lemma {:induction false} RenameDownShift(files: Files, failing: set<string>, filename: string, n: nat, k: nat)
    requires k <= n && CalcFilename(filename, k) !in files
    ensures var r := RenameDown(files, failing, Chain(filename, n), k);
      r.failure.None? ==> Shifted(r.files, files, filename, k)
    decreases k, 1
  {
    if k == 0 {
      assert Shifted(files, files, filename, 0);
    } else if CalcFilename(filename, k - 1) !in files {
      ShiftSkipCase(files, failing, filename, n, k);
    } else if CalcFilename(filename, k - 1) !in failing {
      ShiftMoveCase(files, failing, filename, n, k);
    } else {
      assert Chain(filename, n)[k - 1].0 == CalcFilename(filename, k - 1);
    }
  }

  /** The step of RenameDownShift that skips the missing generation k - 1. */
  lemma {:induction false} ShiftSkipCase(files: Files, failing: set<string>, filename: string, n: nat, k: nat)
    requires 0 < k <= n && CalcFilename(filename, k) !in files && CalcFilename(filename, k - 1) !in files
    ensures var r := RenameDown(files, failing, Chain(filename, n), k);
      r.failure.None? ==> Shifted(r.files, files, filename, k)
    decreases k, 0
  {
    var list := Chain(filename, n);
    assert list[k - 1].0 == CalcFilename(filename, k - 1);
    RenameDownSkip(files, failing, list, k);
    RenameDownShift(files, failing, filename, n, k - 1);
    var r := RenameDown(files, failing, list, k - 1);
    if r.failure.None? {
      SkipShift(r.files, files, filename, k);
    }
  }

  /** The step of RenameDownShift that moves the existing generation k - 1 onto generation k. */
  lemma {:induction false} ShiftMoveCase(files: Files, failing: set<string>, filename: string, n: nat, k: nat)
    requires 0 < k <= n && CalcFilename(filename, k) !in files
    requires CalcFilename(filename, k - 1) in files && CalcFilename(filename, k - 1) !in failing
    ensures var r := RenameDown(files, failing, Chain(filename, n), k);
      r.failure.None? ==> Shifted(r.files, files, filename, k)
    decreases k, 0
  {
    var list := Chain(filename, n);
    var source, target := CalcFilename(filename, k - 1), CalcFilename(filename, k);
    assert list[k - 1] == (source, target);
    RenameDownMove(files, failing, list, k);
    var moved := Moved(files, source, target);
    RenameDownShift(moved, failing, filename, n, k - 1);
    var r := RenameDown(moved, failing, list, k - 1);
    if r.failure.None? {
      MoveShift(r.files, moved, files, filename, k);
    }
  }

  /** One step of the rename loop on a missing source. */
  lemma RenameDownSkip(files: Files, failing: set<string>, list: seq<(string, string)>, k: nat)
    requires 0 < k <= |list| && list[k - 1].0 !in files
    ensures RenameDown(files, failing, list, k) == RenameDown(files, failing, list, k - 1)
  {
  }

  /** One step of the rename loop on a source that can be renamed. */
  lemma RenameDownMove(files: Files, failing: set<string>, list: seq<(string, string)>, k: nat)
    requires 0 < k <= |list| && list[k - 1].0 in files && list[k - 1].0 !in failing
    ensures RenameDown(files, failing, list, k) == RenameDown(Moved(files, list[k - 1].0, list[k - 1].1), failing, list, k - 1)
  {
  }

  /**
   * A successful _rotate shifts every generation that the kept list covers up by one, leaves generation 0
   * empty and every other file untouched.
   */
  lemma RotateSucceeds(files: Files, failing: set<string>, filename: string, maxFiles: nat)
    requires RotateSpec(files, failing, filename, maxFiles).failure.None?
    ensures var r, kept := RotateSpec(files, failing, filename, maxFiles).files, Min(|RotationList(files, filename, maxFiles)|, maxFiles);
      && Gen(r, filename, 0) == Some([])
      && (forall j :: 1 <= j <= kept ==> Gen(r, filename, j) == Gen(files, filename, j - 1))
      && UnchangedOutside(r, files, ChainPaths(filename, kept))
  {
    var list := RotationList(files, filename, maxFiles);
    var kept := Min(|list|, maxFiles);
    RemovalSpec(files, failing, filename, maxFiles);
    RotationListShape(files, filename, maxFiles);
    var removed := RemoveFrom(files, failing, list, kept).files;
    RemovedOnlyLast(files, removed, filename, |list|, maxFiles);
    assert list[..kept] == Chain(filename, kept);
    RenameDownShift(removed, failing, filename, kept, kept);
    var renamed := RenameDown(removed, failing, list[..kept], kept).files;
    ShiftedThenTruncated(renamed, removed, files, filename, kept);
  }

  /** The removal phase leaves generation `kept` missing and changes nothing below it. */
  lemma RemovedOnlyLast(files: Files, removed: Files, filename: string, n: nat, maxFiles: nat)
    requires 1 <= n <= maxFiles + 1
    requires n <= maxFiles ==> removed == files && CalcFilename(filename, n) !in files
    requires n > maxFiles ==> removed == files - {CalcFilename(filename, maxFiles)}
    ensures CalcFilename(filename, Min(n, maxFiles)) !in removed
    ensures forall j :: 0 <= j < Min(n, maxFiles) ==> Gen(removed, filename, j) == Gen(files, filename, j)
    ensures UnchangedOutside(removed, files, ChainPaths(filename, Min(n, maxFiles)))
  {
    var kept := Min(n, maxFiles);
    if n > maxFiles {
      forall j | 0 <= j < kept
        ensures Gen(removed, filename, j) == Gen(files, filename, j)
      {
        if CalcFilename(filename, j) == CalcFilename(filename, maxFiles) { CalcFilenameInjective(filename, j, maxFiles); }
      }
      assert CalcFilename(filename, kept) in ChainPaths(filename, kept);
    }
  }

  lemma ShiftedThenTruncated(renamed: Files, removed: Files, files: Files, filename: string, kept: nat)
    requires CalcFilename(filename, kept) !in removed
    requires forall j :: 0 <= j < kept ==> Gen(removed, filename, j) == Gen(files, filename, j)
    requires UnchangedOutside(removed, files, ChainPaths(filename, kept))
    requires Shifted(renamed, removed, filename, kept)
    ensures var r := Truncated(renamed, CalcFilename(filename, 0));
      && Gen(r, filename, 0) == Some([])
      && (forall j :: 1 <= j <= kept ==> Gen(r, filename, j) == Gen(files, filename, j - 1))
      && UnchangedOutside(r, files, ChainPaths(filename, kept))
  {
    var r := Truncated(renamed, CalcFilename(filename, 0));
    forall j | 1 <= j <= kept
      ensures Gen(r, filename, j) == Gen(files, filename, j - 1)
    {
      if CalcFilename(filename, j) == CalcFilename(filename, 0) { CalcFilenameInjective(filename, j, 0); }
      assert Gen(r, filename, j) == Gen(renamed, filename, j);
    }
    assert CalcFilename(filename, 0) in ChainPaths(filename, kept);
  }

  /**
   * _rotate throws exactly when the removal of generation max_files fails, or else when some kept generation
   * exists and cannot be renamed; it then names the highest such generation.
   */
  lemma RotateFailure(files: Files, failing: set<string>, filename: string, maxFiles: nat)
    ensures var n, last := |RotationList(files, filename, maxFiles)|, CalcFilename(filename, maxFiles);
      RotateSpec(files, failing, filename, maxFiles).failure
        == if n > maxFiles && !CanRemove(files, failing, last) then Some(FailedRemoving(last))
           else RenameFailure(files, failing, filename, Min(n, maxFiles))
  {
    var list := RotationList(files, filename, maxFiles);
    var kept := Min(|list|, maxFiles);
    RemovalSpec(files, failing, filename, maxFiles);
    RotationListShape(files, filename, maxFiles);
    var removed := RemoveFrom(files, failing, list, kept);
    if removed.failure.None? {
      RemovedOnlyLast(files, removed.files, filename, |list|, maxFiles);
      assert list[..kept] == Chain(filename, kept);
      RenameDownFailure(removed.files, failing, filename, kept, kept);
      SameGenerations(removed.files, files, filename, kept);
      HighestBlockedSame(removed.files, files, failing, filename, kept);
    }
  }

  /** Every rename of the rename loop lands on a missing file: nothing is overwritten. */
  lemma {:induction false} RenamesOntoMissing(files: Files, failing: set<string>, filename: string, n: nat, k: nat)
    requires k <= n && CalcFilename(filename, k) !in files
    ensures NoOverwrite(files, failing, Chain(filename, n), k)
    decreases k
  {
    var list := Chain(filename, n);
    if k > 0 {
      var source, target := CalcFilename(filename, k - 1), CalcFilename(filename, k);
      assert list[k - 1] == (source, target);
      if source in files && source !in failing {
        MoveKeeps(files, filename, k);
        RenamesOntoMissing(Moved(files, source, target), failing, filename, n, k - 1);
      } else if source !in files {
        RenamesOntoMissing(files, failing, filename, n, k - 1);
      }
    }
  }

  /** Each rename the loop performs has a target that does not exist at that moment. */
  predicate NoOverwrite(files: Files, failing: set<string>, list: seq<(string, string)>, k: nat)
    requires k <= |list|
    decreases k
  {
    if k == 0 then true
    else
      var source, target := list[k - 1].0, list[k - 1].1;
      if source !in files then NoOverwrite(files, failing, list, k - 1)
      else if source in failing then true
      else target !in files && NoOverwrite(Moved(files, source, target), failing, list, k - 1)
  }

  /** In _rotate, no rename overwrites a file. */
  lemma RotateNoOverwrite(files: Files, failing: set<string>, filename: string, maxFiles: nat)
    ensures var list := RotationList(files, filename, maxFiles);
      var kept := Min(|list|, maxFiles);
      var removed := RemoveFrom(files, failing, list, kept);
      removed.failure.None? ==> NoOverwrite(removed.files, failing, list[..kept], kept)
  {
    var list := RotationList(files, filename, maxFiles);
    var kept := Min(|list|, maxFiles);
    RemovalSpec(files, failing, filename, maxFiles);
    RotationListShape(files, filename, maxFiles);
    var removed := RemoveFrom(files, failing, list, kept);
    if removed.failure.None? {
      RemovedOnlyLast(files, removed.files, filename, |list|, maxFiles);
      assert list[..kept] == Chain(filename, kept);
      RenamesOntoMissing(removed.files, failing, filename, kept, kept);
    }
  }

  // ---------------------------------------------------------------------------
  // The sink

  class DailyRotatingFileSink {
    const baseFilename: string
    var currentBaseFilename: string
    const maxSize: nat
    const maxFiles: nat
    var currentSize: nat
    const rotationH: int
    const rotationM: int
    const rotationPeriodHours: int
    const rotationPeriodMinutes: int
    var rotationTp: int

    /** The rotation time the constructor accepted. */
    predicate Valid()
      reads this
    {
      0 <= rotationH <= 23 && 0 <= rotationM <= 59
    }

    /**
     * The constructor after its check of the rotation time: `dated` is the name the file name calculator
     * gives the base name today. The current file is opened and the size counter starts at its length.
     */
    constructor Init(fs: FileSystem, baseFilename: string, maxSize: nat, maxFiles: nat, rotationHour: int, rotationMinute: int,
                     rotationPeriodHours: int, rotationPeriodMinutes: int, now: int, dayStart: int, dated: string)
      requires 0 <= rotationHour <= 23 && 0 <= rotationMinute <= 59
      modifies fs
      ensures Valid()
      ensures this.baseFilename == baseFilename && currentBaseFilename == dated
      ensures this.maxSize == maxSize && this.maxFiles == maxFiles
      ensures rotationH == rotationHour && rotationM == rotationMinute
      ensures this.rotationPeriodHours == rotationPeriodHours && this.rotationPeriodMinutes == rotationPeriodMinutes
      ensures rotationTp == NextRotationAsWritten(now, dayStart, rotationHour, rotationMinute, rotationPeriodHours, rotationPeriodMinutes)
      ensures fs.files == Opened(old(fs.files), dated)
      ensures currentSize == |fs.files[dated]|
    {
      this.baseFilename := baseFilename;
      currentBaseFilename := dated;
      this.maxSize := maxSize;
      this.maxFiles := maxFiles;
      rotationH := rotationHour;
      rotationM := rotationMinute;
      this.rotationPeriodHours := rotationPeriodHours;
      this.rotationPeriodMinutes := rotationPeriodMinutes;
      new;
      rotationTp := NextRotationAsWritten(now, dayStart, rotationH, rotationM, rotationPeriodHours, rotationPeriodMinutes);
      fs.Open(CalcFilename(currentBaseFilename, 0));
      currentSize := |fs.files[currentBaseFilename]|;
    }

    /** The constructor, which throws on a rotation hour outside 0..23 or a minute outside 0..59. */
    static method Create(fs: FileSystem, baseFilename: string, maxSize: nat, maxFiles: nat, rotationHour: int, rotationMinute: int,
                         rotationPeriodHours: int, rotationPeriodMinutes: int, now: int, dayStart: int, dated: string)
      returns (r: Result<DailyRotatingFileSink, Error>)
      modifies fs
      ensures r.Err? <==> !(0 <= rotationHour <= 23 && 0 <= rotationMinute <= 59)
      ensures r.Err? ==> r.error == InvalidRotationTime && fs.files == old(fs.files)
      ensures r.Ok? ==> (fresh(r.value) && r.value.Valid()
        && r.value.baseFilename == baseFilename && r.value.currentBaseFilename == dated
        && r.value.maxSize == maxSize && r.value.maxFiles == maxFiles
        && r.value.rotationH == rotationHour && r.value.rotationM == rotationMinute
        && r.value.rotationPeriodHours == rotationPeriodHours && r.value.rotationPeriodMinutes == rotationPeriodMinutes
        && r.value.rotationTp == NextRotationAsWritten(now, dayStart, rotationHour, rotationMinute, rotationPeriodHours, rotationPeriodMinutes)
        && fs.files == Opened(old(fs.files), dated) && r.value.currentSize == |fs.files[dated]|)
    {
      if rotationHour < 0 || rotationHour > 23 || rotationMinute < 0 || rotationMinute > 59 {
        return Err(InvalidRotationTime);
      }
      var sink := new DailyRotatingFileSink.Init(fs, baseFilename, maxSize, maxFiles, rotationHour, rotationMinute,
                                                 rotationPeriodHours, rotationPeriodMinutes, now, dayStart, dated);
      return Ok(sink);
    }

    /**
     * `_sink_it`: writes one formatted message, after switching to today's file when the rotation time has
     * come, or else after shifting generations when the size counter is over the maximum. A failed shift
     * throws before the message is written, with the size counter already increased.
     */
    method SinkIt(fs: FileSystem, msg: string, now: int, dayStart: int, dated: string) returns (r: Outcome<Error>)
      requires Valid()
      modifies this, fs
      ensures Valid()
      ensures var decision := Decide(now, old(rotationTp), old(currentSize) + |msg|, maxSize);
        match decision
        case ByTime =>
          && r == Pass && currentBaseFilename == dated && currentSize == |msg|
          && rotationTp == NextRotationAsWritten(now, dayStart, rotationH, rotationM, rotationPeriodHours, rotationPeriodMinutes)
          && fs.files == Appended(Opened(old(fs.files), dated), dated, msg)
        case BySize =>
          var run := RotateSpec(old(fs.files), fs.failing, old(currentBaseFilename), maxFiles);
          && currentBaseFilename == old(currentBaseFilename) && rotationTp == old(rotationTp)
          && (run.failure.None? ==> r == Pass && currentSize == |msg| && fs.files == Appended(run.files, currentBaseFilename, msg))
          && (run.failure.Some? ==> r == Fail(run.failure.value) && currentSize == old(currentSize) + |msg| && fs.files == run.files)
        case NoRotation =>
          && r == Pass && currentBaseFilename == old(currentBaseFilename) && rotationTp == old(rotationTp)
          && currentSize == old(currentSize) + |msg| && fs.files == Appended(old(fs.files), currentBaseFilename, msg)
    {
      currentSize := currentSize + |msg|;
      if now >= rotationTp {
        currentBaseFilename := CalcFilename(dated, 0);
        fs.Open(currentBaseFilename);
        rotationTp := NextRotationAsWritten(now, dayStart, rotationH, rotationM, rotationPeriodHours, rotationPeriodMinutes);
        currentSize := |msg|;
      } else if currentSize > maxSize {
        var rotated := Rotate(fs);
        if rotated.Fail? {
          return rotated;
        }
        currentSize := |msg|;
      }
      fs.Write(currentBaseFilename, msg);
      return Pass;
    }

    /** The lambda of _rotate that lists the renames. */
    method ListRotations(fs: FileSystem) returns (result: seq<(string, string)>)
      ensures result == RotationList(fs.files, currentBaseFilename, maxFiles)
    {
      var src := CalcFilename(currentBaseFilename, 0);
      var target := CalcFilename(currentBaseFilename, 1);
      result := [(src, target)];
      var i: nat := 1;
      while fs.Exists(target) && i <= maxFiles
        invariant 1 <= i <= maxFiles + 1
        invariant target == CalcFilename(currentBaseFilename, i)
        invariant result == Chain(currentBaseFilename, i)
        invariant ChainFrom(fs.files, currentBaseFilename, maxFiles, i) == ChainFrom(fs.files, currentBaseFilename, maxFiles, 1)
        decreases maxFiles + 1 - i
      {
        src := CalcFilename(currentBaseFilename, i);
        i := i + 1;
        target := CalcFilename(currentBaseFilename, i);
        result := result + [(src, target)];
      }
    }

    /** `_rotate`: lists the renames, removes the sources past max_files, renames the rest from the top, and empties generation 0. */
    method Rotate(fs: FileSystem) returns (r: Outcome<Error>)
      modifies fs
      ensures var run := RotateSpec(old(fs.files), fs.failing, currentBaseFilename, maxFiles);
        && fs.files == run.files
        && (run.failure.None? ==> r == Pass)
        && (run.failure.Some? ==> r == Fail(run.failure.value))
    {
      var files := ListRotations(fs);
      var kept := Min(|files|, maxFiles);
      var p := kept;
      while p < |files|
        invariant kept <= p <= |files|
        invariant RemoveFrom(fs.files, fs.failing, files, p) == RemoveFrom(old(fs.files), fs.failing, files, kept)
      {
        var ok := fs.Remove(files[p].0);
        if !ok {
          return Fail(FailedRemoving(files[p].0));
        }
        p := p + 1;
      }
      ghost var removed := fs.files;
      files := files[..kept];
      var k: nat := |files|;
      while k > 0
        invariant k <= |files|
        invariant RenameDown(fs.files, fs.failing, files, k) == RenameDown(removed, fs.failing, files, |files|)
      {
        var source, target := files[k - 1].0, files[k - 1].1;
        if fs.Exists(source) {
          var ok := fs.Rename(source, target);
          if !ok {
            return Fail(FailedRenaming(source, target));
          }
        }
        k := k - 1;
      }
      fs.Truncate(CalcFilename(currentBaseFilename, 0));
      return Pass;
    }
  }
}

=== FILE: sorted_map.dfy ===
/**
 * A std::map<std::string, V> as the configuration class uses it: an association list kept in ascending
 * key order (so that iterating over it visits the keys in std::string order), searched with `find` and
 * extended with `emplace`, which leaves an existing entry in place.
 */
module SortedMap {
  import opened Wrappers
  import opened Strings

  type Entries<V> = seq<(string, V)>

  /** Strictly ascending keys: the iteration order of a std::map, and no key twice. */
  predicate Sorted<V>(m: Entries<V>) {
    forall i, j :: 0 <= i < j < |m| ==> StrLess(m[i].0, m[j].0)
  }

  function Keys<V>(m: Entries<V>): set<string> {
    set i | 0 <= i < |m| :: m[i].0
  }

  /** std::map::find: the value stored under k, if any. */
  function Find<V>(m: Entries<V>, k: string): (r: Option<V>)
    ensures r.Some? <==> k in Keys(m)
    ensures r.Some? ==> exists i :: 0 <= i < |m| && m[i] == (k, r.value)
  {
    if m == [] then None
    else if m[0].0 == k then Some(m[0].1)
    else
      var r := Find(m[1..], k);
      KeysCons(m);
      assert r.Some? ==> exists i :: 0 <= i < |m| && m[i] == (k, r.value) by {
        if r.Some? {
          var i :| 0 <= i < |m[1..]| && m[1..][i] == (k, r.value);
          assert m[i + 1] == (k, r.value);
        }
      }
      r
  }

  lemma KeysCons<V>(m: Entries<V>)
    requires m != []
    ensures Keys(m) == {m[0].0} + Keys(m[1..])
  {
    forall x | x in Keys(m) ensures x in {m[0].0} + Keys(m[1..]) {
      var i :| 0 <= i < |m| && m[i].0 == x;
      if i > 0 { assert m[1..][i - 1].0 == x; }
    }
  }

  /** In a sorted list the entry at index i is the one Find returns for its key. */
  lemma {:induction false} FindAt<V>(m: Entries<V>, i: nat)
    requires Sorted(m) && i < |m|
    ensures Find(m, m[i].0) == Some(m[i].1)
  {
    if i > 0 {
      StrLessIrreflexive(m[0].0);
      assert StrLess(m[0].0, m[i].0);
      assert m[0].0 != m[i].0;
      FindAt(m[1..], i - 1);
    }
  }

  /**
   * std::map::emplace: inserts (k, v) at its place in the order when k is absent and changes nothing
   * when k is already present (see EmplaceKeepsFirst).
   */
  function Emplace<V>(m: Entries<V>, k: string, v: V): Entries<V> {
    if m == [] then [(k, v)]
    else if StrLess(k, m[0].0) then [(k, v)] + m
    else if k == m[0].0 then m
    else [m[0]] + Emplace(m[1..], k, v)
  }

  /** Emplace keeps the order strict and adds exactly the key k. */
  lemma {:induction false} EmplaceSorted<V>(m: Entries<V>, k: string, v: V)
    requires Sorted(m)
    ensures Sorted(Emplace(m, k, v))
    ensures Keys(Emplace(m, k, v)) == Keys(m) + {k}
  {
    if m == [] {
      assert Keys([(k, v)]) == {k} by { KeysCons([(k, v)]); }
    } else if StrLess(k, m[0].0) {
      EmplaceFront(m, k, v);
    } else if k == m[0].0 {
      KeysCons(m);
    } else {
      StrLessTotal(k, m[0].0);
      EmplaceSorted(m[1..], k, v);
      EmplaceLater(m, k, v);
    }
  }

  lemma EmplaceFront<V>(m: Entries<V>, k: string, v: V)
    requires Sorted(m) && m != [] && StrLess(k, m[0].0)
    ensures Sorted(Emplace(m, k, v))
    ensures Keys(Emplace(m, k, v)) == Keys(m) + {k}
  {
    var r := Emplace(m, k, v);
    assert r == [(k, v)] + m;
    forall j | 0 < j < |r| ensures StrLess(k, r[j].0) {
      if j > 1 { StrLessTransitive(k, m[0].0, m[j - 1].0); }
    }
    KeysCons(r);
    assert r[1..] == m;
  }

  /** The step past a smaller first key, given what emplacing into the rest yields. */
  lemma EmplaceLater<V>(m: Entries<V>, k: string, v: V)
    requires Sorted(m) && m != [] && StrLess(m[0].0, k)
    requires Sorted(Emplace(m[1..], k, v)) && Keys(Emplace(m[1..], k, v)) == Keys(m[1..]) + {k}
    ensures Sorted(Emplace(m, k, v))
    ensures Keys(Emplace(m, k, v)) == Keys(m) + {k}
  {
    StrLessIrreflexive(k);
    StrLessAsymmetric(m[0].0, k);
    var tail := Emplace(m[1..], k, v);
    assert Emplace(m, k, v) == [m[0]] + tail;
    KeysCons(m);
    KeysCons([m[0]] + tail);
    assert ([m[0]] + tail)[1..] == tail;
    AboveFirst(m, k, tail);
    SortedCons(m[0], tail);
  }

  /** Every key of the emplaced rest is above the first key. */
  lemma AboveFirst<V>(m: Entries<V>, k: string, tail: Entries<V>)
    requires Sorted(m) && m != [] && StrLess(m[0].0, k) && Keys(tail) == Keys(m[1..]) + {k}
    ensures forall j :: 0 <= j < |tail| ==> StrLess(m[0].0, tail[j].0)
  {
    forall j | 0 <= j < |tail| ensures StrLess(m[0].0, tail[j].0) {
      assert tail[j].0 in Keys(tail);
      if tail[j].0 != k {
        var i :| 0 <= i < |m[1..]| && m[1..][i].0 == tail[j].0;
        assert m[i + 1].0 == tail[j].0;
      }
    }
  }

  lemma SortedCons<V>(e: (string, V), tail: Entries<V>)
    requires Sorted(tail) && forall j :: 0 <= j < |tail| ==> StrLess(e.0, tail[j].0)
    ensures Sorted([e] + tail)
  {
    var r := [e] + tail;
    forall i, j | 0 <= i < j < |r| ensures StrLess(r[i].0, r[j].0) {
      assert r[j] == tail[j - 1];
      if i > 0 { assert r[i] == tail[i - 1]; }
    }
  }

  /**
   * The first entry stored under a key is the one that stays: emplacing an existing key changes
   * nothing, emplacing a new key makes it findable with the new value and every other key keeps its value.
   */
  lemma {:induction false} EmplaceKeepsFirst<V>(m: Entries<V>, k: string, v: V)
    requires Sorted(m)
    ensures k in Keys(m) ==> Emplace(m, k, v) == m
    ensures k !in Keys(m) ==> |Emplace(m, k, v)| == |m| + 1
    ensures forall x :: Find(Emplace(m, k, v), x) == (if x == k && k !in Keys(m) then Some(v) else Find(m, x))
  {
    var r := Emplace(m, k, v);
    if m == [] {
    } else if StrLess(k, m[0].0) {
      KeysCons(m);
      assert k !in Keys(m) by {
        if k in Keys(m) {
          var i :| 0 <= i < |m| && m[i].0 == k;
          if i > 0 { StrLessTransitive(k, m[0].0, m[i].0); }
          StrLessIrreflexive(k);
        }
      }
      assert r[1..] == m;
    } else if k == m[0].0 {
      KeysCons(m);
    } else {
      KeysCons(m);
      EmplaceKeepsFirst(m[1..], k, v);
      assert r[1..] == Emplace(m[1..], k, v);
      if k in Keys(m) {
        assert m == [m[0]] + m[1..];
      }
    }
  }
}

=== FILE: strings.dfy ===
/**
 * Character-string helpers that the configuration code relies on through the C++ standard library:
 * the ordering of std::string keys in a std::map, ASCII case folding, the caseless ordering of the
 * boolean token sets, decimal rendering (file-name suffixes) and decimal parsing (std::stoul).
 */
module Strings {
  import opened Wrappers

  predicate StartsWith(s: string, prefix: string) {
    |prefix| <= |s| && s[..|prefix|] == prefix
  }

  /** The text that `c_str()` denotes: everything before the first NUL character. */
  function CString(s: string): (r: string)
    ensures r <= s
    ensures '\0' !in r
    ensures '\0' !in s ==> r == s
    ensures |r| < |s| ==> s[|r|] == '\0'
  {
    if s == [] || s[0] == '\0' then [] else [s[0]] + CString(s[1..])
  }

  // ---------------------------------------------------------------------------
  // std::string operator< : lexicographic comparison of the character codes

  predicate StrLess(a: string, b: string) {
    if a == [] then b != []
    else if b == [] then false
    else if a[0] < b[0] then true
    else if a[0] == b[0] then StrLess(a[1..], b[1..])
    else false
  }

  lemma {:induction false} StrLessIrreflexive(a: string)
    ensures !StrLess(a, a)
  {
    if a != [] {
      StrLessIrreflexive(a[1..]);
    }
  }

  lemma {:induction false} StrLessTransitive(a: string, b: string, c: string)
    requires StrLess(a, b) && StrLess(b, c)
    ensures StrLess(a, c)
  {
    if a != [] && b != [] && c != [] && a[0] == b[0] && b[0] == c[0] {
      StrLessTransitive(a[1..], b[1..], c[1..]);
    }
  }

  lemma {:induction false} StrLessTotal(a: string, b: string)
    requires a != b
    ensures StrLess(a, b) || StrLess(b, a)
  {
    if a != [] && b != [] && a[0] == b[0] {
      assert a == [a[0]] + a[1..] && b == [b[0]] + b[1..];
      StrLessTotal(a[1..], b[1..]);
    }
  }

  lemma StrLessAsymmetric(a: string, b: string)
    requires StrLess(a, b)
    ensures !StrLess(b, a)
  {
    if StrLess(b, a) {
      StrLessTransitive(a, b, a);
      StrLessIrreflexive(a);
    }
  }

  // ---------------------------------------------------------------------------
  // tolower in the "C" locale, and caseless_less_than

  function ToLower(c: char): (r: char)
    ensures 'A' <= c <= 'Z' ==> 'a' <= r <= 'z'
    ensures !('A' <= c <= 'Z') ==> r == c
  {
    if 'A' <= c <= 'Z' then (c as int + 32) as char else c
  }

  function Lower(s: string): (r: string)
    ensures |r| == |s|
    ensures forall i :: 0 <= i < |s| ==> r[i] == ToLower(s[i])
  {
    if s == [] then [] else [ToLower(s[0])] + Lower(s[1..])
  }

  /**
   * std::lexicographical_compare with the comparator `tolower(a) < tolower(b)`: the first position where
   * the folded characters differ decides; otherwise the shorter string is the smaller one.
   */
  predicate CaselessLess(s1: string, s2: string) {
    if s1 == [] then s2 != []
    else if s2 == [] then false
    else if ToLower(s1[0]) < ToLower(s2[0]) then true
    else if ToLower(s2[0]) < ToLower(s1[0]) then false
    else CaselessLess(s1[1..], s2[1..])
  }

  /** The caseless order is the string order on the case-folded strings. */
  lemma {:induction false} CaselessLessIsLowerLess(s1: string, s2: string)
    ensures CaselessLess(s1, s2) == StrLess(Lower(s1), Lower(s2))
  {
    if s1 != [] && s2 != [] {
      CaselessLessIsLowerLess(s1[1..], s2[1..]);
      assert Lower(s1)[1..] == Lower(s1[1..]);
      assert Lower(s2)[1..] == Lower(s2[1..]);
    }
  }

  /**
   * Two strings are equivalent under caseless_less_than (neither is less than the other, which is how a
   * std::set with that comparator decides membership) exactly when they agree after case folding.
   */
  lemma CaselessEquivalent(s1: string, s2: string)
    ensures (!CaselessLess(s1, s2) && !CaselessLess(s2, s1)) <==> Lower(s1) == Lower(s2)
  {
    CaselessLessIsLowerLess(s1, s2);
    CaselessLessIsLowerLess(s2, s1);
    if Lower(s1) == Lower(s2) {
      StrLessIrreflexive(Lower(s1));
    } else {
      StrLessTotal(Lower(s1), Lower(s2));
    }
  }

  // ---------------------------------------------------------------------------
  // Decimal rendering and parsing

  predicate IsDigit(c: char) {
    '0' <= c <= '9'
  }

  function DigitChar(d: nat): (c: char)
    requires d < 10
    ensures IsDigit(c)
  {
    ('0' as int + d) as char
  }

  function DigitValue(c: char): (d: nat)
    requires IsDigit(c)
    ensures d < 10
  {
    c as int - '0' as int
  }

  /** The decimal text of n, as `{}` formats an unsigned index: no sign, no leading zeros. */
  function Decimal(n: nat): (r: string)
    ensures r != []
    ensures forall i :: 0 <= i < |r| ==> IsDigit(r[i])
    ensures n > 0 ==> r[0] != '0'
  {
    if n < 10 then [DigitChar(n)] else Decimal(n / 10) + [DigitChar(n % 10)]
  }

  /** The value of a string of decimal digits. */
  function DigitsValue(s: string): nat
    requires forall i :: 0 <= i < |s| ==> IsDigit(s[i])
  {
    if s == [] then 0 else DigitsValue(s[..|s| - 1]) * 10 + DigitValue(s[|s| - 1])
  }

  lemma {:induction false} DecimalValue(n: nat)
    ensures DigitsValue(Decimal(n)) == n
  {
    if n >= 10 {
      var d := Decimal(n);
      assert d[..|d| - 1] == Decimal(n / 10);
      DecimalValue(n / 10);
    }
  }

  /** Distinct numbers have distinct decimal texts. */
  lemma DecimalInjective(a: nat, b: nat)
    requires Decimal(a) == Decimal(b)
    ensures a == b
  {
    DecimalValue(a);
    DecimalValue(b);
  }

  /** The longest prefix of s made of decimal digits. */
  function LeadingDigits(s: string): (r: string)
    ensures r <= s
    ensures forall i :: 0 <= i < |r| ==> IsDigit(r[i])
    ensures |r| < |s| ==> !IsDigit(s[|r|])
  {
    if s == [] || !IsDigit(s[0]) then [] else [s[0]] + LeadingDigits(s[1..])
  }

  /**
   * std::stoul, reduced to its decimal core: the value of the leading digits, and no value when there is
   * no leading digit (std::invalid_argument).
   */
  function ParseUnsigned(s: string): (r: Option<nat>)
    ensures r.None? <==> (s == [] || !IsDigit(s[0]))
  {
    var digits := LeadingDigits(s);
    if digits == [] then None else Some(DigitsValue(digits))
  }

  /** std::stoi, reduced the same way, with an optional leading sign. */
  function ParseSigned(s: string): (r: Option<int>)
    ensures s != [] && IsDigit(s[0]) ==> r == ParseUnsigned(s)
  {
    if s != [] && s[0] == '-' then
      match ParseUnsigned(s[1..])
      case Some(v) => Some(-(v as int))
      case None => None
    else if s != [] && s[0] == '+' then
      match ParseUnsigned(s[1..])
      case Some(v) => Some(v)
      case None => None
    else
      match ParseUnsigned(s)
      case Some(v) => Some(v)
      case None => None
  }

  /** Parsing reads back what Decimal wrote, whatever non-digit text follows it. */
  lemma ParseUnsignedDecimal(n: nat, rest: string)
    requires rest == [] || !IsDigit(rest[0])
    ensures ParseUnsigned(Decimal(n) + rest) == Some(n)
  {
    var d := Decimal(n);
    LeadingDigitsOfDigits(d, rest);
    DecimalValue(n);
  }

  lemma {:induction false} LeadingDigitsOfDigits(d: string, rest: string)
    requires forall i :: 0 <= i < |d| ==> IsDigit(d[i])
    requires rest == [] || !IsDigit(rest[0])
    ensures LeadingDigits(d + rest) == d
  {
    if d != [] {
      assert (d + rest)[1..] == d[1..] + rest;
      LeadingDigitsOfDigits(d[1..], rest);
    }
  }

  lemma ParseSignedNegative(n: nat)
    ensures ParseSigned("-" + Decimal(n)) == Some(-(n as int))
  {
    assert ("-" + Decimal(n))[1..] == Decimal(n) + [];
    ParseUnsignedDecimal(n, []);
  }
}

=== FILE: tokenizer.dfy ===
/**
 * `tokenize` (configuration_impl.h): split a string at every character that belongs to a delimiter set,
 * optionally stopping after `max` splits and returning the rest of the input verbatim as the last piece.
 */
module Tokenizer {
  import opened Wrappers

  /** std::string::find_first_of(delims, from): the first index at or after `from` holding a delimiter. */
  function FindFirstOf(s: string, delims: string, from: nat): (r: Option<nat>)
    decreases |s| - from
    ensures r.Some? ==> from <= r.value < |s|
  {
    if from >= |s| then None
    else if s[from] in delims then Some(from)
    else FindFirstOf(s, delims, from + 1)
  }

  /** The index found holds a delimiter and none comes before it; None means there is none at all. */
  lemma {:induction false} FindFirstOfSpec(s: string, delims: string, from: nat)
    ensures var r := FindFirstOf(s, delims, from);
      (r.Some? ==> from <= r.value < |s| && s[r.value] in delims && forall j :: from <= j < r.value ==> s[j] !in delims)
      && (r.None? ==> forall j :: from <= j < |s| ==> s[j] !in delims)
    decreases |s| - from
  {
    if from < |s| && s[from] !in delims {
      FindFirstOfSpec(s, delims, from + 1);
    }
  }

  /** How many splits remain: None stands for the default cap, std::numeric_limits<size_t>::max(). */
  function Decrement(cap: Option<nat>): Option<nat> {
    match cap
    case None => None
    case Some(n) => Some(if n == 0 then 0 else n - 1)
  }

  /**
   * The pieces of s[from..]: the text up to the next delimiter, then the pieces after it; once the cap
   * is used up, the remaining text is one piece.
   */
  function PiecesFrom(s: string, delims: string, from: nat, cap: Option<nat>): seq<string>
    requires from <= |s|
    decreases |s| - from
  {
    if cap == Some(0) then [s[from..]]
    else
      match FindFirstOf(s, delims, from)
      case None => [s[from..]]
      case Some(k) => [s[from..k]] + PiecesFrom(s, delims, k + 1, Decrement(cap))
  }

  /** What tokenize(input, delims, max) returns. */
  function TokenizeSpec(input: string, delims: string, max: Option<nat>): seq<string> {
    if input == [] then [] else PiecesFrom(input, delims, 0, max)
  }

  predicate Below(count: nat, max: Option<nat>) {
    match max
    case None => true
    case Some(m) => count < m
  }

  function Remaining(max: Option<nat>, count: nat): Option<nat> {
    match max
    case None => None
    case Some(m) => Some(if count <= m then m - count else 0)
  }

  /**
   * The loop of the source: `last` is the start of the next piece and `pos` the next delimiter at or
   * after it; `done` stands for `last` having become npos once the final piece has been taken (the
   * source's loop condition `pos != npos || last != npos` is then false, since `pos` is npos too).
   */
  method Tokenize(input: string, delims: string, max: Option<nat>) returns (result: seq<string>)
    ensures result == TokenizeSpec(input, delims, max)
  {
    if input == [] {
      return [];
    }
    result := [];
    var pos := FindFirstOf(input, delims, 0);
    var last: nat := 0;
    var done := false;
    var count: nat := 0;
    TokenizeStart(input, delims, max);
    while !done && Below(count, max)
      invariant max.Some? ==> count <= max.value
      invariant last <= |input|
      invariant !done ==> pos == FindFirstOf(input, delims, last)
      invariant !done ==> result + PiecesFrom(input, delims, last, Remaining(max, count)) == TokenizeSpec(input, delims, max)
      invariant done ==> result == TokenizeSpec(input, delims, max)
      decreases if done then 0 else |input| + 2 - last
    {
      TokenizeStep(input, delims, max, result, last, count);
      if pos.Some? {
        // substr(last, pos - last): the text up to the delimiter, which is skipped
        result := result + [input[last..pos.value]];
        last := pos.value + 1;
        pos := FindFirstOf(input, delims, last);
      } else {
        // substr(last, npos - last): everything that is left
        result := result + [input[last..]];
        done := true;
      }
      count := count + 1;
    }
    if !done {
      // the cap is used up: the rest of the input is the last piece
      TokenizeCapped(input, delims, max, result, last, count);
      result := result + [input[last..]];
    }
  }

  lemma TokenizeStart(input: string, delims: string, max: Option<nat>)
    requires input != []
    ensures [] + PiecesFrom(input, delims, 0, Remaining(max, 0)) == TokenizeSpec(input, delims, max)
  {
    assert Remaining(max, 0) == max;
  }

  lemma TokenizeCapped(input: string, delims: string, max: Option<nat>, result: seq<string>, last: nat, count: nat)
    requires last <= |input| && !Below(count, max) && (max.Some? ==> count <= max.value)
    requires result + PiecesFrom(input, delims, last, Remaining(max, count)) == TokenizeSpec(input, delims, max)
    ensures result + [input[last..]] == TokenizeSpec(input, delims, max)
  {
  }

  /** One turn of the loop of Tokenize keeps its invariant. */
  lemma TokenizeStep(input: string, delims: string, max: Option<nat>, result: seq<string>, last: nat, count: nat)
    requires last <= |input| && Below(count, max)
    requires result + PiecesFrom(input, delims, last, Remaining(max, count)) == TokenizeSpec(input, delims, max)
    ensures FindFirstOf(input, delims, last).Some? ==>
      var pos := FindFirstOf(input, delims, last).value;
      (result + [input[last..pos]]) + PiecesFrom(input, delims, pos + 1, Remaining(max, count + 1)) == TokenizeSpec(input, delims, max)
    ensures FindFirstOf(input, delims, last).None? ==> result + [input[last..]] == TokenizeSpec(input, delims, max)
  {
    RemainingStep(max, count);
    PiecesFromStep(input, delims, last, Remaining(max, count));
    if FindFirstOf(input, delims, last).Some? {
      var pos := FindFirstOf(input, delims, last).value;
      var rest := PiecesFrom(input, delims, pos + 1, Remaining(max, count + 1));
      assert (result + [input[last..pos]]) + rest == result + ([input[last..pos]] + rest);
    }
  }

  /** One split taken below the cap leaves one fewer. */
  lemma RemainingStep(max: Option<nat>, count: nat)
    requires Below(count, max)
    ensures Remaining(max, count) != Some(0)
    ensures Decrement(Remaining(max, count)) == Remaining(max, count + 1)
  {
  }

  /** PiecesFrom unfolded once below the cap. */
  lemma PiecesFromStep(s: string, delims: string, from: nat, cap: Option<nat>)
    requires from <= |s| && cap != Some(0)
    ensures FindFirstOf(s, delims, from).None? ==> PiecesFrom(s, delims, from, cap) == [s[from..]]
    ensures FindFirstOf(s, delims, from).Some? ==>
      var k := FindFirstOf(s, delims, from).value;
      PiecesFrom(s, delims, from, cap) == [s[from..k]] + PiecesFrom(s, delims, k + 1, Decrement(cap))
  {
  }

  // ---------------------------------------------------------------------------
  // Properties

  /** The number of delimiter characters in s[from..]. */
  function DelimiterCount(s: string, delims: string, from: nat): nat
    decreases |s| - from
  {
    if from >= |s| then 0
    else (if s[from] in delims then 1 else 0) + DelimiterCount(s, delims, from + 1)
  }

  lemma {:induction false} DelimiterCountSkip(s: string, delims: string, from: nat, k: nat)
    requires from <= k <= |s|
    requires forall j :: from <= j < k ==> s[j] !in delims
    ensures DelimiterCount(s, delims, from) == DelimiterCount(s, delims, k)
    decreases k - from
  {
    if from < k {
      DelimiterCountSkip(s, delims, from + 1, k);
    }
  }

  lemma {:induction false} PiecesFromCount(s: string, delims: string, from: nat)
    requires from <= |s|
    ensures |PiecesFrom(s, delims, from, None)| == DelimiterCount(s, delims, from) + 1
    decreases |s| - from
  {
    FindFirstOfSpec(s, delims, from);
    match FindFirstOf(s, delims, from)
    case None =>
      DelimiterCountSkip(s, delims, from, |s|);
    case Some(k) =>
      DelimiterCountSkip(s, delims, from, k);
      PiecesFromCount(s, delims, k + 1);
  }

  /** Without a cap, a non-empty input gives one piece more than it has delimiters, empty pieces included. */
  lemma TokenizeCount(input: string, delims: string)
    requires input != []
    ensures |TokenizeSpec(input, delims, None)| == DelimiterCount(input, delims, 0) + 1
  {
    PiecesFromCount(input, delims, 0);
  }

  lemma {:induction false} PiecesFromClean(s: string, delims: string, from: nat)
    requires from <= |s|
    ensures forall i, j ::
      (0 <= i < |PiecesFrom(s, delims, from, None)| && 0 <= j < |PiecesFrom(s, delims, from, None)[i]|
      ==> PiecesFrom(s, delims, from, None)[i][j] !in delims)
    decreases |s| - from
  {
    FindFirstOfSpec(s, delims, from);
    match FindFirstOf(s, delims, from)
    case None =>
    case Some(k) =>
      PiecesFromClean(s, delims, k + 1);
  }

  /** Without a cap, no piece contains a delimiter. */
  lemma TokenizeClean(input: string, delims: string)
    ensures forall i, j ::
      (0 <= i < |TokenizeSpec(input, delims, None)| && 0 <= j < |TokenizeSpec(input, delims, None)[i]|
      ==> TokenizeSpec(input, delims, None)[i][j] !in delims)
  {
    if input != [] {
      PiecesFromClean(input, delims, 0);
    }
  }

  /** The pieces glued together with one separator character between neighbours. */
  function Join(pieces: seq<string>, sep: char): string {
    if pieces == [] then []
    else if |pieces| == 1 then pieces[0]
    else pieces[0] + [sep] + Join(pieces[1..], sep)
  }

  lemma {:induction false} PiecesFromJoin(s: string, c: char, from: nat, cap: Option<nat>)
    requires from <= |s|
    ensures Join(PiecesFrom(s, [c], from, cap), c) == s[from..]
    decreases |s| - from
  {
    var found := FindFirstOf(s, [c], from);
    if cap != Some(0) && found.Some? {
      PiecesFromJoin(s, c, found.value + 1, Decrement(cap));
      JoinSplit(s, c, from, cap);
    }
  }

  lemma JoinSplit(s: string, c: char, from: nat, cap: Option<nat>)
    requires from <= |s| && cap != Some(0) && FindFirstOf(s, [c], from).Some?
    requires var k := FindFirstOf(s, [c], from).value;
      Join(PiecesFrom(s, [c], k + 1, Decrement(cap)), c) == s[k + 1..]
    ensures Join(PiecesFrom(s, [c], from, cap), c) == s[from..]
  {
    var k := FindFirstOf(s, [c], from).value;
    FindFirstOfSpec(s, [c], from);
    PiecesFromStep(s, [c], from, cap);
    var rest := PiecesFrom(s, [c], k + 1, Decrement(cap));
    assert rest != [];
    assert Join([s[from..k]] + rest, c) == s[from..k] + [c] + Join(rest, c) by {
      assert ([s[from..k]] + rest)[1..] == rest;
    }
    assert s[k] == c;
    assert s[from..] == s[from..k] + [c] + s[k + 1..];
  }

  /**
   * With a single delimiter character, joining the pieces with that character gives back the input,
   * capped or not (the capped remainder is kept verbatim).
   */
  lemma TokenizeJoin(input: string, c: char, max: Option<nat>)
    ensures Join(TokenizeSpec(input, [c], max), c) == input
  {
    if input != [] {
      PiecesFromJoin(input, c, 0, max);
    }
  }

  /**
   * With max = 1: the text before the first delimiter and everything after it, or the whole input when
   * it has no delimiter.
   */
  lemma TokenizeOnce(input: string, delims: string)
    requires input != []
    ensures FindFirstOf(input, delims, 0).None? ==> TokenizeSpec(input, delims, Some(1)) == [input]
    ensures FindFirstOf(input, delims, 0).Some? ==>
      var k := FindFirstOf(input, delims, 0).value;
      TokenizeSpec(input, delims, Some(1)) == [input[..k], input[k + 1..]]
  {
    if FindFirstOf(input, delims, 0).Some? {
      var k := FindFirstOf(input, delims, 0).value;
      assert PiecesFrom(input, delims, k + 1, Some(0)) == [input[k + 1..]];
      assert input[0..k] == input[..k];
    }
  }

  /** With max = 1 there are at most two pieces. */
  lemma TokenizeOnceAtMostTwo(input: string, delims: string)
    ensures |TokenizeSpec(input, delims, Some(1))| <= 2
  {
    if input != [] {
      TokenizeOnce(input, delims);
    }
  }

  // ---------------------------------------------------------------------------
  // Splitting texts built by concatenation

  lemma {:induction false} FindFirstOfSuffix(pre: string, b: string, delims: string, i: nat)
    requires i <= |b|
    ensures FindFirstOf(pre + b, delims, |pre| + i) ==
      if FindFirstOf(b, delims, i).Some? then Some(|pre| + FindFirstOf(b, delims, i).value) else None
    decreases |b| - i
  {
    if i < |b| {
      assert (pre + b)[|pre| + i] == b[i];
      if b[i] !in delims {
        FindFirstOfSuffix(pre, b, delims, i + 1);
      }
    }
  }

  /** Splitting looks only at the text from the starting index on. */
  lemma {:induction false} PiecesFromSuffix(pre: string, b: string, delims: string, i: nat, cap: Option<nat>)
    requires i <= |b|
    ensures PiecesFrom(pre + b, delims, |pre| + i, cap) == PiecesFrom(b, delims, i, cap)
    decreases |b| - i
  {
    var found := FindFirstOf(b, delims, i);
    if cap == Some(0) || found.None? {
      SuffixLast(pre, b, delims, i, cap);
    } else {
      PiecesFromSuffix(pre, b, delims, found.value + 1, Decrement(cap));
      SuffixSplit(pre, b, delims, i, cap);
    }
  }

  lemma SuffixLast(pre: string, b: string, delims: string, i: nat, cap: Option<nat>)
    requires i <= |b| && (cap == Some(0) || FindFirstOf(b, delims, i).None?)
    ensures PiecesFrom(pre + b, delims, |pre| + i, cap) == PiecesFrom(b, delims, i, cap)
  {
    var s := pre + b;
    FindFirstOfSuffix(pre, b, delims, i);
    assert s[|pre| + i..] == b[i..];
  }

  lemma SuffixSplit(pre: string, b: string, delims: string, i: nat, cap: Option<nat>)
    requires i <= |b| && cap != Some(0) && FindFirstOf(b, delims, i).Some?
    requires var k := FindFirstOf(b, delims, i).value;
      PiecesFrom(pre + b, delims, |pre| + k + 1, Decrement(cap)) == PiecesFrom(b, delims, k + 1, Decrement(cap))
    ensures PiecesFrom(pre + b, delims, |pre| + i, cap) == PiecesFrom(b, delims, i, cap)
  {
    var s := pre + b;
    var k := FindFirstOf(b, delims, i).value;
    FindFirstOfSuffix(pre, b, delims, i);
    PiecesFromStep(s, delims, |pre| + i, cap);
    PiecesFromStep(b, delims, i, cap);
    assert s[|pre| + i..|pre| + k] == b[i..k];
  }

  /** A piece without delimiters followed by a delimiter is split off as one piece. */
  lemma SplitOff(a: string, c: char, b: string, delims: string, cap: Option<nat>)
    requires c in delims
    requires forall i :: 0 <= i < |a| ==> a[i] !in delims
    requires cap != Some(0)
    ensures PiecesFrom(a + [c] + b, delims, 0, cap) == [a] + PiecesFrom(b, delims, 0, Decrement(cap))
  {
    var s := a + [c] + b;
    assert FindFirstOf(s, delims, 0) == Some(|a|) by {
      FindFirstOfSpec(s, delims, 0);
      assert s[|a|] == c;
      assert forall i :: 0 <= i < |a| ==> s[i] == a[i];
    }
    PiecesFromStep(s, delims, 0, cap);
    PiecesFromSuffix(a + [c], b, delims, 0, Decrement(cap));
    assert s[0..|a|] == a;
  }

  /** A text without delimiters is a single piece. */
  lemma NoDelimiter(a: string, delims: string, cap: Option<nat>)
    requires forall i :: 0 <= i < |a| ==> a[i] !in delims
    ensures PiecesFrom(a, delims, 0, cap) == [a]
  {
    FindFirstOfSpec(a, delims, 0);
    assert a[0..] == a;
  }
}

=== FILE: wrappers.dfy ===
/** Option and Result, the failure-compatible wrappers the rest of the model returns. */
module Wrappers {

  datatype Option<+T> = None | Some(value: T) {
    function GetOr(default: T): T {
      match this
      case Some(v) => v
      case None => default
    }
  }

  /** The outcome of an operation that the source can abort by throwing. */
  datatype Result<+T, +E> = Ok(value: T) | Err(error: E) {
    predicate IsFailure() {
      Err?
    }

    function PropagateFailure<U>(): Result<U, E>
      requires Err?
    {
      Err(error)
    }

    function Extract(): T
      requires Ok?
    {
      value
    }
  }

  /** The outcome of an operation that returns nothing when it succeeds. */
  datatype Outcome<+E> = Pass | Fail(error: E) {
    predicate IsFailure() {
      Fail?
    }

    function PropagateFailure(): Outcome<E>
      requires Fail?
    {
      this
    }
  }
}
